=== FILE: README.md ===
# CC-Launcher core in Dafny

CC-Launcher is a desktop launcher that keeps a list of *projects*. Each project is:
- a name;
- a working directory;
- a list of shell commands with optional display names;
- an optional result folder.

From a project the user can open a terminal running one of its commands, or chain all of them. A scheduler runs stored commands on cron expressions, one process per schedule at a time. Each run gets a capped stdout/stderr capture, a timeout, a log entry, a metadata update, and an optional desktop notification. The Electron build keeps projects in `store.js`. The older Flask and Tk builds keep them in two near-identical Python `ProjectManager`s.

This project models that core as pure functions over immutable values and proves what the code promises about them.

| file | module | what it models |
|---|---|---|
| `wrappers.dfy` | `Wrappers` | `Option` and `Result` |
| `text.dfy` | `Text` | JavaScript `trim`, Python `strip`, `split`/`join` on one separator, ASCII lower-casing, substring search |
| `runner.dfy` | `Execution` | the schedule record; capped output capture; exit-status classification; timeout budget; the completion record (`_onComplete`) |
| `scheduler.dfy` | `Scheduler` | the scheduler state machine (tasks, running-process registry, live processes, store, logs) and its exclusivity invariant |
| `projects.dfy` | `Projects` | the shared project record, lookup, delete, the read-time back-fill with the stable sort by `order`, and the reorder |
| `store.dfy` | `ProjectStore` | the Electron store: add on top, partial update, one-command update, import, settings |
| `manager.dfy` | `ProjectManager` | the Python managers: append-at-end add, partial update, the Tk copy's delete |
| `ipc.dfy` | `Ipc` | `escapeShellArg`, the registered-path guard and the checks of `execute-command`, the AppleScript quoting |
| `renderer.dfy` | `Renderer` | the renderer's helpers: list drag-and-drop, command-row drag, path shortening, search, file-path relativising, form collection, shortcut recording, file drop |
| `gui.dfy` | `Gui` | the Tk window's helpers: listbox id map, selection, the one-command-per-line text box, save, auto-save, execute-all |

The outside world comes in as parameters:
- the file system's "does this path exist" is a `pathExists: string -> bool`;
- `cron.validate` is a `valid: string -> bool`;
- fresh uuids are passed in;
- clock readings are integers in milliseconds;
- process handles are naturals, chosen by the caller.

Two points about the code itself:
- The capture appends a whole chunk and then cuts the buffer back to 10240 characters. `Execution.CaptureIsCappedPrefix` proves that the result is always the first 10240 characters of the stream.
- `escapeShellArg` is defined in `src/main/ipc-handlers.js` but never called. The launch paths quote with their own rules, which are modelled in `Ipc.ExecuteCommand`.

## Model

| member | source | states |
|---|---|---|
| Execution.Capture | src/main/scheduler.js:130-142 | one `data` event: a buffer already at or over 10240 characters is left alone; otherwise the result is a prefix of buffer+chunk of length min(total, 10240) |
| Execution.CaptureIsCappedPrefix | src/main/scheduler.js:130-142 | after any sequence of chunks the capture is exactly the first min(total, 10240) characters of everything received: never over the cap, the whole stream while it fits, the full cap once it outgrows it |
| Execution.Classify | src/main/scheduler.js:159-161 | status is `timeout` iff the signal was SIGTERM or SIGKILL, `success` iff not killed and the code is 0, `failed` otherwise (a null code included), never `error` |
| Execution.CloseResult | src/main/scheduler.js:153-166 | the `close` record carries the code, both captures, duration end−start, and the classified status |
| Execution.ErrorResult | src/main/scheduler.js:168-178 | the `error` record has exit code −1, the error message in place of stderr, the captured stdout, status `error` |
| Execution.TimeoutMs | src/main/scheduler.js:145 | an absent or zero `timeoutMinutes` means 3 600 000 ms; any other value v means v·60 000 ms |
| Execution.TimeoutBudget | src/main/scheduler.js:145 | no setting, a zero setting and an explicit 60 all give the same hour; the budget is whole minutes; a positive setting gives at least a minute, and a longer one never a shorter budget |
| Execution.RoundSeconds | src/main/scheduler.js:211 | the seconds shown are the nearest whole second to the duration, halves rounded up |
| Execution.OnComplete | src/main/scheduler.js:181-224 | the log entry copies the schedule's id, names and command and every run field, with trigger `scheduled` and mode `silent`; the metadata write is (id, end time, exit code); a notification exists iff `notifyOnComplete`, titled with the project name, showing `completed` for success and the status name otherwise; the renderer event exists iff a window is alive |
| Scheduler.Init | src/main/scheduler.js:15-23 | afterwards a cron task exists for an id iff it had one or the id is stored, enabled and has a valid cron; each started task uses the schedule's cron expression; only the table of cron tasks changes |
| Scheduler.Shutdown | src/main/scheduler.js:25-35 | both registries are emptied, every registered process is among the SIGTERM'd ones, and the processes, store and logs are unchanged |
| Scheduler.AddSchedule | src/main/scheduler.js:37-43 | the record is stored; a task is started for it iff it is enabled with a valid cron; no other task and nothing else changes |
| Scheduler.UpdateSchedule | src/main/scheduler.js:45-53 | an unknown id fails with NotFound after its task was stopped; otherwise the merged record is stored and returned; afterwards the id has a task iff it should run, built from the new cron; no other task changes, and nothing but the store and the task table changes |
| Scheduler.ToggleSchedule | src/main/scheduler.js:66-73 | the same stop/merge/restart cycle with only the `enabled` flag changed; nothing but the store and the task table changes |
| Scheduler.RemoveSchedule | src/main/scheduler.js:55-64 | the id loses its task, registry entry and record; its running process, and only that one, joins the SIGTERM'd set; no other task, registry entry or record changes, and the live processes, logs and messages are untouched; the answer is whether the id was stored |
| Scheduler.RemoveSchedulesByProject | src/main/scheduler.js:75-86 | the tasks, registry and store lose exactly the project's schedule ids; exactly the processes registered under those ids join the SIGTERM'd set; live processes, logs and messages are untouched; the answer is how many were stored |
| Scheduler.Fire | src/main/scheduler.js:107-128 | a fire while the id is registered, or for a missing or disabled schedule, changes nothing; otherwise exactly one new live process is registered under the id, holding the reloaded record and empty captures; nothing but the registry and the live processes changes |
| Scheduler.StdoutData | src/main/scheduler.js:130-135 | a chunk for a live process updates that process's stdout capture by `Capture`; every other field of that process, every other process and every other part of the state stay as they were; a chunk for an unknown handle changes nothing |
| Scheduler.StderrData | src/main/scheduler.js:137-142 | the same for stderr: only that process's stderr capture changes |
| Scheduler.Merge | src/main/scheduler.js:45-53 | the store update keeps the id and the run metadata, takes `enabled` and the cron from the update when it carries them and from the record otherwise, and an update of `enabled` alone to its current value changes nothing |
| Scheduler.StartJob | src/main/scheduler.js:88-97 | a valid cron gives the schedule's id a task on that cron expression; an invalid one leaves the table as it was; no other id gains, loses or changes a task |
| Scheduler.StopJob | src/main/scheduler.js:99-105 | the id has no task afterwards, every other id keeps exactly its task, and nothing is added |
| Scheduler.ApplyMeta | src/main/scheduler.js:199-203 | the metadata write sets `lastRunAt`/`lastExitCode` of that schedule only, and does nothing for a schedule deleted mid-run |
| Scheduler.Finish | src/main/scheduler.js:153-156 | on completion the registry entry for the run's id is deleted and the process forgotten, then exactly one log entry is appended and the metadata written; tasks are untouched |
| Scheduler.Close | src/main/scheduler.js:153-166 | a close of a live process appends one log entry with the run's id, the classified status, the exit code, both captures and the duration, keeps the earlier log, forgets exactly that process, frees exactly its schedule id, writes the run's metadata, appends the completion's notice and event, and changes nothing else |
| Scheduler.Error | src/main/scheduler.js:168-178 | an error of a live process appends one log entry with status `error`, exit code −1 and the message as stderr, forgets exactly that process, frees exactly its schedule id, writes exit code −1 into the metadata, and changes nothing else |
| Scheduler.InitEstablishes | src/main/scheduler.js:15-23 | `init` on a fresh scheduler establishes the invariant: tasks exist exactly for the stored, enabled, valid-cron schedules |
| Scheduler.AddPreserves | src/main/scheduler.js:37-43 | adding a schedule with a fresh id keeps the invariant |
| Scheduler.UpdatePreserves | src/main/scheduler.js:45-53 | updating keeps the invariant |
| Scheduler.TogglePreserves | src/main/scheduler.js:66-73 | toggling keeps the invariant |
| Scheduler.RemovePreserves | src/main/scheduler.js:55-64 | removing keeps the invariant, even though the SIGTERM'd process stays live until it closes |
| Scheduler.RemoveByProjectPreserves | src/main/scheduler.js:75-86 | removing a project's schedules keeps the invariant |
| Scheduler.FirePreserves | src/main/scheduler.js:108-128 | the running-registry check and the store reload together keep at most one live process per schedule |
| Scheduler.DataPreserves | src/main/scheduler.js:130-142 | output chunks keep the invariant |
| Scheduler.FinishPreserves | src/main/scheduler.js:153-178 | completion keeps the invariant |
| Scheduler.StepPreserves | src/main/scheduler.js:37-178 | every event short of `shutdown` keeps the invariant |
| Scheduler.RunKeepsInvariant | src/main/scheduler.js:108-112 | along any run that starts from the invariant, no schedule ever has two live processes, and tasks always match the stored, enabled, valid-cron schedules |
| Scheduler.RunFromInit | src/main/scheduler.js:15-23 | every run that begins with `init` over a well-keyed table never has two live processes for one schedule |
| Scheduler.RestartAfterShutdownBreaksExclusivity | src/main/scheduler.js:25-35 | a concrete run: fire, shutdown, `init` and fire again gives one schedule two live processes, because shutdown forgets processes it only signalled |
| Projects.FindIndex | src/main/store.js:97 | `None` iff no project has the id; otherwise the position holds the id and no earlier position does |
| Projects.GetProject | src/main/store.js:66-68 | a project is found iff one carries the id; the one found carries it and is the first such in the list |
| Projects.GetProjectAt | backend/project_manager.py:215-229 | with distinct ids, looking up the id stored at position k gives the project at k |
| Projects.DeleteProject | src/main/store.js:129-135 | the answer is true iff some project had the id; when false the list is unchanged; the result holds exactly the projects with a different id |
| Projects.WithoutAppend | src/main/store.js:131 | removing an id from a concatenation removes it from each part, so the kept projects stay in their stored order |
| Projects.DeleteKeepsOrder | src/main/store.js:129-135 | a delete over a concatenation is the delete of each part, and a single project is kept iff its id differs: the result is the stored list with exactly the matching projects taken out, the others in their order |
| Projects.DeleteThenGet | backend/project_manager.py:195-213 | after a delete the id finds nothing and every other id finds a project iff it did before |
| Projects.LegacyCommands | src/main/store.js:56-60 | a record without commands reads as the one-element list of its default command, or empty when that is empty |
| Projects.SortByKey | src/main/store.js:62 | the sort by `order` (absent as 0) is sorted, a permutation of its input, and stable: projects with equal keys keep their input order |
| Projects.MaxKeyLastOf | backend/project_manager.py:247-248 | in any list sorted by `order` that holds the same projects as the input, a project whose `order` is above every other one comes last |
| Projects.GetAllProjectsSpec | src/main/store.js:52-64 | the contract of `Projects.GetAllProjects` (`getAllProjects`): the listing holds exactly the back-filled records (a missing `order` becomes the stored index, missing commands the legacy list), sorted by `order`, equal orders in stored order |
| Projects.ReorderShape | src/main/store.js:137-155 | the contract of `Projects.Reorder` (`reorderProjects`): for any id list, the known listed ids come first in the given order (unknown ids dropped), each with its last position in the list as `order`; then the unlisted projects in stored order, each numbered by its index |
| Projects.ReorderIsPermutation | backend/project_manager.py:251-281 | with distinct stored ids and distinct, known listed ids, the result holds every project exactly once with only `order` changed, the listed ones first in the given order, and every `order` equal to the new index |
| ProjectStore.AddProject | src/main/store.js:70-93 | a taken name is refused first, then a missing path, and only those; on success the new record comes first with `order` 0, the given fields, empty lists for absent ones and the first command as the default, and every old record follows with `order` one higher |
| ProjectStore.AddThenGet | src/main/store.js:80-90 | the added project is what a lookup by its id returns, and unique names stay unique |
| ProjectStore.AddedProjectListedFirst | src/main/store.js:78-90 | when no stored `order` is negative, the listing shows the new project first |
| ProjectStore.UpdateProject | src/main/store.js:95-127 | refused for an unknown id, then a name another project uses, then a missing path, and only then; on success only the first record with the id changes, taking each supplied field; new commands re-derive the default command, and `order` is kept |
| ProjectStore.UpdateThenGet | src/main/store.js:124-126 | the updated record is what a later lookup returns, and with distinct ids unique names stay unique |
| ProjectStore.UpdateCommandAtIndex | src/main/store.js:181-192 | an unknown id is refused; an out-of-range index writes nothing and returns the record with its commands read as a list; an in-range index replaces exactly that command and re-derives the default command |
| ProjectStore.UpdateCommandThenGet | src/main/store.js:186-189 | after an in-range replacement a lookup sees the new command at that index |
| ProjectStore.ImportLoop | src/main/store.js:165-177 | every entry is counted once as imported or skipped, the list grows by the imported count, and no more entries are imported than have both a name and a path |
| ProjectStore.ImportCommands | src/main/store.js:171 | an entry's own command list is imported as it is; without one, a non-empty legacy `default_command` becomes the single command, and an empty or missing one gives no commands |
| ProjectStore.ImportData | src/main/store.js:161-179 | data without a project list is refused; otherwise imported + skipped is the number of entries, the list grows by the imported count, and at least every incomplete entry is skipped |
| ProjectStore.ImportAllFresh | src/main/store.js:165-176 | entries that are complete, have existing paths, and carry names new to the store and to each other are all imported and none skipped |
| ProjectStore.GetSetting | src/main/store.js:208-210 | a stored key gives its value, a missing one gives null |
| ProjectStore.SetSetting | src/main/store.js:212-216 | the key now holds the value, and every other key keeps its value |
| ProjectStore.SettingRoundTrip | src/main/store.js:208-216 | reading a key after writing it gives the written value; other keys read as before |
| ProjectManager.AddProject | backend/project_manager.py:95-138 | a taken name is refused first, then a missing path, and only those; on success the record is appended with `order` equal to the old length; a missing command list becomes the legacy one built from the default command |
| ProjectManager.AddLegacyDefault | src/project_manager.py:88-104 | a project added with only a non-empty default command reads back with that single command, and a lookup by a new id finds it |
| ProjectManager.AddListedLast | backend/project_manager.py:128-135 | the appended record has `order` equal to the old length, so when every stored `order` is below it the listing shows the new project last |
| ProjectManager.AddKeepsNamesUnique | backend/project_manager.py:112-114 | appending keeps project names unique |
| ProjectManager.UpdateProject | backend/project_manager.py:140-193 | refused for an unknown id, then a name another project uses, then a missing path, and only then; on success only the first record with the id changes, each non-`None` argument replacing its field; new commands leave the default command alone |
| ProjectManager.UpdateCommandsThenGet | src/project_manager.py:157-161 | updating only the commands of a stored id always succeeds, and a lookup sees them with the default command unchanged |
| ProjectManager.DeleteProjectLegacy | src/project_manager.py:163-172 | the list keeps exactly the projects with other ids, and is unchanged when the id is absent |
| ProjectManager.DeleteLegacyKeepsOrder | src/project_manager.py:170-172 | the comprehension keeps the others in order: deleting from a concatenation deletes from each part, and one project stays iff its id differs |
| Ipc.EscapeShellArg | src/main/ipc-handlers.js:7-9 | every special character gains one backslash and nothing else changes: the length grows by the number of special characters |
| Ipc.UnescapeEscape | src/main/ipc-handlers.js:7-9 | dropping the escaping backslashes gives the argument back |
| Ipc.EscapeWellEscaped | src/main/ipc-handlers.js:8 | no special character is left unescaped in the output |
| Ipc.EscapeUnescape | src/main/ipc-handlers.js:8 | every well-escaped string is the escape of exactly one argument |
| Ipc.IsRegisteredProject | src/main/ipc-handlers.js:12-15 | true iff some stored project has exactly this path: the listing's back-fill and sort change no path |
| Ipc.EscapeQuotes | src/main/ipc-handlers.js:106-107 | the quoting never shortens the text and leaves text without `"` as it is; `Ipc.UnescapeQuotesRoundTrip` is its inverse and `Ipc.EscapeQuotesGuarded` says every quote is preceded by a backslash |
| Ipc.UnescapeQuotesRoundTrip | src/main/ipc-handlers.js:106-107 | the `"` quoting of path and command is undone exactly |
| Ipc.EscapeQuotesGuarded | src/main/ipc-handlers.js:106-107 | every `"` in the quoted text has a backslash right before it; that backslash may itself be escaped, so this alone does not keep the quote inside the AppleScript literal |
| Ipc.ExecuteCommand | src/main/ipc-handlers.js:91-138 | an unregistered path is refused whatever the file system says, so before it is consulted; then a missing path; then an unknown platform, named in the error; it succeeds iff registered, existing and on a known platform; on macOS the launch carries exactly the `"`-escaped path and command, which unquote to the originals, inside the `do script` AppleScript; on Linux and Windows it carries the raw path and command |
| Ipc.LaunchReadsBackWithoutBackslash | src/main/ipc-handlers.js:104-110 | when neither the path nor the command holds a backslash, AppleScript reads the launched `do script` literal back as exactly `cd "<path>" && <command>` |
| Ipc.DarwinQuotingCloses | src/main/ipc-handlers.js:106-110 | a command `\"` becomes `\\"` under the `"`-only escaping, and AppleScript's reading of the resulting `do script` literal ends early at that quote |
| Ipc.EscapeForAppleScript | src/main/ipc-handlers.js:106-107 | the corrected quoting, a backslash before every `\` and `"`: it changes nothing in text that holds neither |
| Ipc.ReadEscapedPrefix | src/main/ipc-handlers.js:106-110 | AppleScript reads a correctly escaped string followed by any text as that string followed by the reading of the text |
| Ipc.ReadPlainPrefix | src/main/ipc-handlers.js:110 | text holding neither `"` nor `\` reads as itself, followed by the reading of whatever comes after it |
| Ipc.DarwinQuotingCorrected | src/main/ipc-handlers.js:106-110 | with the corrected quoting, AppleScript hands Terminal exactly `cd "<path>" && <command>` for every path and command |
| Renderer.Move | src/renderer/app.js:192-193 | removing the element at `from` and inserting it at `to` keeps the length, puts the moved element at `to`, and takes every other position from its shifted source |
| Renderer.MovePermutes | src/renderer/app.js:192-193 | a move is a permutation, and the other elements keep their relative order |
| Renderer.MoveBack | src/renderer/app.js:192-193 | moving back from `to` to `from` restores the list |
| Renderer.DropProject | src/renderer/app.js:184-199 | a drop reorders iff the two ids differ and both are listed; the result is a permutation with the dragged project at the target's index and every other project in its old relative order |
| Renderer.ReorderCommandsAsWritten | src/renderer/app.js:309-319 | with a NaN index or `from == to` nothing changes; otherwise the commands are moved; the names list keeps its length, or grows by one when `from` is past its end; when both indices fall inside the names list, the names get the same move as the commands |
| Renderer.ReorderCommandsAsWrittenWhenPadded | src/renderer/app.js:309-319 | with at least as many names as commands the handler as written equals the corrected reorder, so each command keeps its name: the defect needs a names list shorter than the commands |
| Renderer.ReorderCommandsAsWrittenBreaksPairing | src/renderer/app.js:315-317 | three commands, one name, a drag from 0 to 2: the name moves to the command that was second, not with its command |
| Renderer.ReorderCommands | src/renderer/app.js:309-319 | the corrected reorder: the commands are permuted, and the (command, name) pairs move exactly as the commands do |
| Renderer.MovePairs | src/renderer/app.js:312-317 | moving the commands and the names padded to the same length moves the pairs |
| Renderer.ShortenPath | src/renderer/app.js:161-164 | the result is at most 40 characters: the `~`-abbreviated path when that fits, otherwise `...` followed by its last 37 characters |
| Renderer.HomeOfUserPath | src/renderer/app.js:162 | `/Users/<name>` at the start, up to the next `/`, becomes `~` |
| Renderer.ShortenIdempotent | src/renderer/app.js:161-164 | shortening a shortened path changes nothing |
| Renderer.SearchFilter | src/renderer/app.js:127-129 | an empty query keeps the list; otherwise a project is kept iff its lower-cased name or path contains the lower-cased query; at most as many projects |
| Renderer.FilterAppend | src/renderer/app.js:128 | filtering distributes over concatenation, so the filter keeps the list order |
| Renderer.SearchIdempotent | src/renderer/app.js:127-129 | searching the result again with the same query changes nothing |
| Renderer.Relativise | src/renderer/app.js:389-392 | a file inside the project folder becomes `./` plus a remainder that rebuilds the full path; any other file is left as chosen |
| Renderer.Collect | src/renderer/app.js:426-434 | the collected command and name lists have equal length and hold at most one entry per row; their contents are stated by `Renderer.CollectTrimmed`, `Renderer.CollectRows` and `Renderer.CollectCount` |
| Renderer.CollectTrimmed | src/renderer/app.js:426-434 | every collected command is non-empty and trimmed, and so is every collected name |
| Renderer.CollectRows | src/renderer/app.js:426-434 | rows built from clean commands and names collect back to exactly those lists |
| Renderer.CollectCount | src/renderer/app.js:430-433 | exactly one command is collected per row whose trimmed command is non-empty |
| Renderer.SaveProject | src/renderer/app.js:419-439 | refused iff the trimmed name or path is empty or no row holds a command; on success the trimmed fields and the collected commands and names, equally many and at least one |
| Renderer.RecordShortcut | src/renderer/app.js:639-694 | a modifier key gives a hint with the held symbols; an accelerator is recorded iff the key is not a modifier, a modifier is held and the key has a name; when that name holds no `+`, splitting the accelerator on `+` gives the modifier names followed by the key |
| Renderer.KeyName | src/renderer/app.js:663-689 | a `Key<X>` code records `X` and a `Digit<n>` code records `n`; an `F<digits>` code records itself; `Enter` records `Return`; a code too short to be named (at most two characters, not a function key) falls back to the key's character, upper-cased |
| Renderer.CommandLetter | src/renderer/app.js:657-665 | Cmd with the physical key A–Z records `CommandOrControl+<letter>` |
| Renderer.FileDrop | src/renderer/app.js:804-808 | a drop changes the input iff some path is non-empty; the new value is the trimmed current value (if any) and the non-empty paths, joined by spaces |
| Renderer.FileDropSplits | src/renderer/app.js:804-808 | when no piece contains a space, splitting the new value on spaces gives back the current value and the paths |
| Gui.RefreshIdMap | src/gui.py:277-280 | exactly the listbox rows that exist are mapped, and row i holds the id of the i-th listed project |
| Gui.RefreshIdsFound | src/gui.py:277-280 | every id the listbox maps is found by a lookup in the store |
| Gui.SelectProject | src/gui.py:282-299 | no selected row clears the selection; a row whose id is non-empty and stored selects the first stored record with that id; any other row keeps the previous selection |
| Gui.SelectAfterRefresh | src/gui.py:270-299 | with distinct, non-empty ids, picking row i after a refresh selects the stored project shown at row i |
| Gui.LoadedCommands | src/gui.py:308-311 | the text box shows the stored commands when there is at least one, and otherwise the legacy list built from the default command (an empty stored list included) |
| Gui.GetCommandsListClean | src/gui.py:514-517 | the contract of `Gui.GetCommandsList` (`get_commands_list`), with `Gui.ParseJoin`: every parsed command is non-blank, has no whitespace at either end, and holds no line break |
| Gui.ParseJoin | src/gui.py:514-517 | clean commands written one per line parse back to the same list |
| Gui.LoadThenParse | src/gui.py:308-316 | a loaded project whose commands are clean reads back from the text box unchanged |
| Gui.SaveChanges | src/gui.py:438-467 | refused without a selection, then for a blank name or path, then for whatever the manager refuses; succeeds iff the project exists, the stripped name is not another project's and the stripped path exists; then only that record changes, holding the stripped fields, the parsed commands and their first as the default command |
| Gui.Commit | src/gui.py:456-463 | the full-field update succeeds iff the id exists, the name is free and the path exists, and stores exactly the given fields in that record only |
| Gui.AutoSave | src/gui.py:494-512 | with no selection or an unknown id nothing changes; otherwise only the selected record changes, taking the parsed commands and their first as the default command |
| Gui.StoreCommands | src/gui.py:503-507 | storing a command list under an unknown id changes nothing; under a stored id only that record changes, and a lookup then sees the list with its first command (or the empty string) as the default command |
| Gui.SaveAndAutoSaveAgree | src/gui.py:494-507 | for the same text both save paths store the same commands and default command |
| Gui.ExecuteAll | src/gui.py:519-534 | refused iff nothing is selected or the text holds no command; otherwise runs in the stripped path |
| Gui.ExecuteAllChains | src/gui.py:534 | the launched line holds each parsed command in order, with ` && ` between neighbours and nothing after the last |

## Left out

- Process spawning, the `bash -c` command line, environment handling and the SIGKILL escalation five seconds after SIGTERM are not modelled. A run ends only through the `close` or `error` events, which the scheduler receives from the caller.
- node-cron is the `valid` parameter. Cron timing is not modelled: a task may fire at any moment, as an event.
- Notifications and the renderer message are values collected in the state; whether they display or fail to display is not modelled.
- `scheduler.js` calls the store's schedule and log methods (`getAllSchedules`, `addSchedule`, `updateSchedule`, `deleteSchedule`, `addScheduleLog`, `updateScheduleMeta`, …), but `store.js` does not define them. They are modelled as an id-keyed map and an append-only sequence, with no cap and no ordering.
- Manual runs from the renderer (trigger `manual`) go through IPC handlers that are not part of this model.
- Reading and writing the JSON files, the backup copies and the "unreadable file reads as empty" fallback are left out. The store is a value passed in and returned.
- Scheduler.Close: each process is assumed to deliver exactly one completion event, and a `close` or `error` for a handle that has already completed does nothing. Node can break this assumption. A failed spawn emits `error` and then `close`. A `kill()` that fails can emit `error` while the child still runs. The handlers in the source then run again: they log again, write the metadata again, and delete the registry entry by schedule id, which may belong to a newer run. `Scheduler.RunKeepsInvariant` relies on the assumption.
- Scheduler.Error: the same single-completion assumption as `Scheduler.Close`. An `error` for a child that is still running also frees its registry entry in the source, while the model keeps the process live until its one completion event.
- Scheduler.Init: an `init` after `shutdown` can break exclusivity. `Scheduler.RestartAfterShutdownBreaksExclusivity` shows this, so `shutdown` is not one of the events whose invariant is proved.
- Ipc.ExecuteCommand: the Linux terminal fallback ("No terminal emulator found") and the process's own close/error outcome are not modelled. A spawn does not throw synchronously, so the fallback list is reduced to a successful `LinuxTerminal` launch.
- Ipc.ExecuteCommand: the Linux and Windows command lines are carried as raw path and command. Their quoting is not modelled.
- Renderer.ReorderCommandsAsWritten: `parseInt` of arbitrary drag data is modelled as `None` (NaN) or an in-range index. An out-of-range or foreign drag payload is excluded by the requires.
- Renderer.DropProject: the elements are compared by id, not by DOM element identity. A drop on the dragged element itself is the "ids equal" case.
- Renderer.SearchFilter: lower-casing is ASCII-only. String lengths count characters, not UTF-16 code units.
- Execution.Capture: the cap counts characters, while `scheduler.js` counts UTF-16 code units and decodes each chunk separately with `data.toString()`. A character outside the Basic Multilingual Plane counts twice there, and the cut can split a surrogate pair or a multi-byte sequence split across chunks. Neither is modelled.
- Renderer.ShortenPath: the 40 and 37 limits count characters, not the UTF-16 code units of `app.js`, so a path with characters outside the Basic Multilingual Plane is shortened at a different place there.
- Renderer.RecordShortcut: a printable key is upper-cased as ASCII only. `toUpperCase()` in the source converts all of Unicode and can lengthen the key (`ß` becomes `SS`).
- Renderer.RecordShortcut: the split round trip is stated only for key names without `+`. A key named `+` produces an accelerator such as `Shift++`, which splitting on `+` cannot take apart.
- Renderer.KeyName: the contract does not list the named keys one by one. Space, Backspace, Delete, Tab, Escape, the four arrows and the eleven punctuation codes map to fixed names in the body, as in the source. A contract clause per key made the proof too expensive.
- Renderer.RecordShortcut: the `F<n>` test uses "digits only (or nothing)" for JavaScript's `!isNaN(code.slice(1))`. Forms such as `F1e3` or ` F 1` are not modelled.
- ProjectStore.ImportData: the imported count is only bounded by the complete entries. `ProjectStore.ImportAllFresh` gives the exact count when every entry is importable.
- Projects.ReorderIsPermutation: `order` collisions caused by unknown or repeated listed ids are described by `Projects.ReorderShape`, not ruled out. A repeated id pushes the same record twice, and that record ends with its last position as `order`.
- Python `None` and a missing dictionary key are one `Option.None` in the model, as are JavaScript `undefined` and `null`.
- Message boxes, printing, the one-second auto-save debounce, dialogs, the auto-updater, the preload bridges, the Flask server and the legacy renderers are not modelled.
- `Execution.OnComplete` renders the notification body through `Body` without formatting durations as JavaScript does for negative or fractional values. Durations are integer milliseconds.

## Findings

| source | as written | input that shows it | evidently intended | confidence | as-written member | corrected member |
|---|---|---|---|---|---|---|
| src/renderer/app.js:309-319 | the names list is spliced at the same indices as the commands but never padded to their length, so when it is shorter (an imported project whose `command_names` were missing or shorter) a moved name lands beside a different command | commands `["a","b","c"]`, names `["x"]`, drag from 0 to 2: the commands become `["b","c","a"]` while the names stay `["x"]`, so "x" now labels "b" | each command keeps its own name when dragged | not executed | Renderer.ReorderCommandsAsWrittenBreaksPairing | Renderer.ReorderCommands |
| src/main/ipc-handlers.js:106-110 | the path and command are escaped for AppleScript by putting a backslash before each `"` only, so a backslash already in the input pairs with the new one and the quote after it is bare | command `\"` with path `/tmp`: the escaped command is `\\"`, which AppleScript reads as an escaped backslash and a quote that ends the `do script` literal early | Terminal receives exactly `cd "<path>" && <command>`, by escaping `\` as well as `"` | not executed | Ipc.DarwinQuotingCloses | Ipc.EscapeForAppleScript |

=== FILE: gui.dfy ===
/** The Tk window's logic around the Python `ProjectManager`: the listbox's
    index-to-id map, selecting a project, showing its commands one per line,
    reading them back from the text box, the two save paths and the
    execute-all button. Widgets become the strings read from them; message
    boxes become the error cases. */
module Gui {
  import opened Wrappers
  import Text
  import opened Projects
  import ProjectManager

  // ---------------------------------------------------------------- list and selection

  /** `refresh_project_list`: listbox row `i` holds the `i`-th listed project's id. */
  function RefreshIdMap(ps: seq<Project>): (m: map<nat, string>)
    ensures forall i: nat :: i in m <==> i < |GetAllProjects(ps)|
    ensures forall i: nat :: i in m ==> m[i] == GetAllProjects(ps)[i].id
  {
    var listed := GetAllProjects(ps);
    map i: nat | i < |listed| :: listed[i].id
  }

  /** Every id the listbox maps is found in the store: listing changes no id. */
  lemma RefreshIdsFound(ps: seq<Project>, i: nat)
    ensures var m := RefreshIdMap(ps); i in m ==> GetProject(ps, m[i]).Some?
  {
    var listed := GetAllProjects(ps);
    if i < |listed| {
      var b := Backfill(ps);
      GetAllProjectsSpec(ps);
      assert listed[i] in multiset(b);
      var k :| 0 <= k < |b| && b[k] == listed[i];
      assert ps[k].id == listed[i].id;
    }
  }

  /** `_on_project_select`: with no row selected the selection is cleared; a
      row whose id is a non-empty string found in the store selects that
      record; any other row keeps the `previous` selection. */
  function SelectProject(ps: seq<Project>, idMap: map<nat, string>, row: Option<nat>,
                         previous: Option<Project>): (r: Option<Project>)
    ensures row.None? ==> r == None
    ensures row.Some? && row.value in idMap && idMap[row.value] != "" && HasId(ps, idMap[row.value]) ==>
      && r.Some? && r.value in ps && r.value.id == idMap[row.value]
      && r == GetProject(ps, idMap[row.value])
    ensures row.Some? && !(row.value in idMap && idMap[row.value] != "" && HasId(ps, idMap[row.value])) ==>
      r == previous
  {
    match row
    case None => None
    case Some(i) =>
      if i in idMap && idMap[i] != "" then
        match GetProject(ps, idMap[i])
        case Some(p) =>
          assert p in ps;
          Some(p)
        case None => previous
      else previous
  }

  /** With distinct, non-empty ids, picking row `i` after a refresh selects the
      stored record that the listing showed in that row. */
  lemma SelectAfterRefresh(ps: seq<Project>, i: nat, previous: Option<Project>)
    requires IdsDistinct(ps)
    requires forall j :: 0 <= j < |ps| ==> ps[j].id != ""
    requires i < |ps|
    ensures var r := SelectProject(ps, RefreshIdMap(ps), Some(i), previous);
      && r.Some?
      && exists k :: 0 <= k < |ps| && r.value == ps[k] && Backfilled(ps[k], k) == GetAllProjects(ps)[i]
  {
    var listed := GetAllProjects(ps);
    var b := Backfill(ps);
    GetAllProjectsSpec(ps);
    assert listed[i] in multiset(b);
    var k :| 0 <= k < |b| && b[k] == listed[i];
    assert listed[i].id == ps[k].id;
    GetProjectAt(ps, k);
    assert RefreshIdMap(ps)[i] == ps[k].id;
  }

  // ---------------------------------------------------------------- commands text

  /** The commands `_load_project_details` shows: the stored list, or the
      legacy default command when the list is empty or missing. */
  function LoadedCommands(p: Project): (cs: seq<string>)
    ensures p.commands.Some? && p.commands.value != [] ==> cs == p.commands.value
    ensures (p.commands.None? || p.commands.value == []) ==> cs == LegacyCommands(p.defaultCommand)
  {
    var cs := p.commands.GetOr([]);
    if cs == [] && p.defaultCommand != "" then [p.defaultCommand] else cs
  }

  /** The text box's contents: one command per line. */
  function LoadText(p: Project): string {
    Text.Join("\n", LoadedCommands(p))
  }

  /** Each line stripped, blank lines dropped. */
  function StripLines(lines: seq<string>): (r: seq<string>)
    ensures |r| <= |lines|
  {
    if |lines| == 0 then []
    else
      var line := Text.PyStrip(lines[0]);
      (if line != "" then [line] else []) + StripLines(lines[1..])
  }

  /** `_get_commands_list` (and the same parse in both save paths). */
  function GetCommandsList(text: string): seq<string> {
    StripLines(Text.Split(Text.PyStrip(text), '\n'))
  }

  /** A command as the text box can hold it on one line: not blank, no
      whitespace at either end, no line break. */
  predicate CleanLines(cs: seq<string>) {
    forall i :: 0 <= i < |cs| ==> cs[i] != "" && Text.Trimmed(cs[i], Text.IsPySpace) && '\n' !in cs[i]
  }

  /** Every parsed command is a clean line. */
  lemma {:induction false} StripLinesClean(lines: seq<string>)
    requires forall i :: 0 <= i < |lines| ==> '\n' !in lines[i]
    ensures CleanLines(StripLines(lines))
  {
    if |lines| > 0 {
      StripLinesClean(lines[1..]);
      var line := Text.PyStrip(lines[0]);
      if line != "" {
        StrippedLine(lines[0]);
        ConsClean(line, StripLines(lines[1..]));
      }
    }
  }

  lemma StrippedLine(s: string)
    requires '\n' !in s
    ensures Text.Trimmed(Text.PyStrip(s), Text.IsPySpace) && '\n' !in Text.PyStrip(s)
  {
    Text.TrimAbsent(s, Text.IsPySpace, '\n');
  }

  lemma ConsClean(c: string, cs: seq<string>)
    requires c != "" && Text.Trimmed(c, Text.IsPySpace) && '\n' !in c
    requires CleanLines(cs)
    ensures CleanLines([c] + cs)
  {
  }

  /** The parse returns clean lines. */
  lemma GetCommandsListClean(text: string)
    ensures CleanLines(GetCommandsList(text))
  {
    StripLinesClean(Text.Split(Text.PyStrip(text), '\n'));
  }

  /** Clean lines pass through the strip-and-drop step unchanged. */
  lemma {:induction false} StripLinesOfClean(cs: seq<string>)
    requires CleanLines(cs)
    ensures StripLines(cs) == cs
  {
    if |cs| > 0 {
      StripLinesOfClean(cs[1..]);
      Text.TrimOfTrimmed(cs[0], Text.IsPySpace);
      assert cs == [cs[0]] + cs[1..];
    }
  }

  /** Clean commands shown one per line parse back to the same list: opening a
      project and saving it without an edit stores the commands it had. */
  lemma ParseJoin(cs: seq<string>)
    requires CleanLines(cs)
    ensures GetCommandsList(Text.Join("\n", cs)) == cs
  {
    if |cs| == 0 {
      Text.TrimOfTrimmed("", Text.IsPySpace);
      assert Text.Split("", '\n') == [""];
    } else {
      JoinTrimmed(cs);
      Text.TrimOfTrimmed(Text.Join("\n", cs), Text.IsPySpace);
      Text.SplitJoin(cs, '\n');
      StripLinesOfClean(cs);
    }
  }

  /** Clean lines joined by line breaks have no whitespace at either end. */
  lemma JoinTrimmed(cs: seq<string>)
    requires CleanLines(cs) && |cs| > 0
    ensures Text.Trimmed(Text.Join("\n", cs), Text.IsPySpace)
  {
    Text.JoinEnds("\n", cs);
  }

  /** A loaded project whose commands are clean lines reads back unchanged. */
  lemma LoadThenParse(p: Project)
    requires CleanLines(LoadedCommands(p))
    ensures GetCommandsList(LoadText(p)) == LoadedCommands(p)
  {
    ParseJoin(LoadedCommands(p));
  }

  // ---------------------------------------------------------------- saving

  datatype GuiError = NoSelection | EmptyNameOrPath | EmptyCommands | Rejected(error: ProjectError)

  /** A record holding what the edit form submitted: the fields as given, the
      commands and their first (or `""`) as the default command. */
  predicate Saved(q: Project, name: string, path: string, resultPath: string, cs: seq<string>) {
    && q.name == name && q.path == path && q.resultPath == resultPath
    && q.commands == Some(cs) && q.defaultCommand == DefaultOf(cs)
  }

  /** `_save_project_changes`: with a project selected and a non-blank name
      and path, every field is written, the commands from the text box and the
      first of them (or `""`) as the default command. */
  function SaveChanges(ps: seq<Project>, selected: Option<string>, name: string, path: string,
                       resultPath: string, text: string, pathExists: string -> bool)
    : (r: Result<seq<Project>, GuiError>)
    ensures selected.None? ==> r == Err(NoSelection)
    ensures selected.Some? && (Text.PyStrip(name) == "" || Text.PyStrip(path) == "") ==> r == Err(EmptyNameOrPath)
    ensures selected.Some? && Text.PyStrip(name) != "" && Text.PyStrip(path) != "" && !HasId(ps, selected.value) ==>
      r == Err(Rejected(NotFound(selected.value)))
    ensures r.Ok? <==>
      && selected.Some? && Text.PyStrip(name) != "" && Text.PyStrip(path) != ""
      && HasId(ps, selected.value)
      && !NameTakenByOther(ps, Text.PyStrip(name), selected.value)
      && pathExists(Text.PyStrip(path))
    ensures r.Ok? ==>
      && |r.value| == |ps|
      && (forall j :: 0 <= j < |ps| && ps[j].id != selected.value ==> r.value[j] == ps[j])
      && GetProject(r.value, selected.value).Some?
      && Saved(GetProject(r.value, selected.value).value, Text.PyStrip(name), Text.PyStrip(path),
               Text.PyStrip(resultPath), GetCommandsList(text))
  {
    match selected
    case None => Err(NoSelection)
    case Some(id) =>
      var (n, p) := (Text.PyStrip(name), Text.PyStrip(path));
      if n == "" || p == "" then Err(EmptyNameOrPath)
      else Commit(ps, id, n, p, Text.PyStrip(resultPath), GetCommandsList(text), pathExists)
  }

  /** The `update_project` call of the edit form, every field supplied. */
  function Commit(ps: seq<Project>, id: string, n: string, p: string, rp: string, cs: seq<string>,
                  pathExists: string -> bool): (r: Result<seq<Project>, GuiError>)
    ensures !HasId(ps, id) ==> r == Err(Rejected(NotFound(id)))
    ensures r.Ok? <==> HasId(ps, id) && !NameTakenByOther(ps, n, id) && pathExists(p)
    ensures r.Ok? ==>
      && |r.value| == |ps|
      && (forall j :: 0 <= j < |ps| && ps[j].id != id ==> r.value[j] == ps[j])
      && GetProject(r.value, id).Some?
      && Saved(GetProject(r.value, id).value, n, p, rp, cs)
  {
    match ProjectManager.UpdateProject(ps, id, Some(n), Some(p), Some(DefaultOf(cs)), Some(rp), Some(cs), pathExists)
    case Err(e) => Err(Rejected(e))
    case Ok((qs, q)) =>
      var k := FindIndex(ps, id).value;
      assert qs == ps[k := q] && q.id == id;
      GetAfterUpdate(ps, id, q);
      Ok(qs)
  }

  /** `_auto_save_commands`: the commands and the default command only; a
      refused update is ignored and leaves the list as it was. */
  function AutoSave(ps: seq<Project>, selected: Option<string>, text: string, pathExists: string -> bool)
    : (r: seq<Project>)
    ensures selected.None? || !HasId(ps, selected.value) ==> r == ps
    ensures selected.Some? && HasId(ps, selected.value) ==>
      var cs := GetCommandsList(text);
      && |r| == |ps|
      && (forall j :: 0 <= j < |ps| && ps[j].id != selected.value ==> r[j] == ps[j])
      && GetProject(r, selected.value).Some?
      && GetProject(r, selected.value).value.commands == Some(cs)
      && GetProject(r, selected.value).value.defaultCommand == DefaultOf(cs)
  {
    match selected
    case None => ps
    case Some(id) => StoreCommands(ps, id, GetCommandsList(text), pathExists)
  }

  /** The update auto-save makes: the commands and their first as the default
      command, in the record with the id; nothing when the id is unknown. */
  function StoreCommands(ps: seq<Project>, id: string, cs: seq<string>, pathExists: string -> bool)
    : (r: seq<Project>)
    ensures !HasId(ps, id) ==> r == ps
    ensures HasId(ps, id) ==>
      && |r| == |ps|
      && (forall j :: 0 <= j < |ps| && ps[j].id != id ==> r[j] == ps[j])
      && GetProject(r, id).Some?
      && GetProject(r, id).value.commands == Some(cs)
      && GetProject(r, id).value.defaultCommand == DefaultOf(cs)
  {
    match ProjectManager.UpdateProject(ps, id, None, None, Some(DefaultOf(cs)), None, Some(cs), pathExists)
    case Err(_) => ps
    case Ok((qs, q)) =>
      GetAfterUpdate(ps, id, q);
      qs
  }

  /** The updated record is the one later lookups find. */
  lemma GetAfterUpdate(ps: seq<Project>, id: string, q: Project)
    requires HasId(ps, id) && q.id == id
    ensures GetProject(ps[FindIndex(ps, id).value := q], id) == Some(q)
  {
    var k := FindIndex(ps, id).value;
    var qs := ps[k := q];
    assert qs[..k] == ps[..k];
    FindIndexFirst(qs, id, k);
  }

  /** Both save paths store the same commands and default command for the
      same text. */
  lemma SaveAndAutoSaveAgree(ps: seq<Project>, id: string, name: string, path: string,
                             resultPath: string, text: string, pathExists: string -> bool)
    ensures SaveChanges(ps, Some(id), name, path, resultPath, text, pathExists).Ok? ==>
      var saved := GetProject(SaveChanges(ps, Some(id), name, path, resultPath, text, pathExists).value, id).value;
      var auto := GetProject(AutoSave(ps, Some(id), text, pathExists), id).value;
      saved.commands == auto.commands && saved.defaultCommand == auto.defaultCommand
  {
  }

  // ---------------------------------------------------------------- execute all

  /** `_execute_all_commands`: the project path and the commands chained with
      ` && `; refused without a selection or with no command. */
  function ExecuteAll(selected: bool, path: string, text: string): (r: Result<(string, string), GuiError>)
    ensures !selected ==> r == Err(NoSelection)
    ensures r.Err? <==> !selected || GetCommandsList(text) == []
    ensures r.Ok? ==> r.value.0 == Text.PyStrip(path)
  {
    if !selected then Err(NoSelection)
    else
      var cs := GetCommandsList(text);
      if cs == [] then Err(EmptyCommands)
      else Ok((Text.PyStrip(path), Text.Join(" && ", cs)))
  }

  /** The launched command holds every command in order, joined by ` && `,
      and nothing else. */
  lemma ExecuteAllChains(path: string, text: string, i: nat)
    ensures i < |GetCommandsList(text)| ==>
      ExecuteAll(true, path, text).Ok? && ChainedAt(ExecuteAll(true, path, text).value.1, GetCommandsList(text), i)
  {
    var cs := GetCommandsList(text);
    if i < |cs| {
      JoinChains(cs, i);
      assert ExecuteAll(true, path, text) == Ok((Text.PyStrip(path), Text.Join(" && ", cs)));
    }
  }

  /** Joining with ` && ` places each command where `ChainedAt` says. */
  lemma JoinChains(cs: seq<string>, i: nat)
    requires i < |cs|
    ensures ChainedAt(Text.Join(" && ", cs), cs, i)
  {
    Text.JoinPieces(" && ", cs, i);
  }

  /** Command `i` of `cs` sits in `line` where the ` && ` chain puts it, followed
      by ` && ` unless it is the last, which ends the line. */
  predicate ChainedAt(line: string, cs: seq<string>, i: nat) {
    && i < |cs|
    && Text.OccursAt(line, cs[i], Text.PieceStart(" && ", cs, i))
    && (i + 1 < |cs| ==> Text.OccursAt(line, " && ", Text.PieceStart(" && ", cs, i) + |cs[i]|))
    && (i + 1 == |cs| ==> |line| == Text.PieceStart(" && ", cs, i) + |cs[i]|)
  }
}

=== FILE: ipc.dfy ===
/** The main-process command launcher's pure parts: the shell-argument
    escaper, the registered-path guard, the order of the checks at the top of
    the `execute-command` handler, and the macOS AppleScript quoting. */
module Ipc {
  import opened Wrappers
  import Text
  import opened Projects

  // ---------------------------------------------------------------- shell escaping

  /** The regex class escaped by `escapeShellArg`: `"`, whitespace (`\s`),
      `'`, `$`, backquote, backslash, `!`, `#`, `&`, `|`, `;`, parentheses and
      braces. */
  predicate IsShellSpecial(c: char) {
    || c == '"' || Text.IsJsSpace(c) || c == '\'' || c == '$' || c == '`' || c == '\\'
    || c == '!' || c == '#' || c == '&' || c == '|' || c == ';'
    || c == '(' || c == ')' || c == '{' || c == '}'
  }

  function CountSpecial(s: string): nat {
    if |s| == 0 then 0 else (if IsShellSpecial(s[0]) then 1 else 0) + CountSpecial(s[1..])
  }

  /** One backslash in front of every special character, all else copied. */
  function EscapeShellArg(s: string): (r: string)
    ensures |r| == |s| + CountSpecial(s)
    ensures |s| > 0 && IsShellSpecial(s[0]) ==> r[..2] == ['\\', s[0]]
    ensures |s| > 0 && !IsShellSpecial(s[0]) ==> r[0] == s[0]
  {
    if |s| == 0 then ""
    else if IsShellSpecial(s[0]) then ['\\', s[0]] + EscapeShellArg(s[1..])
    else [s[0]] + EscapeShellArg(s[1..])
  }

  /** Drop the backslash of each `\`+special pair, reading left to right. */
  function Unescape(t: string): string {
    if |t| == 0 then ""
    else if |t| >= 2 && t[0] == '\\' && IsShellSpecial(t[1]) then [t[1]] + Unescape(t[2..])
    else [t[0]] + Unescape(t[1..])
  }

  /** `t` splits into plain non-special characters and `\`+special pairs, so no
      special character stands unescaped. */
  predicate WellEscaped(t: string) {
    if |t| == 0 then true
    else if t[0] == '\\' then |t| >= 2 && IsShellSpecial(t[1]) && WellEscaped(t[2..])
    else !IsShellSpecial(t[0]) && WellEscaped(t[1..])
  }

  /** Deleting the escaping backslashes gives the argument back. */
  lemma {:induction false} UnescapeEscape(s: string)
    ensures Unescape(EscapeShellArg(s)) == s
  {
    if |s| > 0 {
      UnescapeEscape(s[1..]);
      var rest := EscapeShellArg(s[1..]);
      if IsShellSpecial(s[0]) {
        assert (['\\', s[0]] + rest)[2..] == rest;
      } else {
        assert ([s[0]] + rest)[1..] == rest;
      }
    }
  }

  /** Every escaped string is well escaped. */
  lemma {:induction false} EscapeWellEscaped(s: string)
    ensures WellEscaped(EscapeShellArg(s))
  {
    if |s| > 0 {
      EscapeWellEscaped(s[1..]);
      var rest := EscapeShellArg(s[1..]);
      if IsShellSpecial(s[0]) {
        assert (['\\', s[0]] + rest)[2..] == rest;
      } else {
        assert ([s[0]] + rest)[1..] == rest;
      }
    }
  }

  /** And every well-escaped string is the escape of exactly one argument: the
      escaper is a bijection onto the well-escaped strings. */
  lemma {:induction false} EscapeUnescape(t: string)
    requires WellEscaped(t)
    ensures EscapeShellArg(Unescape(t)) == t
  {
    if |t| > 0 {
      if t[0] == '\\' {
        EscapeUnescape(t[2..]);
        assert t == [t[0], t[1]] + t[2..];
      } else {
        EscapeUnescape(t[1..]);
        assert t == [t[0]] + t[1..];
      }
    }
  }

  // ---------------------------------------------------------------- registered paths

  /** `isRegisteredProject`: some listed project has exactly this path. */
  function IsRegisteredProject(ps: seq<Project>, projectPath: string): (b: bool)
    ensures b <==> HasPath(ps, projectPath)
  {
    var listed := GetAllProjects(ps);
    GetAllProjectsSpec(ps);
    RegisteredViaListing(ps, projectPath);
    exists j | 0 <= j < |listed| :: listed[j].path == projectPath
  }

  /** Listing changes no path, so it finds a path exactly when the store has it. */
  lemma RegisteredViaListing(ps: seq<Project>, projectPath: string)
    ensures (exists j :: 0 <= j < |GetAllProjects(ps)| && GetAllProjects(ps)[j].path == projectPath)
        <==> (exists j :: 0 <= j < |ps| && ps[j].path == projectPath)
  {
    var listed := GetAllProjects(ps);
    var b := Backfill(ps);
    GetAllProjectsSpec(ps);
    if exists j :: 0 <= j < |listed| && listed[j].path == projectPath {
      var j :| 0 <= j < |listed| && listed[j].path == projectPath;
      assert listed[j] in multiset(b);
      var i :| 0 <= i < |b| && b[i] == listed[j];
      assert ps[i].path == projectPath;
    }
    if exists j :: 0 <= j < |ps| && ps[j].path == projectPath {
      var j :| 0 <= j < |ps| && ps[j].path == projectPath;
      assert b[j] in multiset(listed);
      var i :| 0 <= i < |listed| && listed[i] == b[j];
    }
  }

  // ---------------------------------------------------------------- execute-command

  datatype Platform = Darwin | Linux | Win32 | OtherPlatform(name: string)

  /** What the handler hands to the OS once its checks pass. */
  datatype Launch =
    | Osascript(escapedPath: string, escapedCommand: string, script: string)
    | LinuxTerminal(projectPath: string, command: string)
    | WindowsCmd(projectPath: string, command: string)

  /** Every `"` preceded by a backslash, nothing else touched. */
  function EscapeQuotes(s: string): (r: string)
    ensures |r| >= |s|
    ensures '"' !in s ==> r == s
  {
    if |s| == 0 then ""
    else if s[0] == '"' then ['\\', '"'] + EscapeQuotes(s[1..])
    else [s[0]] + EscapeQuotes(s[1..])
  }

  /** Turn each `\"` back into `"`, reading left to right. */
  function UnescapeQuotes(t: string): string {
    if |t| == 0 then ""
    else if |t| >= 2 && t[0] == '\\' && t[1] == '"' then ['"'] + UnescapeQuotes(t[2..])
    else [t[0]] + UnescapeQuotes(t[1..])
  }

  /** The quoting is undone exactly: a backslash of the original is never
      followed by a bare quote in the output. */
  lemma {:induction false} UnescapeQuotesRoundTrip(s: string)
    ensures UnescapeQuotes(EscapeQuotes(s)) == s
    ensures EscapeQuotes(s) == [] || EscapeQuotes(s)[0] != '"'
  {
    if |s| > 0 {
      UnescapeQuotesRoundTrip(s[1..]);
      var rest := EscapeQuotes(s[1..]);
      if s[0] == '"' {
        assert (['\\', '"'] + rest)[2..] == rest;
      } else {
        assert ([s[0]] + rest)[1..] == rest;
      }
    }
  }

  /** Every `"` in the output has a backslash in front of it. That backslash
      may itself be escaped by one before it (`\\"` from an input `\"`), so
      this alone does not keep the quote inside an AppleScript literal:
      `DarwinQuotingCloses` shows it escaping. */
  lemma {:induction false} EscapeQuotesGuarded(s: string)
    ensures var r := EscapeQuotes(s); forall i :: 0 <= i < |r| && r[i] == '"' ==> i > 0 && r[i - 1] == '\\'
  {
    if |s| > 0 {
      EscapeQuotesGuarded(s[1..]);
      var rest := EscapeQuotes(s[1..]);
      UnescapeQuotesRoundTrip(s[1..]);
      var r := EscapeQuotes(s);
      if s[0] == '"' {
        assert r == ['\\', '"'] + rest;
        forall i | 0 <= i < |r| && r[i] == '"' ensures i > 0 && r[i - 1] == '\\' {
          if i > 2 {
            assert r[i] == rest[i - 2] && r[i - 1] == rest[i - 3];
          }
        }
      } else {
        assert r == [s[0]] + rest;
        forall i | 0 <= i < |r| && r[i] == '"' ensures i > 0 && r[i - 1] == '\\' {
          if i > 1 {
            assert r[i] == rest[i - 1] && r[i - 1] == rest[i - 2];
          }
        }
      }
    }
  }

  /** The body of the `do script` literal: `cd \"<path>\" && <command>`. */
  function DarwinBody(escapedPath: string, escapedCommand: string): string {
    "cd " + (EscapedQuote + (escapedPath + (EscapedQuote + (" && " + escapedCommand))))
  }

  /** A quote written inside an AppleScript literal. */
  const EscapedQuote: string := "\\\""

  /** The AppleScript that opens Terminal, `cd`s into the quoted path and runs
      the command. */
  function DarwinScript(escapedPath: string, escapedCommand: string): string {
    "tell application \"Terminal\"\n  activate\n  do script \"" + DarwinBody(escapedPath, escapedCommand)
      + "\"\nend tell"
  }

  // ---------------------------------------------------------------- AppleScript literals

  /** `s` in front of a reading, when there is one. */
  function Prefixed(s: string, o: Option<string>): Option<string> {
    match o
    case Some(u) => Some(s + u)
    case None => None
  }

  /** Two prefixes in a row are their concatenation. */
  lemma PrefixedTwice(a: string, b: string, o: Option<string>)
    ensures Prefixed(a, Prefixed(b, o)) == Prefixed(a + b, o)
  {
    if o.Some? {
      assert a + (b + o.value) == (a + b) + o.value;
    }
  }

  /** How AppleScript reads the body of a string literal, for the two escapes
      that matter here: `\"` is a quote and `\\` a backslash, while a bare `"`
      ends the literal early, so a body holding one reads as `None`. Other
      backslash sequences are outside this reading and also give `None`. */
  function ReadLiteral(t: string): Option<string> {
    if |t| == 0 then Some("")
    else if t[0] == '"' then None
    else if t[0] == '\\' then
      if |t| >= 2 && (t[1] == '"' || t[1] == '\\') then Prefixed([t[1]], ReadLiteral(t[2..]))
      else None
    else Prefixed([t[0]], ReadLiteral(t[1..]))
  }

  /** What Terminal is meant to run: `cd "<path>" && <command>`. */
  function ShellLine(projectPath: string, command: string): string {
    "cd " + ("\"" + (projectPath + ("\"" + (" && " + command))))
  }

  /** The launch quoting as written keeps a backslash of the input, so an input
      `\"` becomes `\\"`: AppleScript reads an escaped backslash and then a
      bare quote that ends the literal. */
  lemma DarwinQuotingCloses()
    ensures EscapeQuotes("\\\"") == "\\\\\""
    ensures ReadLiteral(DarwinBody(EscapeQuotes("/tmp"), EscapeQuotes("\\\""))) == None
  {
    var c := "\\\\\"";
    assert EscapeQuotes("\\\"") == c by {
      assert EscapeQuotes("\"") == "\\\"";
      assert "\\\""[1..] == "\"";
    }
    assert EscapeQuotes("/tmp") == "/tmp" by {
      assert "/tmp"[0] != '"' && "/tmp"[1] != '"' && "/tmp"[2] != '"' && "/tmp"[3] != '"';
    }
    assert ReadLiteral(c) == None by {
      assert c[0] == '\\' && c[1] == '\\' && c[2..] == "\"";
    }
    QuoteRead();
    var x := " && " + c;
    ReadPlainPrefix(" && ", c);
    var y := EscapedQuote + x;
    ReadEscapedPrefix("\"", x);
    var z := "/tmp" + y;
    ReadPlainPrefix("/tmp", y);
    var w := EscapedQuote + z;
    ReadEscapedPrefix("\"", z);
    ReadPlainPrefix("cd ", w);
  }

  /** The escaped quote is what the corrected escaper makes of a quote. */
  lemma QuoteRead()
    ensures EscapeForAppleScript("\"") == EscapedQuote
  {
    assert "\""[1..] == "";
  }


  /** The quoting AppleScript needs: a backslash before every backslash and
      every `"`. */
  function EscapeForAppleScript(s: string): (r: string)
    ensures |r| >= |s|
    ensures '"' !in s && '\\' !in s ==> r == s
  {
    if |s| == 0 then "" else EscapeChar(s[0]) + EscapeForAppleScript(s[1..])
  }

  /** One character as it goes into the literal: a quote or a backslash gets
      a backslash in front. */
  function EscapeChar(c: char): string {
    if c == '"' || c == '\\' then ['\\', c] else [c]
  }

  /** AppleScript reads one escaped character back, then goes on. */
  lemma ReadEscapedChar(c: char, rest: string)
    ensures ReadLiteral(EscapeChar(c) + rest) == Prefixed([c], ReadLiteral(rest))
  {
    var whole := EscapeChar(c) + rest;
    if c == '"' || c == '\\' {
      assert whole[0] == '\\' && whole[1] == c && whole[2..] == rest;
    } else {
      assert whole[0] == c && whole[1..] == rest;
    }
  }

  /** AppleScript reads an escaped string, followed by anything, as the string
      followed by the reading of the rest. */
  lemma {:induction false} ReadEscapedPrefix(s: string, t: string)
    ensures ReadLiteral(EscapeForAppleScript(s) + t) == Prefixed(s, ReadLiteral(t))
  {
    if |s| == 0 {
      assert EscapeForAppleScript(s) + t == t;
      PrefixedEmpty(ReadLiteral(t));
    } else {
      ReadEscapedPrefix(s[1..], t);
      var rest := EscapeForAppleScript(s[1..]) + t;
      assert EscapeForAppleScript(s) + t == EscapeChar(s[0]) + rest;
      ReadEscapedChar(s[0], rest);
      PrefixedTwice([s[0]], s[1..], ReadLiteral(t));
      assert [s[0]] + s[1..] == s;
    }
  }

  /** The empty prefix changes nothing. */
  lemma PrefixedEmpty(o: Option<string>)
    ensures Prefixed("", o) == o
  {
    if o.Some? {
      assert "" + o.value == o.value;
    }
  }


  /** Text with neither a quote nor a backslash reads as itself. */
  lemma {:induction false} ReadPlainPrefix(s: string, t: string)
    requires '"' !in s && '\\' !in s
    ensures ReadLiteral(s + t) == Prefixed(s, ReadLiteral(t))
  {
    if |s| == 0 {
      assert s + t == t;
      PrefixedEmpty(ReadLiteral(t));
    } else {
      assert s[0] in s;
      assert '"' !in s[1..] && '\\' !in s[1..] by {
        forall k | 0 <= k < |s| - 1 ensures s[1..][k] == s[k + 1] { }
      }
      ReadPlainPrefix(s[1..], t);
      var whole := s + t;
      assert whole[0] == s[0] && whole[1..] == s[1..] + t;
      assert ReadLiteral(whole) == Prefixed([s[0]], ReadLiteral(s[1..] + t));
      PrefixedTwice([s[0]], s[1..], ReadLiteral(t));
      assert [s[0]] + s[1..] == s;
    }
  }


  /** With both characters escaped, AppleScript hands Terminal exactly
      `cd "<path>" && <command>`, whatever the path and command hold. */
  lemma DarwinQuotingCorrected(projectPath: string, command: string)
    ensures ReadLiteral(DarwinBody(EscapeForAppleScript(projectPath), EscapeForAppleScript(command)))
      == Some(ShellLine(projectPath, command))
  {
    var ep := EscapeForAppleScript(projectPath);
    var ec := EscapeForAppleScript(command);
    QuoteRead();
    ReadEscapedPrefix(command, "");
    assert ec + "" == ec && command + "" == command;
    var x := " && " + ec;
    ReadPlainPrefix(" && ", ec);
    var y := EscapedQuote + x;
    ReadEscapedPrefix("\"", x);
    var z := ep + y;
    ReadEscapedPrefix(projectPath, y);
    var w := EscapedQuote + z;
    ReadEscapedPrefix("\"", z);
    ReadPlainPrefix("cd ", w);
  }

  // ---------------------------------------------------------------- the handler

  /** The `execute-command` handler up to the spawn. It refuses an
      unregistered path before the file system is consulted, then a missing
      path. The platform then decides the launch, and an unknown platform is
      refused. On macOS the path and command go into the AppleScript with
      only their `"` escaped. */
  function ExecuteCommand(ps: seq<Project>, projectPath: string, command: string,
                          pathExists: string -> bool, platform: Platform): (r: Result<Launch, string>)
    ensures !HasPath(ps, projectPath) ==> r == Err("Unregistered project path")
    ensures HasPath(ps, projectPath) && !pathExists(projectPath) ==>
      r == Err("Project path does not exist")
    ensures HasPath(ps, projectPath) && pathExists(projectPath) && platform.OtherPlatform? ==>
      r == Err("Unsupported platform: " + platform.name)
    ensures r.Ok? <==> HasPath(ps, projectPath) && pathExists(projectPath) && !platform.OtherPlatform?
    ensures r.Ok? && platform == Darwin ==>
      && r.value.Osascript?
      && r.value.escapedPath == EscapeQuotes(projectPath)
      && r.value.escapedCommand == EscapeQuotes(command)
      && UnescapeQuotes(r.value.escapedPath) == projectPath
      && UnescapeQuotes(r.value.escapedCommand) == command
      && r.value.script == DarwinScript(r.value.escapedPath, r.value.escapedCommand)
    ensures r.Ok? && platform == Linux ==> r.value == LinuxTerminal(projectPath, command)
    ensures r.Ok? && platform == Win32 ==> r.value == WindowsCmd(projectPath, command)
  {
    if !IsRegisteredProject(ps, projectPath) then Err("Unregistered project path")
    else if !pathExists(projectPath) then Err("Project path does not exist")
    else
      match platform
      case Darwin =>
        UnescapeQuotesRoundTrip(projectPath);
        UnescapeQuotesRoundTrip(command);
        var ep := EscapeQuotes(projectPath);
        var ec := EscapeQuotes(command);
        Ok(Osascript(ep, ec, DarwinScript(ep, ec)))
      case Linux => Ok(LinuxTerminal(projectPath, command))
      case Win32 => Ok(WindowsCmd(projectPath, command))
      case OtherPlatform(name) => Err("Unsupported platform: " + name)
  }

  /** Without a backslash in the text, escaping only `"` is the full escaping. */
  lemma {:induction false} EscapeQuotesWithoutBackslash(s: string)
    requires '\\' !in s
    ensures EscapeQuotes(s) == EscapeForAppleScript(s)
  {
    if |s| > 0 {
      assert s[0] in s;
      assert '\\' !in s[1..] by {
        forall k | 0 <= k < |s| - 1 ensures s[1..][k] == s[k + 1] { }
      }
      EscapeQuotesWithoutBackslash(s[1..]);
    }
  }

  /** When neither the path nor the command holds a backslash, the launch as
      written hands Terminal exactly `cd "<path>" && <command>`. */
  lemma LaunchReadsBackWithoutBackslash(ps: seq<Project>, projectPath: string, command: string,
                                        pathExists: string -> bool)
    requires '\\' !in projectPath && '\\' !in command
    ensures var r := ExecuteCommand(ps, projectPath, command, pathExists, Darwin);
      r.Ok? ==> ReadLiteral(DarwinBody(r.value.escapedPath, r.value.escapedCommand))
                  == Some(ShellLine(projectPath, command))
  {
    EscapeQuotesWithoutBackslash(projectPath);
    EscapeQuotesWithoutBackslash(command);
    DarwinQuotingCorrected(projectPath, command);
  }
}

=== FILE: manager.dfy ===
/** The Python `ProjectManager` (the Flask backend's and the Tk GUI's copy,
    which differ only in backups and in what `delete_project` returns):
    append-at-the-end add, partial update and delete. Lookup, listing and
    reorder are the shared ones of `Projects`. `os.path.exists` is the
    `pathExists` parameter and the uuid is passed in. */
module ProjectManager {
  import opened Wrappers
  import opened Projects

  /** `add_project`: refuse a taken name, then a missing path; otherwise append
      the record with `order` equal to the previous length. Without a command
      list the default command, when non-empty, becomes the only command. */
  function AddProject(ps: seq<Project>, name: string, path: string, defaultCommand: string,
                      resultPath: string, commands: Option<seq<string>>,
                      pathExists: string -> bool, newId: string)
    : (r: Result<(seq<Project>, Project), ProjectError>)
    ensures HasName(ps, name) ==> r == Err(DuplicateName(name))
    ensures !HasName(ps, name) && !pathExists(path) ==> r == Err(PathMissing(path))
    ensures r.Ok? <==> !HasName(ps, name) && pathExists(path)
    ensures r.Ok? ==>
      var (qs, p) := r.value;
      && qs == ps + [p]
      && p.id == newId && p.name == name && p.path == path && p.resultPath == resultPath
      && p.defaultCommand == defaultCommand
      && p.commands == Some(commands.GetOr(LegacyCommands(defaultCommand)))
      && p.commandNames.None?
      && p.order == Some(|ps|)
  {
    if HasName(ps, name) then Err(DuplicateName(name))
    else if !pathExists(path) then Err(PathMissing(path))
    else
      var p := Project(newId, name, path, Some(commands.GetOr(LegacyCommands(defaultCommand))), None,
                       defaultCommand, resultPath, Some(|ps|));
      Ok((ps + [p], p))
  }

  /** A project added with only a default command reads back with that one
      command (where it is listed is `AddListedLast`). */
  lemma AddLegacyDefault(ps: seq<Project>, name: string, path: string, defaultCommand: string,
                         resultPath: string, pathExists: string -> bool, newId: string)
    requires defaultCommand != ""
    requires AddProject(ps, name, path, defaultCommand, resultPath, None, pathExists, newId).Ok?
    ensures var (qs, p) := AddProject(ps, name, path, defaultCommand, resultPath, None, pathExists, newId).value;
      && p.commands == Some([defaultCommand])
      && (!HasId(ps, newId) ==> GetProject(qs, newId) == Some(p))
  {
    var (qs, p) := AddProject(ps, name, path, defaultCommand, resultPath, None, pathExists, newId).value;
    if !HasId(ps, newId) {
      assert qs[..|ps|] == ps;
      FindIndexFirst(qs, newId, |ps|);
    }
  }

  /** The appended record carries `order` equal to the old length, so when
      every stored `order` is below that length the listing shows it last. */
  lemma AddListedLast(ps: seq<Project>, name: string, path: string, defaultCommand: string,
                      resultPath: string, commands: Option<seq<string>>,
                      pathExists: string -> bool, newId: string)
    requires forall i :: 0 <= i < |ps| ==> Key(ps[i]) < |ps|
    requires AddProject(ps, name, path, defaultCommand, resultPath, commands, pathExists, newId).Ok?
    ensures var (qs, p) := AddProject(ps, name, path, defaultCommand, resultPath, commands, pathExists, newId).value;
      GetAllProjects(qs)[|ps|] == p
  {
    var (qs, p) := AddProject(ps, name, path, defaultCommand, resultPath, commands, pathExists, newId).value;
    var b := Backfill(qs);
    assert b[|ps|] == p;
    forall i | 0 <= i < |b| && i != |ps| ensures Key(b[i]) < Key(b[|ps|]) {
      assert qs[i] == ps[i];
    }
    MaxKeyLast(b, |ps|);
  }

  /** Appending keeps names unique. */
  lemma AddKeepsNamesUnique(ps: seq<Project>, name: string, path: string, defaultCommand: string,
                            resultPath: string, commands: Option<seq<string>>,
                            pathExists: string -> bool, newId: string)
    requires NamesUnique(ps)
    requires AddProject(ps, name, path, defaultCommand, resultPath, commands, pathExists, newId).Ok?
    ensures NamesUnique(AddProject(ps, name, path, defaultCommand, resultPath, commands, pathExists, newId).value.0)
  {
    var qs := AddProject(ps, name, path, defaultCommand, resultPath, commands, pathExists, newId).value.0;
    forall i, j | 0 <= i < j < |qs| ensures qs[i].name != qs[j].name {
      assert j < |ps| ==> qs[j] == ps[j];
      assert qs[i] == ps[i];
    }
  }

  /** `update_project`: the first project with the id takes every argument that
      is not `None`; `commands` leaves the default command as it was. Refused
      for an unknown id, a name another project uses, or a missing path, in
      that order, with the list unchanged. */
  function UpdateProject(ps: seq<Project>, id: string, name: Option<string>, path: Option<string>,
                         defaultCommand: Option<string>, resultPath: Option<string>,
                         commands: Option<seq<string>>, pathExists: string -> bool)
    : (r: Result<(seq<Project>, Project), ProjectError>)
    ensures !HasId(ps, id) ==> r == Err(NotFound(id))
    ensures HasId(ps, id) && name.Some? && NameTakenByOther(ps, name.value, id) ==>
      r == Err(DuplicateName(name.value))
    ensures (HasId(ps, id) && !(name.Some? && NameTakenByOther(ps, name.value, id))
             && path.Some? && !pathExists(path.value)) ==> r == Err(PathMissing(path.value))
    ensures r.Ok? <==> (HasId(ps, id) && !(name.Some? && NameTakenByOther(ps, name.value, id))
                        && !(path.Some? && !pathExists(path.value)))
    ensures r.Ok? ==>
      var (qs, p) := r.value;
      var k := FindIndex(ps, id).value;
      var q := ps[k];
      && qs == ps[k := p]
      && p.id == id && p.order == q.order && p.commandNames == q.commandNames
      && p.name == name.GetOr(q.name) && p.path == path.GetOr(q.path)
      && p.defaultCommand == defaultCommand.GetOr(q.defaultCommand)
      && p.resultPath == resultPath.GetOr(q.resultPath)
      && p.commands == (if commands.Some? then commands else q.commands)
  {
    match FindIndex(ps, id)
    case None => Err(NotFound(id))
    case Some(k) =>
      if name.Some? && NameTakenByOther(ps, name.value, id) then Err(DuplicateName(name.value))
      else if path.Some? && !pathExists(path.value) then Err(PathMissing(path.value))
      else
        var q := ps[k];
        var p := q.(name := name.GetOr(q.name), path := path.GetOr(q.path),
                    defaultCommand := defaultCommand.GetOr(q.defaultCommand),
                    resultPath := resultPath.GetOr(q.resultPath),
                    commands := if commands.Some? then commands else q.commands);
        Ok((ps[k := p], p))
  }

  /** Updating the commands and then looking the project up gives those
      commands back, with the default command untouched. */
  lemma UpdateCommandsThenGet(ps: seq<Project>, id: string, cs: seq<string>, pathExists: string -> bool)
    requires HasId(ps, id)
    ensures UpdateProject(ps, id, None, None, None, None, Some(cs), pathExists).Ok?
    ensures var qs := UpdateProject(ps, id, None, None, None, None, Some(cs), pathExists).value.0;
      && GetProject(qs, id).Some?
      && GetProject(qs, id).value.commands == Some(cs)
      && GetProject(qs, id).value.defaultCommand == GetProject(ps, id).value.defaultCommand
  {
    var qs := UpdateProject(ps, id, None, None, None, None, Some(cs), pathExists).value.0;
    var k := FindIndex(ps, id).value;
    assert qs[..k] == ps[..k];
    FindIndexFirst(qs, id, k);
  }

  /** The Tk copy's `delete_project`: the same filter, saved unconditionally,
      with nothing returned. */
  function DeleteProjectLegacy(ps: seq<Project>, id: string): (r: seq<Project>)
    ensures !HasId(ps, id) ==> r == ps
    ensures forall p :: p in r <==> p in ps && p.id != id
    ensures GetProject(r, id) == None
  {
    DeleteProject(ps, id).0
  }

  /** The list comprehension keeps the others in their order: deleting from a
      concatenation deletes from each part, and one project stays iff its id
      differs. */
  lemma DeleteLegacyKeepsOrder(a: seq<Project>, b: seq<Project>, p: Project, id: string)
    ensures DeleteProjectLegacy(a + b, id) == DeleteProjectLegacy(a, id) + DeleteProjectLegacy(b, id)
    ensures DeleteProjectLegacy([p], id) == if p.id == id then [] else [p]
  {
    DeleteKeepsOrder(a, b, p, id);
  }
}

=== FILE: projects.dfy ===
/** The project list shared by the Electron store and the two Python project
    managers: the stored record, lookup by id, removal by id, the read-time
    back-fill of legacy fields with the stable sort by `order`, and the
    drag-and-drop reorder. The JSON file is an in-memory sequence. */
module Projects {
  import opened Wrappers

  /** A stored project. `commands`, `commandNames` and `order` are `None` when
      the key is missing from an old record; an absent `default_command` is
      the empty string (only its truthiness is ever read). */
  datatype Project = Project(
    id: string,
    name: string,
    path: string,
    commands: Option<seq<string>>,
    commandNames: Option<seq<string>>,
    defaultCommand: string,
    resultPath: string,
    order: Option<int>)

  /** Why a store operation refused (a thrown `Error` / raised `ValueError`). */
  datatype ProjectError =
    | DuplicateName(name: string)
    | PathMissing(path: string)
    | NotFound(id: string)
    | MissingProjects

  /** `commands[0] || ''`: the command a record advertises as its default. */
  function DefaultOf(cs: seq<string>): (d: string)
    ensures |cs| > 0 ==> d == cs[0]
    ensures |cs| == 0 ==> d == ""
  {
    if |cs| > 0 then cs[0] else ""
  }

  // ---------------------------------------------------------------- lookup

  predicate HasId(ps: seq<Project>, id: string) {
    exists j | 0 <= j < |ps| :: ps[j].id == id
  }

  predicate HasName(ps: seq<Project>, name: string) {
    exists j | 0 <= j < |ps| :: ps[j].name == name
  }

  predicate HasPath(ps: seq<Project>, path: string) {
    exists j | 0 <= j < |ps| :: ps[j].path == path
  }

  /** Some project other than those with id `id` is called `name`. */
  predicate NameTakenByOther(ps: seq<Project>, name: string, id: string) {
    exists j | 0 <= j < |ps| :: ps[j].name == name && ps[j].id != id
  }

  /** No two projects share a name: what the name checks on add and update keep. */
  ghost predicate NamesUnique(ps: seq<Project>) {
    forall i, j :: 0 <= i < j < |ps| ==> ps[i].name != ps[j].name
  }

  ghost predicate IdsDistinct(ps: seq<Project>) {
    forall i, j :: 0 <= i < j < |ps| ==> ps[i].id != ps[j].id
  }

  /** The position of the first project with this id (`findIndex`). */
  function FindIndex(ps: seq<Project>, id: string): (r: Option<nat>)
    ensures r.None? <==> !HasId(ps, id)
    ensures r.Some? ==> r.value < |ps| && ps[r.value].id == id && !HasId(ps[..r.value], id)
  {
    if |ps| == 0 then None
    else if ps[0].id == id then Some(0)
    else
      match FindIndex(ps[1..], id)
      case None => None
      case Some(k) =>
        assert ps[1..][..k] == ps[1..k + 1];
        Some(k + 1)
  }

  /** `getProject` / `get_project`: the first project with the id, or nothing. */
  function GetProject(ps: seq<Project>, id: string): (r: Option<Project>)
    ensures r.Some? <==> HasId(ps, id)
    ensures r.Some? ==> r.value.id == id
    ensures r.Some? ==> exists k :: 0 <= k < |ps| && ps[k] == r.value && !HasId(ps[..k], id)
  {
    match FindIndex(ps, id)
    case None => None
    case Some(k) => Some(ps[k])
  }

  lemma PrefixHasIds(ps: seq<Project>, n: nat)
    requires n <= |ps|
    ensures forall k :: 0 <= k < n ==> HasId(ps[..n], ps[k].id)
  {
    forall k | 0 <= k < n ensures HasId(ps[..n], ps[k].id) {
      assert ps[..n][k] == ps[k];
    }
  }

  /** A position holding the id with no earlier holder is what `FindIndex` finds. */
  lemma FindIndexFirst(ps: seq<Project>, id: string, k: nat)
    requires k < |ps| && ps[k].id == id && !HasId(ps[..k], id)
    ensures FindIndex(ps, id) == Some(k)
  {
    var j := FindIndex(ps, id).value;
    PrefixHasIds(ps, j);
    PrefixHasIds(ps, k);
  }

  /** With distinct ids the project found is the one stored at that position. */
  lemma GetProjectAt(ps: seq<Project>, k: nat)
    requires k < |ps| && IdsDistinct(ps)
    ensures GetProject(ps, ps[k].id) == Some(ps[k])
  {
    var id := ps[k].id;
    var j := FindIndex(ps, id).value;
    PrefixHasIds(ps, j);
  }

  // ---------------------------------------------------------------- removal

  /** The projects whose id is not `id`, in their stored order. */
  function Without(ps: seq<Project>, id: string): (r: seq<Project>)
    ensures forall p :: p in r <==> p in ps && p.id != id
    ensures |r| <= |ps|
    ensures |r| == |ps| <==> !HasId(ps, id)
    ensures !HasId(r, id)
  {
    KeptFacts(ps, id);
    Kept(ps, id)
  }

  /** The filter itself, one project at a time. */
  function Kept(ps: seq<Project>, id: string): seq<Project> {
    if |ps| == 0 then []
    else if ps[0].id == id then Kept(ps[1..], id)
    else [ps[0]] + Kept(ps[1..], id)
  }

  lemma {:induction false} KeptFacts(ps: seq<Project>, id: string)
    ensures forall p :: p in Kept(ps, id) <==> p in ps && p.id != id
    ensures |Kept(ps, id)| <= |ps|
    ensures |Kept(ps, id)| == |ps| <==> !HasId(ps, id)
    ensures !HasId(Kept(ps, id), id)
  {
    if |ps| > 0 {
      KeptFacts(ps[1..], id);
      assert HasId(ps, id) <==> ps[0].id == id || HasId(ps[1..], id) by {
        if HasId(ps, id) && ps[0].id != id {
          var j :| 0 <= j < |ps| && ps[j].id == id;
          assert ps[1..][j - 1] == ps[j];
        }
        if HasId(ps[1..], id) {
          var j :| 0 <= j < |ps| - 1 && ps[1..][j].id == id;
          assert ps[j + 1] == ps[1..][j];
        }
      }
      assert ps == [ps[0]] + ps[1..];
    }
  }

  /** `deleteProject` / `delete_project`: remove every project with the id and
      report whether the list shrank; when it did not, nothing is written. */
  function DeleteProject(ps: seq<Project>, id: string): (r: (seq<Project>, bool))
    ensures r.1 <==> HasId(ps, id)
    ensures !r.1 ==> r.0 == ps
    ensures forall p :: p in r.0 <==> p in ps && p.id != id
    ensures !HasId(r.0, id)
  {
    var kept := Without(ps, id);
    if |kept| == |ps| then
      assert kept == ps by { WithoutAbsent(ps, id); }
      (ps, false)
    else (kept, true)
  }

  lemma {:induction false} WithoutAbsent(ps: seq<Project>, id: string)
    requires !HasId(ps, id)
    ensures Without(ps, id) == ps
  {
    if |ps| > 0 {
      assert !HasId(ps[1..], id) by {
        forall j | 0 <= j < |ps| - 1 ensures ps[1..][j].id != id {
          assert ps[1..][j] == ps[j + 1];
        }
      }
      WithoutAbsent(ps[1..], id);
      assert [ps[0]] + ps[1..] == ps;
    }
  }

  /** Removal works piece by piece: it distributes over concatenation, so the
      projects that stay keep their stored order. */
  lemma WithoutAppend(a: seq<Project>, b: seq<Project>, id: string)
    ensures Without(a + b, id) == Without(a, id) + Without(b, id)
  {
    KeptAppend(a, b, id);
  }

  lemma {:induction false} KeptAppend(a: seq<Project>, b: seq<Project>, id: string)
    ensures Kept(a + b, id) == Kept(a, id) + Kept(b, id)
  {
    if |a| == 0 {
      assert a + b == b;
    } else {
      assert (a + b)[0] == a[0] && (a + b)[1..] == a[1..] + b;
      KeptAppend(a[1..], b, id);
    }
  }

  /** A delete keeps exactly the projects with another id, each in its stored
      place relative to the others: over a concatenation it deletes from each
      part, and a single project stays iff its id differs. */
  lemma DeleteKeepsOrder(a: seq<Project>, b: seq<Project>, p: Project, id: string)
    ensures DeleteProject(a + b, id).0 == DeleteProject(a, id).0 + DeleteProject(b, id).0
    ensures DeleteProject([p], id).0 == if p.id == id then [] else [p]
  {
    WithoutAppend(a, b, id);
    if !HasId(a + b, id) { WithoutAbsent(a + b, id); }
    if !HasId(a, id) { WithoutAbsent(a, id); }
    if !HasId(b, id) { WithoutAbsent(b, id); }
  }

  /** After a delete the id is gone, and every other id still finds a project. */
  lemma DeleteThenGet(ps: seq<Project>, id: string, other: string)
    requires other != id
    ensures GetProject(DeleteProject(ps, id).0, id) == None
    ensures GetProject(DeleteProject(ps, id).0, other).Some? <==> HasId(ps, other)
  {
    var r := DeleteProject(ps, id).0;
    if HasId(ps, other) {
      var j :| 0 <= j < |ps| && ps[j].id == other;
      assert ps[j] in r;
      var k :| 0 <= k < |r| && r[k] == ps[j];
    }
    if HasId(r, other) {
      var k :| 0 <= k < |r| && r[k].id == other;
      assert r[k] in ps;
      var j :| 0 <= j < |ps| && ps[j] == r[k];
    }
  }

  // ---------------------------------------------------------------- listing

  /** The sort key `order || 0`. */
  function Key(p: Project): int {
    p.order.GetOr(0)
  }

  /** What a legacy record's single `default_command` becomes: a one-element
      command list when it is non-empty, else no commands. */
  function LegacyCommands(defaultCommand: string): (cs: seq<string>)
    ensures |cs| <= 1
    ensures cs == [] <==> defaultCommand == ""
    ensures cs != [] ==> cs[0] == defaultCommand
  {
    if defaultCommand != "" then [defaultCommand] else []
  }

  /** The read-time repair of the project stored at index `i`. */
  function Backfilled(p: Project, i: nat): Project {
    p.(order := Some(p.order.GetOr(i)),
       commands := Some(p.commands.GetOr(LegacyCommands(p.defaultCommand))))
  }

  function Backfill(ps: seq<Project>): (r: seq<Project>)
    ensures |r| == |ps|
    ensures forall i :: 0 <= i < |ps| ==> r[i] == Backfilled(ps[i], i)
  {
    seq(|ps|, i requires 0 <= i < |ps| => Backfilled(ps[i], i))
  }

  ghost predicate SortedByKey(s: seq<Project>) {
    forall i, j :: 0 <= i < j < |s| ==> Key(s[i]) <= Key(s[j])
  }

  /** The projects carrying sort key `k`, in sequence order. */
  function WithKey(s: seq<Project>, k: int): seq<Project> {
    if |s| == 0 then []
    else if Key(s[0]) == k then [s[0]] + WithKey(s[1..], k)
    else WithKey(s[1..], k)
  }

  /** Place `x` in front of the first element whose key is not below its own. */
  function Insert(x: Project, s: seq<Project>): (r: seq<Project>)
    ensures multiset(r) == multiset(s) + multiset{x}
  {
    if |s| == 0 then [x]
    else if Key(x) <= Key(s[0]) then [x] + s
    else
      assert s == [s[0]] + s[1..];
      [s[0]] + Insert(x, s[1..])
  }

  lemma {:induction false} InsertSorted(x: Project, s: seq<Project>)
    requires SortedByKey(s)
    ensures SortedByKey(Insert(x, s))
  {
    if |s| > 0 && Key(x) > Key(s[0]) {
      InsertSorted(x, s[1..]);
      var rest := Insert(x, s[1..]);
      forall y | y in rest ensures Key(s[0]) <= Key(y) {
        assert y in multiset(rest);
        if y != x {
          assert y in multiset(s[1..]);
          var j :| 0 <= j < |s| - 1 && s[1..][j] == y;
          assert s[j + 1] == y;
        }
      }
      ConsSorted(s[0], rest);
    }
  }

  /** A sorted list stays sorted with a smallest-key element in front. */
  lemma ConsSorted(x: Project, s: seq<Project>)
    requires SortedByKey(s)
    requires forall y | y in s :: Key(x) <= Key(y)
    ensures SortedByKey([x] + s)
  {
    var r := [x] + s;
    forall i, j | 0 <= i < j < |r| ensures Key(r[i]) <= Key(r[j]) {
      if i > 0 {
        assert r[i] == s[i - 1] && r[j] == s[j - 1];
      } else {
        assert r[j] in s;
      }
    }
  }

  /** Inserting `x` puts it first among the projects with its key. */
  lemma {:induction false} InsertWithKey(x: Project, s: seq<Project>, k: int)
    ensures WithKey(Insert(x, s), k) == if Key(x) == k then [x] + WithKey(s, k) else WithKey(s, k)
  {
    if |s| == 0 {
    } else if Key(x) <= Key(s[0]) {
      assert ([x] + s)[1..] == s;
    } else {
      InsertWithKey(x, s[1..], k);
      assert ([s[0]] + Insert(x, s[1..]))[1..] == Insert(x, s[1..]);
    }
  }

  /** A stable sort by `order || 0` (Array.prototype.sort and Python's
      `list.sort` are both stable): the output is sorted, holds the same
      projects, and projects with equal keys keep their input order. */
  function SortByKey(s: seq<Project>): (r: seq<Project>)
    ensures SortedByKey(r)
    ensures multiset(r) == multiset(s)
    ensures forall k :: WithKey(r, k) == WithKey(s, k)
  {
    if |s| == 0 then []
    else
      assert s == [s[0]] + s[1..];
      var rest := SortByKey(s[1..]);
      InsertSorted(s[0], rest);
      assert forall k :: WithKey(Insert(s[0], rest), k) == WithKey(s, k) by {
        forall k ensures WithKey(Insert(s[0], rest), k) == WithKey(s, k) {
          InsertWithKey(s[0], rest, k);
        }
      }
      Insert(s[0], rest)
  }

  /** A project whose key is above every other key ends the sorted list. */
  lemma MaxKeyLast(s: seq<Project>, n: nat)
    requires n < |s|
    requires forall i :: 0 <= i < |s| && i != n ==> Key(s[i]) < Key(s[n])
    ensures var r := SortByKey(s); |r| == |s| && r[|s| - 1] == s[n]
  {
    var r := SortByKey(s);
    assert |r| == |s| by { assert |multiset(r)| == |multiset(s)|; }
    MaxKeyLastOf(s, r, n);
  }

  lemma MaxKeyLastOf(s: seq<Project>, r: seq<Project>, n: nat)
    requires n < |s| == |r|
    requires SortedByKey(r) && multiset(r) == multiset(s)
    requires forall i :: 0 <= i < |s| && i != n ==> Key(s[i]) < Key(s[n])
    ensures r[|s| - 1] == s[n]
  {
    assert s[n] in multiset(r);
    var t :| 0 <= t < |r| && r[t] == s[n];
    var last := |s| - 1;
    assert Key(r[last]) >= Key(s[n]) by {
      if t < last { assert Key(r[t]) <= Key(r[last]); }
    }
    assert r[last] in multiset(s);
    var i :| 0 <= i < |s| && s[i] == r[last];
    assert i == n;
  }

  /** `getAllProjects` / `get_all_projects`. */
  function GetAllProjects(ps: seq<Project>): (r: seq<Project>)
  {
    SortByKey(Backfill(ps))
  }

  /** Listing back-fills every record (a missing `order` becomes the stored
      index, missing `commands` the legacy list) and returns exactly those
      records, sorted by `order`, equal orders in stored order. */
  lemma GetAllProjectsSpec(ps: seq<Project>)
    ensures var r := GetAllProjects(ps);
      && |r| == |ps|
      && multiset(r) == multiset(Backfill(ps))
      && SortedByKey(r)
      && (forall k :: WithKey(r, k) == WithKey(Backfill(ps), k))
      && (forall p :: p in r ==> p.order.Some? && p.commands.Some?)
      && (forall i :: 0 <= i < |ps| && ps[i].order.None? ==> Backfill(ps)[i] in r && Backfill(ps)[i].order == Some(i))
  {
    var b := Backfill(ps);
    var r := GetAllProjects(ps);
    assert |multiset(r)| == |multiset(b)|;
    forall p | p in r ensures p.order.Some? && p.commands.Some? {
      assert p in multiset(b);
    }
    forall i | 0 <= i < |ps| && ps[i].order.None?
      ensures b[i] in r
    {
      assert b[i] in multiset(r);
    }
  }

  // ---------------------------------------------------------------- reorder

  ghost predicate Distinct(s: seq<string>) {
    forall i, j :: 0 <= i < j < |s| ==> s[i] != s[j]
  }

  function IdsOf(ps: seq<Project>): (r: seq<string>)
    ensures |r| == |ps| && forall i :: 0 <= i < |ps| ==> r[i] == ps[i].id
  {
    seq(|ps|, i requires 0 <= i < |ps| => ps[i].id)
  }

  /** The last project stored under `id`: the one an id-keyed object or dict
      built from the list keeps. */
  function LastWithId(ps: seq<Project>, id: string): (r: Option<Project>)
    ensures r.Some? <==> HasId(ps, id)
    ensures r.Some? ==> r.value.id == id && exists k :: 0 <= k < |ps| && ps[k] == r.value
  {
    if |ps| == 0 then None
    else if ps[|ps| - 1].id == id then Some(ps[|ps| - 1])
    else
      var init := ps[..|ps| - 1];
      var r := LastWithId(init, id);
      assert HasId(ps, id) <==> HasId(init, id) by {
        if HasId(ps, id) {
          var j :| 0 <= j < |ps| && ps[j].id == id;
          assert init[j] == ps[j];
        }
      }
      assert r.Some? ==> exists k :: 0 <= k < |ps| && ps[k] == r.value by {
        if r.Some? {
          var k :| 0 <= k < |init| && init[k] == r.value;
          assert ps[k] == r.value;
        }
      }
      r
  }

  /** With distinct stored ids the last project under an id is the only one. */
  lemma LastWithIdDistinct(ps: seq<Project>, k: nat)
    requires k < |ps| && IdsDistinct(ps)
    ensures LastWithId(ps, ps[k].id) == Some(ps[k])
  {
    var r := LastWithId(ps, ps[k].id).value;
    var j :| 0 <= j < |ps| && ps[j] == r;
    assert ps[j].id == ps[k].id;
  }

  /** The last position of `id` in `ids`: the `order` an aliased record ends
      with when its id is listed more than once. */
  function LastIndex(ids: seq<string>, id: string): (k: nat)
    requires id in ids
    ensures k < |ids| && ids[k] == id
    ensures forall j :: k < j < |ids| ==> ids[j] != id
  {
    if ids[|ids| - 1] == id then |ids| - 1
    else
      assert id in ids[..|ids| - 1] by {
        var j :| 0 <= j < |ids| && ids[j] == id;
        assert ids[..|ids| - 1][j] == id;
      }
      LastIndex(ids[..|ids| - 1], id)
  }

  /** `ids[from..]` without the ids no project carries. */
  function KnownIds(ps: seq<Project>, ids: seq<string>): seq<string> {
    if |ids| == 0 then []
    else if HasId(ps, ids[0]) then [ids[0]] + KnownIds(ps, ids[1..])
    else KnownIds(ps, ids[1..])
  }

  /** The project the first pass pushes for a listed, known id. */
  function ListedEntry(ps: seq<Project>, all: seq<string>, id: string): (p: Project)
    requires HasId(ps, id) && id in all
    ensures p.id == id && p.order == Some(LastIndex(all, id))
  {
    LastWithId(ps, id).value.(order := Some(LastIndex(all, id)))
  }

  /** First pass: for each listed id a project carries, that project with
      `order` set to the id's (last) position in the list. */
  function Listed(ps: seq<Project>, all: seq<string>, from: nat): seq<Project>
    requires from <= |all|
    decreases |all| - from
  {
    if from == |all| then []
    else if HasId(ps, all[from]) then [ListedEntry(ps, all, all[from])] + Listed(ps, all, from + 1)
    else Listed(ps, all, from + 1)
  }

  /** The first pass keeps the known ids in list order and pushes, for each,
      the entry described by `ListedEntry`. */
  lemma ListedSpec(ps: seq<Project>, all: seq<string>, from: nat)
    requires from <= |all|
    ensures IdsOf(Listed(ps, all, from)) == KnownIds(ps, all[from..])
    ensures forall i :: 0 <= i < |Listed(ps, all, from)| ==>
      Listed(ps, all, from)[i].id in all && HasId(ps, Listed(ps, all, from)[i].id)
    ensures forall i :: 0 <= i < |Listed(ps, all, from)| ==>
      Listed(ps, all, from)[i] == ListedEntry(ps, all, Listed(ps, all, from)[i].id)
  {
    ListedIds(ps, all, from);
    ListedEntries(ps, all, from);
  }

  lemma {:induction false} ListedIds(ps: seq<Project>, all: seq<string>, from: nat)
    requires from <= |all|
    ensures IdsOf(Listed(ps, all, from)) == KnownIds(ps, all[from..])
    decreases |all| - from
  {
    if from == |all| {
      assert all[from..] == [];
    } else {
      var id := all[from];
      ListedIds(ps, all, from + 1);
      var rest := Listed(ps, all, from + 1);
      assert all[from..][1..] == all[from + 1..];
      if HasId(ps, id) {
        var head := ListedEntry(ps, all, id);
        assert IdsOf([head] + rest) == [id] + IdsOf(rest);
      }
    }
  }

  lemma {:induction false} ListedEntries(ps: seq<Project>, all: seq<string>, from: nat)
    requires from <= |all|
    ensures forall i :: 0 <= i < |Listed(ps, all, from)| ==>
      Listed(ps, all, from)[i].id in all && HasId(ps, Listed(ps, all, from)[i].id)
    ensures forall i :: 0 <= i < |Listed(ps, all, from)| ==>
      Listed(ps, all, from)[i] == ListedEntry(ps, all, Listed(ps, all, from)[i].id)
    decreases |all| - from
  {
    if from < |all| {
      ListedEntries(ps, all, from + 1);
    }
  }

  /** The projects whose id is not listed, in stored order. */
  function Unlisted(ps: seq<Project>, ids: seq<string>): seq<Project> {
    if |ps| == 0 then []
    else if ps[0].id in ids then Unlisted(ps[1..], ids)
    else [ps[0]] + Unlisted(ps[1..], ids)
  }

  /** The projects whose id is listed, in stored order. */
  function Picked(ps: seq<Project>, ids: seq<string>): seq<Project> {
    if |ps| == 0 then []
    else if ps[0].id in ids then [ps[0]] + Picked(ps[1..], ids)
    else Picked(ps[1..], ids)
  }

  /** The two filters split the stored list. */
  lemma {:induction false} PartitionSpec(ps: seq<Project>, ids: seq<string>)
    ensures forall p :: p in Unlisted(ps, ids) <==> p in ps && p.id !in ids
    ensures forall p :: p in Picked(ps, ids) <==> p in ps && p.id in ids
    ensures |Picked(ps, ids)| + |Unlisted(ps, ids)| == |ps|
  {
    if |ps| > 0 {
      PartitionSpec(ps[1..], ids);
      assert ps == [ps[0]] + ps[1..];
    }
  }

  /** Second pass: each unlisted project appended with `order` equal to the
      length of the list so far. */
  function Renumbered(s: seq<Project>, start: int): (r: seq<Project>)
    ensures |r| == |s|
    ensures forall k :: 0 <= k < |s| ==> r[k] == s[k].(order := Some(start + k))
  {
    seq(|s|, k requires 0 <= k < |s| => s[k].(order := Some(start + k)))
  }

  /** `reorderProjects` / `reorder_projects`: the listed known projects in the
      given order, then everyone else in stored order. */
  function Reorder(ps: seq<Project>, ids: seq<string>): seq<Project> {
    var listed := Listed(ps, ids, 0);
    listed + Renumbered(Unlisted(ps, ids), |listed|)
  }

  /** For every list of ids: the known listed ids come first in the given
      order (unknown ones dropped), each carrying its position in the id list;
      then the unlisted projects in stored order, each numbered by its index. */
  lemma ReorderShape(ps: seq<Project>, ids: seq<string>)
    ensures var r := Reorder(ps, ids);
      var m := |KnownIds(ps, ids)|;
      && m <= |r|
      && IdsOf(r[..m]) == KnownIds(ps, ids)
      && (forall i :: 0 <= i < m ==> r[i].id in ids && r[i].order == Some(LastIndex(ids, r[i].id)))
      && r[m..] == Renumbered(Unlisted(ps, ids), m)
  {
    ReorderHead(ps, ids);
    ListedLength(ps, ids);
  }

  lemma ListedAll(ps: seq<Project>, ids: seq<string>)
    ensures IdsOf(Listed(ps, ids, 0)) == KnownIds(ps, ids)
    ensures |Listed(ps, ids, 0)| == |KnownIds(ps, ids)|
  {
    ListedSpec(ps, ids, 0);
    assert ids[0..] == ids;
  }

  lemma ReorderHead(ps: seq<Project>, ids: seq<string>)
    ensures |KnownIds(ps, ids)| <= |Reorder(ps, ids)|
    ensures Reorder(ps, ids)[..|KnownIds(ps, ids)|] == Listed(ps, ids, 0)
    ensures IdsOf(Reorder(ps, ids)[..|KnownIds(ps, ids)|]) == KnownIds(ps, ids)
    ensures forall i :: 0 <= i < |KnownIds(ps, ids)| ==>
      Reorder(ps, ids)[i].id in ids && Reorder(ps, ids)[i].order == Some(LastIndex(ids, Reorder(ps, ids)[i].id))
  {
    ListedAll(ps, ids);
    ListedSpec(ps, ids, 0);
    var listed := Listed(ps, ids, 0);
    var r := Reorder(ps, ids);
    assert r[..|listed|] == listed;
    forall i | 0 <= i < |listed| ensures r[i].id in ids && r[i].order == Some(LastIndex(ids, r[i].id)) {
      assert r[i] == listed[i];
    }
  }

  lemma ListedLength(ps: seq<Project>, ids: seq<string>)
    ensures |Listed(ps, ids, 0)| == |KnownIds(ps, ids)|
  {
    ListedAll(ps, ids);
  }

  lemma ReorderTail(ps: seq<Project>, ids: seq<string>)
    ensures |Reorder(ps, ids)| == |KnownIds(ps, ids)| + |Unlisted(ps, ids)|
  {
    ListedLength(ps, ids);
  }

  /** Past the listed part, position `j` holds an unlisted project numbered `j`. */
  lemma ReorderTailAt(ps: seq<Project>, ids: seq<string>, j: int)
    requires |KnownIds(ps, ids)| <= j < |Reorder(ps, ids)|
    ensures j - |KnownIds(ps, ids)| < |Unlisted(ps, ids)|
    ensures Reorder(ps, ids)[j] == Unlisted(ps, ids)[j - |KnownIds(ps, ids)|].(order := Some(j))
  {
    ListedLength(ps, ids);
  }

  lemma {:induction false} KnownIdsAll(ps: seq<Project>, ids: seq<string>)
    requires forall x :: x in ids ==> HasId(ps, x)
    ensures KnownIds(ps, ids) == ids
  {
    if |ids| > 0 {
      assert ids[0] in ids;
      KnownIdsAll(ps, ids[1..]);
    }
  }

  lemma {:induction false} DistinctCard(s: seq<string>)
    requires Distinct(s)
    ensures |set x | x in s| == |s|
  {
    if |s| > 0 {
      DistinctCard(s[1..]);
      assert (set x | x in s) == {s[0]} + (set x | x in s[1..]);
      assert s[0] !in s[1..];
    }
  }

  lemma {:induction false} PickedDistinct(ps: seq<Project>, ids: seq<string>)
    requires IdsDistinct(ps)
    ensures Distinct(IdsOf(Picked(ps, ids)))
  {
    if |ps| > 0 {
      PickedDistinct(ps[1..], ids);
      PartitionSpec(ps[1..], ids);
      var rest := Picked(ps[1..], ids);
      if ps[0].id in ids {
        forall k | 0 <= k < |rest| ensures rest[k].id != ps[0].id {
          var j :| 0 <= j < |ps| - 1 && ps[1..][j] == rest[k];
          assert ps[j + 1] == rest[k];
        }
      }
    }
  }

  /** With distinct stored ids and every listed id distinct and known, exactly
      as many projects are picked as ids are listed. */
  lemma PickedCount(ps: seq<Project>, ids: seq<string>)
    requires IdsDistinct(ps) && Distinct(ids)
    requires forall x :: x in ids ==> HasId(ps, x)
    ensures |Picked(ps, ids)| == |ids|
  {
    var picked := IdsOf(Picked(ps, ids));
    PartitionSpec(ps, ids);
    PickedDistinct(ps, ids);
    DistinctCard(picked);
    DistinctCard(ids);
    assert (set x | x in picked) == (set x | x in ids) by {
      forall x | x in ids ensures x in picked {
        var j :| 0 <= j < |ps| && ps[j].id == x;
        assert ps[j] in Picked(ps, ids);
        var k :| 0 <= k < |Picked(ps, ids)| && Picked(ps, ids)[k] == ps[j];
        assert picked[k] == x;
      }
    }
  }

  /** In a list of distinct ids the last position of an id is its only one. */
  lemma LastIndexDistinct(ids: seq<string>, j: nat)
    requires j < |ids| && Distinct(ids)
    ensures LastIndex(ids, ids[j]) == j
  {
  }

  lemma ReorderLength(ps: seq<Project>, ids: seq<string>)
    requires IdsDistinct(ps) && Distinct(ids)
    requires forall x :: x in ids ==> HasId(ps, x)
    ensures |Reorder(ps, ids)| == |ps| && |ids| <= |ps|
  {
    KnownIdsAll(ps, ids);
    ReorderTail(ps, ids);
    PickedCount(ps, ids);
    PartitionSpec(ps, ids);
  }

  lemma ReorderListedPositions(ps: seq<Project>, ids: seq<string>)
    requires Distinct(ids)
    requires forall x :: x in ids ==> HasId(ps, x)
    ensures |ids| <= |Reorder(ps, ids)|
    ensures forall j :: 0 <= j < |ids| ==> Reorder(ps, ids)[j].id == ids[j] && Reorder(ps, ids)[j].order == Some(j)
  {
    var r := Reorder(ps, ids);
    var m := |ids|;
    KnownIdsAll(ps, ids);
    ReorderHead(ps, ids);
    forall j | 0 <= j < m ensures r[j].id == ids[j] && r[j].order == Some(j) {
      assert IdsOf(r[..m])[j] == ids[j];
      assert r[..m][j] == r[j];
      LastIndexDistinct(ids, j);
    }
  }

  lemma ReorderUnlistedPositions(ps: seq<Project>, ids: seq<string>)
    requires forall x :: x in ids ==> HasId(ps, x)
    ensures forall j :: |ids| <= j < |Reorder(ps, ids)| ==> Reorder(ps, ids)[j].order == Some(j)
  {
    var r := Reorder(ps, ids);
    var m := |ids|;
    KnownIdsAll(ps, ids);
    forall j | m <= j < |r| ensures r[j].order == Some(j) {
      ReorderTailAt(ps, ids, j);
    }
  }

  lemma ReorderPositions(ps: seq<Project>, ids: seq<string>)
    requires IdsDistinct(ps) && Distinct(ids)
    requires forall x :: x in ids ==> HasId(ps, x)
    ensures |Reorder(ps, ids)| == |ps| && |ids| <= |ps|
    ensures forall j :: 0 <= j < |ids| ==> Reorder(ps, ids)[j].id == ids[j]
    ensures forall j :: 0 <= j < |ps| ==> Reorder(ps, ids)[j].order == Some(j)
  {
    ReorderLength(ps, ids);
    ReorderListedPositions(ps, ids);
    ReorderUnlistedPositions(ps, ids);
  }

  lemma ReorderKeepsEach(ps: seq<Project>, ids: seq<string>)
    requires IdsDistinct(ps) && Distinct(ids)
    requires forall x :: x in ids ==> HasId(ps, x)
    ensures forall p :: p in ps ==>
      exists j :: 0 <= j < |Reorder(ps, ids)| && Reorder(ps, ids)[j] == p.(order := Some(j))
  {
    ReorderKeepsListed(ps, ids);
    ReorderKeepsUnlisted(ps, ids);
  }

  /** A project whose id is listed lands at that id's index. */
  lemma ReorderKeepsListed(ps: seq<Project>, ids: seq<string>)
    requires IdsDistinct(ps) && Distinct(ids)
    requires forall x :: x in ids ==> HasId(ps, x)
    ensures forall p :: p in ps && p.id in ids ==>
      exists j :: 0 <= j < |Reorder(ps, ids)| && Reorder(ps, ids)[j] == p.(order := Some(j))
  {
    var r := Reorder(ps, ids);
    var m := |ids|;
    KnownIdsAll(ps, ids);
    ReorderPositions(ps, ids);
    forall p | p in ps && p.id in ids ensures exists j :: 0 <= j < |r| && r[j] == p.(order := Some(j)) {
      var j :| 0 <= j < m && ids[j] == p.id;
      var k :| 0 <= k < |ps| && ps[k] == p;
      LastWithIdDistinct(ps, k);
      assert r[j] == ListedEntry(ps, ids, p.id) by {
        ReorderHead(ps, ids);
        ListedSpec(ps, ids, 0);
        assert r[..m][j] == r[j];
      }
      assert r[j] == p.(order := Some(j));
    }
  }

  /** A project whose id is not listed lands after the listed ones. */
  lemma ReorderKeepsUnlisted(ps: seq<Project>, ids: seq<string>)
    requires IdsDistinct(ps) && Distinct(ids)
    requires forall x :: x in ids ==> HasId(ps, x)
    ensures forall p :: p in ps && p.id !in ids ==>
      exists j :: 0 <= j < |Reorder(ps, ids)| && Reorder(ps, ids)[j] == p.(order := Some(j))
  {
    var r := Reorder(ps, ids);
    var m := |ids|;
    KnownIdsAll(ps, ids);
    ReorderPositions(ps, ids);
    forall p | p in ps && p.id !in ids ensures exists j :: 0 <= j < |r| && r[j] == p.(order := Some(j)) {
      var u := Unlisted(ps, ids);
      assert p in u by { PartitionSpec(ps, ids); }
      var t :| 0 <= t < |u| && u[t] == p;
      ReorderTail(ps, ids);
      ReorderTailAt(ps, ids, m + t);
    }
  }

  /** The drag-and-drop promise: with distinct stored ids and a list of
      distinct known ids, the result holds every stored project exactly once,
      only its `order` changed, the listed ones first in the given order, and
      every `order` equal to the project's new index. */
  lemma ReorderIsPermutation(ps: seq<Project>, ids: seq<string>)
    requires IdsDistinct(ps) && Distinct(ids)
    requires forall x :: x in ids ==> HasId(ps, x)
    ensures var r := Reorder(ps, ids);
      && |r| == |ps| && |ids| <= |r|
      && (forall j :: 0 <= j < |ids| ==> r[j].id == ids[j])
      && (forall j :: 0 <= j < |r| ==> r[j].order == Some(j))
      && (forall p :: p in ps ==> exists j :: 0 <= j < |r| && r[j] == p.(order := Some(j)))
  {
    ReorderPositions(ps, ids);
    ReorderKeepsEach(ps, ids);
  }
}

=== FILE: renderer.dfy ===
/** The renderer's pure helpers: list moves for the project list and the
    command rows, path shortening, the search filter, browse-path
    relativisation, the project form's collection and validation, accelerator
    building and the file-drop append. The DOM is replaced by the values read
    from it. */
module Renderer {
  import opened Wrappers
  import Text
  import opened Projects

  // ---------------------------------------------------------------- list moves

  /** The index in the old list that lands at `i` after moving `from` to `to`. */
  function MoveSource(from: nat, to: nat, i: nat): nat {
    if i == to then from
    else if from < to && from <= i < to then i + 1
    else if to < from && to < i <= from then i - 1
    else i
  }

  /** `splice(from, 1)` followed by `splice(to, 0, moved)`: take the element
      out and put it back at `to`. */
  function Move<T>(s: seq<T>, from: nat, to: nat): (r: seq<T>)
    requires from < |s| && to < |s|
    ensures |r| == |s| && r[to] == s[from]
    ensures forall i :: 0 <= i < |s| ==> MoveSource(from, to, i) < |s| && r[i] == s[MoveSource(from, to, i)]
  {
    var rest := s[..from] + s[from + 1..];
    rest[..to] + [s[from]] + rest[to..]
  }

  /** A move is a permutation that keeps the other elements in their order. */
  lemma MovePermutes<T>(s: seq<T>, from: nat, to: nat)
    requires from < |s| && to < |s|
    ensures var r := Move(s, from, to);
      && r[..to] + r[to + 1..] == s[..from] + s[from + 1..]
      && multiset(r) == multiset(s)
  {
    var rest := s[..from] + s[from + 1..];
    var r := Move(s, from, to);
    assert r == rest[..to] + [s[from]] + rest[to..];
    assert r[..to] + r[to + 1..] == rest by {
      assert r[..to] == rest[..to];
      assert r[to + 1..] == rest[to..];
    }
    assert multiset(rest) == multiset(s[..from]) + multiset(s[from + 1..]);
    calc {
      multiset(r);
    == { assert r == (rest[..to] + [s[from]]) + rest[to..]; }
      multiset(rest[..to] + [s[from]]) + multiset(rest[to..]);
    ==
      multiset(rest[..to]) + multiset{s[from]} + multiset(rest[to..]);
    == { assert rest == rest[..to] + rest[to..]; }
      multiset(rest) + multiset{s[from]};
    ==
      multiset(s[..from]) + multiset{s[from]} + multiset(s[from + 1..]);
    == { assert s == (s[..from] + [s[from]]) + s[from + 1..]; }
      multiset(s);
    }
  }

  /** Moving back undoes a move. */
  lemma MoveBack<T>(s: seq<T>, from: nat, to: nat)
    requires from < |s| && to < |s|
    ensures Move(Move(s, from, to), to, from) == s
  {
    var r := Move(s, from, to);
    var t := Move(r, to, from);
    forall i | 0 <= i < |s| ensures t[i] == s[i] {
      assert t[i] == r[MoveSource(to, from, i)];
    }
  }

  /** `handleDrop`: a drop on another row moves the dragged project to the
      target's place in the loaded list (all projects, whatever the search
      shows); a drop on itself or with an id the
      list does not hold changes nothing. The new id order is then sent to
      `reorderProjects`. */
  function DropProject(listed: seq<Project>, draggedId: string, targetId: string): (r: Option<seq<Project>>)
    ensures r.Some? <==> draggedId != targetId && HasId(listed, draggedId) && HasId(listed, targetId)
    ensures r.Some? ==>
      var a := FindIndex(listed, draggedId).value;
      var b := FindIndex(listed, targetId).value;
      && multiset(r.value) == multiset(listed)
      && |r.value| == |listed|
      && r.value[b] == listed[a]
      && r.value[..b] + r.value[b + 1..] == listed[..a] + listed[a + 1..]
  {
    if draggedId == targetId then None
    else match (FindIndex(listed, draggedId), FindIndex(listed, targetId))
      case (Some(a), Some(b)) =>
        MovePermutes(listed, a, b);
        Some(Move(listed, a, b))
      case _ => None
  }

  // ---------------------------------------------------------------- command rows

  /** The name shown beside command `i`: a missing one reads as empty. */
  function NameAt(names: seq<string>, i: nat): string {
    if i < |names| then names[i] else ""
  }

  /** Each command with the name shown beside it. */
  function Pairs(cmds: seq<string>, names: seq<string>): (r: seq<(string, string)>)
    ensures |r| == |cmds|
    ensures forall i :: 0 <= i < |cmds| ==> r[i] == (cmds[i], NameAt(names, i))
  {
    seq(|cmds|, i requires 0 <= i < |cmds| => (cmds[i], NameAt(names, i)))
  }

  /** `splice(i, 1)` on a list that may be shorter than `i`: nothing is taken
      and the taken element is absent. */
  function SpliceOut(s: seq<string>, i: nat): (r: (seq<string>, Option<string>))
    ensures i < |s| ==> r == (s[..i] + s[i + 1..], Some(s[i]))
    ensures i >= |s| ==> r == (s, None)
  {
    if i < |s| then (s[..i] + s[i + 1..], Some(s[i])) else (s, None)
  }

  /** `splice(i, 0, x)`: an index past the end appends. */
  function SpliceIn(s: seq<string>, i: nat, x: string): (r: seq<string>)
    ensures |r| == |s| + 1
    ensures i <= |s| ==> r == s[..i] + [x] + s[i..]
    ensures i > |s| ==> r == s + [x]
  {
    var k := if i <= |s| then i else |s|;
    s[..k] + [x] + s[k..]
  }

  /** The command-row drop handler as written: `from` and `to` are the parsed
      indices (`None` for NaN), both rows of the rendered commands. The
      commands are moved; the names are spliced with JavaScript's clamping,
      so a name list shorter than the commands is not padded first. */
  function ReorderCommandsAsWritten(cmds: seq<string>, names: seq<string>, from: Option<int>, to: Option<int>)
    : (r: (seq<string>, seq<string>))
    requires from.Some? ==> 0 <= from.value < |cmds|
    requires to.Some? ==> 0 <= to.value < |cmds|
    ensures from.None? || to.None? || from == to ==> r == (cmds, names)
    ensures from.Some? && to.Some? && from != to ==>
      && r.0 == Move(cmds, from.value, to.value)
      && |r.1| == (if from.value < |names| then |names| else |names| + 1)
    ensures from.Some? && to.Some? && from != to && from.value < |names| && to.value < |names| ==>
      r.1 == Move(names, from.value, to.value)
  {
    if from.None? || to.None? || from == to then (cmds, names)
    else
      var (f, t) := (from.value, to.value);
      var (rest, moved) := SpliceOut(names, f);
      (Move(cmds, f, t), SpliceIn(rest, t, moved.GetOr("")))
  }

  /** The handler as written is right whenever there are at least as many
      names as commands: it then agrees with the corrected reorder, so each
      command keeps its name. */
  lemma ReorderCommandsAsWrittenWhenPadded(cmds: seq<string>, names: seq<string>, from: Option<int>, to: Option<int>)
    requires from.Some? ==> 0 <= from.value < |cmds|
    requires to.Some? ==> 0 <= to.value < |cmds|
    ensures |names| >= |cmds| ==> ReorderCommandsAsWritten(cmds, names, from, to) == ReorderCommands(cmds, names, from, to)
    ensures |names| >= |cmds| && from.Some? && to.Some? && from != to ==>
      Pairs(ReorderCommandsAsWritten(cmds, names, from, to).0, ReorderCommandsAsWritten(cmds, names, from, to).1)
        == Move(Pairs(cmds, names), from.value, to.value)
  {
    if |names| >= |cmds| && from.Some? && to.Some? && from != to {
      assert Padded(names, |cmds|) == names;
    }
  }

  /** With three commands and one name, moving the first command to the end
      leaves the name on the row that used to be second. */
  lemma ReorderCommandsAsWrittenBreaksPairing()
    ensures var r := ReorderCommandsAsWritten(["a", "b", "c"], ["x"], Some(0), Some(2));
      && r.1 == ["x"]
      && Pairs(r.0, r.1)[0] == ("b", "x")
      && Pairs(["a", "b", "c"], ["x"])[1] == ("b", "")
      && Pairs(r.0, r.1) != Move(Pairs(["a", "b", "c"], ["x"]), 0, 2)
  {
    var r := ReorderCommandsAsWritten(["a", "b", "c"], ["x"], Some(0), Some(2));
    assert r.0 == ["b", "c", "a"] by {
      var m := Move(["a", "b", "c"], 0, 2);
      assert m[0] == "b" && m[1] == "c" && m[2] == "a";
    }
    var moved := Move(Pairs(["a", "b", "c"], ["x"]), 0, 2);
    assert moved[0] == ("b", "");
  }

  /** The names padded with empty strings to at least `n` entries. */
  function Padded(names: seq<string>, n: nat): (r: seq<string>)
    ensures |r| >= n && |r| >= |names|
    ensures forall i :: 0 <= i < |r| ==> r[i] == NameAt(names, i)
  {
    if |names| >= n then names else names + seq(n - |names|, _ => "")
  }

  /** The command-row reorder as intended: pad the names to the commands'
      length, then apply the same move to both lists. */
  function ReorderCommands(cmds: seq<string>, names: seq<string>, from: Option<int>, to: Option<int>)
    : (r: (seq<string>, seq<string>))
    requires from.Some? ==> 0 <= from.value < |cmds|
    requires to.Some? ==> 0 <= to.value < |cmds|
    ensures from.None? || to.None? || from == to ==> r == (cmds, names)
    ensures from.Some? && to.Some? && from != to ==>
      && multiset(r.0) == multiset(cmds)
      && Pairs(r.0, r.1) == Move(Pairs(cmds, names), from.value, to.value)
  {
    if from.None? || to.None? || from == to then (cmds, names)
    else
      var (f, t) := (from.value, to.value);
      var padded := Padded(names, |cmds|);
      var r := (Move(cmds, f, t), Move(padded, f, t));
      MovePermutes(cmds, f, t);
      MovePairs(cmds, names, f, t);
      r
  }

  /** Moving both lists by the same step moves each command together with the
      name shown beside it. */
  lemma MovePairs(cmds: seq<string>, names: seq<string>, f: nat, t: nat)
    requires f < |cmds| && t < |cmds|
    ensures Pairs(Move(cmds, f, t), Move(Padded(names, |cmds|), f, t)) == Move(Pairs(cmds, names), f, t)
  {
    var padded := Padded(names, |cmds|);
    var lhs := Pairs(Move(cmds, f, t), Move(padded, f, t));
    var rhs := Move(Pairs(cmds, names), f, t);
    forall i | 0 <= i < |cmds| ensures lhs[i] == rhs[i] {
      var k := MoveSource(f, t, i);
      assert Move(padded, f, t)[i] == padded[k];
    }
  }

  // ---------------------------------------------------------------- path display

  /** Where the match of `^/Users/[^/]+` ends, if the path has one: after
      `/Users/` and the run of non-`/` characters that follows it. */
  function UserPrefixEnd(p: string): (e: Option<nat>)
    ensures e.Some? ==> 8 <= e.value <= |p| && (e.value == |p| || p[e.value] == '/')
    ensures e.Some? ==> forall i :: 7 <= i < e.value ==> p[i] != '/'
  {
    if |p| > 7 && p[..7] == "/Users/" && p[7] != '/' then Some(7 + NonSlashRun(p[7..])) else None
  }

  function NonSlashRun(s: string): (n: nat)
    ensures n <= |s| && (n == |s| || s[n] == '/')
    ensures forall i :: 0 <= i < n ==> s[i] != '/'
  {
    if |s| == 0 || s[0] == '/' then 0 else 1 + NonSlashRun(s[1..])
  }

  /** The home directory replaced by `~`. */
  function Home(p: string): string {
    match UserPrefixEnd(p)
    case Some(e) => "~" + p[e..]
    case None => p
  }

  /** `shortenPath`: at most 40 characters; a longer one is `...` and the last
      37 characters of the home-relative path. */
  function ShortenPath(p: string): (r: string)
    ensures |r| <= 40
    ensures |Home(p)| <= 40 ==> r == Home(p)
    ensures |Home(p)| > 40 ==> |r| == 40 && r[..3] == "..." && r[3..] == Home(p)[|Home(p)| - 37..]
  {
    var h := Home(p);
    if |h| > 40 then "..." + h[|h| - 37..] else h
  }

  /** A path under `/Users/<name>` shows as `~` and the rest. */
  lemma HomeOfUserPath(user: string, rest: string)
    requires |user| > 0 && '/' !in user
    requires rest == [] || rest[0] == '/'
    ensures Home("/Users/" + user + rest) == "~" + rest
  {
    var p := "/Users/" + user + rest;
    assert p[..7] == "/Users/" && p[7] == user[0];
    NonSlashRunOf(user, rest);
    assert p[7..] == user + rest;
    assert p[7 + |user|..] == rest;
  }

  lemma {:induction false} NonSlashRunOf(user: string, rest: string)
    requires '/' !in user
    requires rest == [] || rest[0] == '/'
    ensures NonSlashRun(user + rest) == |user|
  {
    if |user| > 0 {
      assert (user + rest)[1..] == user[1..] + rest;
      NonSlashRunOf(user[1..], rest);
    }
  }

  /** Shortening a shortened path changes nothing. */
  lemma ShortenIdempotent(p: string)
    ensures ShortenPath(ShortenPath(p)) == ShortenPath(p)
  {
    var r := ShortenPath(p);
    var h := Home(p);
    assert UserPrefixEnd(h) == None by {
      if UserPrefixEnd(p).Some? {
        assert h[0] == '~';
      }
    }
    assert UserPrefixEnd(r) == None by {
      if |h| > 40 {
        assert r[0] == '.';
      }
    }
  }

  // ---------------------------------------------------------------- search

  /** A project matches when its lower-cased name or path contains the query. */
  predicate Matches(p: Project, query: string) {
    Text.Contains(Text.Lower(p.name), query) || Text.Contains(Text.Lower(p.path), query)
  }

  /** The project-list filter: the query is lower-cased as typed; an empty one
      shows every project, in the list's order. */
  function SearchFilter(ps: seq<Project>, typed: string): (r: seq<Project>)
    ensures |r| <= |ps|
    ensures typed == "" ==> r == ps
    ensures forall p :: p in r <==> p in ps && (typed == "" || Matches(p, Text.Lower(typed)))
  {
    var q := Text.Lower(typed);
    if q == "" then ps else Filter(ps, q)
  }

  function Filter(ps: seq<Project>, q: string): (r: seq<Project>)
    ensures |r| <= |ps|
    ensures forall p :: p in r <==> p in ps && Matches(p, q)
  {
    if |ps| == 0 then []
    else (if Matches(ps[0], q) then [ps[0]] else []) + Filter(ps[1..], q)
  }

  /** The filter keeps the list's order: it works piece by piece. */
  lemma {:induction false} FilterAppend(a: seq<Project>, b: seq<Project>, q: string)
    ensures Filter(a + b, q) == Filter(a, q) + Filter(b, q)
  {
    if |a| > 0 {
      assert (a + b)[1..] == a[1..] + b;
      FilterAppend(a[1..], b, q);
    } else {
      assert a + b == b;
    }
  }

  /** Filtering twice with the same query is filtering once. */
  lemma {:induction false} SearchIdempotent(ps: seq<Project>, typed: string)
    ensures SearchFilter(SearchFilter(ps, typed), typed) == SearchFilter(ps, typed)
  {
    var q := Text.Lower(typed);
    if q != "" {
      FilterIdempotent(ps, q);
    }
  }

  lemma {:induction false} FilterIdempotent(ps: seq<Project>, q: string)
    ensures Filter(Filter(ps, q), q) == Filter(ps, q)
  {
    if |ps| > 0 {
      var head := if Matches(ps[0], q) then [ps[0]] else [];
      FilterAppend(head, Filter(ps[1..], q), q);
      FilterIdempotent(ps[1..], q);
      if Matches(ps[0], q) {
        assert Filter(head, q) == [ps[0]] + Filter([], q);
      }
    }
  }

  // ---------------------------------------------------------------- browse

  predicate StartsWith(s: string, prefix: string) {
    |prefix| <= |s| && s[..|prefix|] == prefix
  }

  /** A file chosen inside the project folder is written relative to it. */
  function Relativise(projectPath: string, filePath: string): (r: string)
    ensures projectPath != "" && StartsWith(filePath, projectPath + "/") ==>
      && |r| >= 2 && r[..2] == "./"
      && projectPath + "/" + r[2..] == filePath
    ensures !(projectPath != "" && StartsWith(filePath, projectPath + "/")) ==> r == filePath
  {
    if projectPath != "" && StartsWith(filePath, projectPath + "/") then
      var r := "./" + filePath[|projectPath| + 1..];
      assert r[2..] == filePath[|projectPath| + 1..];
      assert filePath == filePath[..|projectPath| + 1] + filePath[|projectPath| + 1..];
      r
    else filePath
  }

  // ---------------------------------------------------------------- project form

  /** One command row of the form: the command input and, when present, the
      name input. */
  datatype CommandRow = CommandRow(command: string, name: Option<string>)

  /** Each row's trimmed command, with its trimmed name or `""`, for the rows
      whose command is not blank. */
  function Collect(rows: seq<CommandRow>): (r: (seq<string>, seq<string>))
    ensures |r.0| == |r.1| <= |rows|
  {
    if |rows| == 0 then ([], [])
    else
      var cmd := Text.JsTrim(rows[0].command);
      var name := if rows[0].name.Some? then Text.JsTrim(rows[0].name.value) else "";
      var rest := Collect(rows[1..]);
      if cmd != "" then ([cmd] + rest.0, [name] + rest.1) else rest
  }

  /** Commands as saved: none blank, none with whitespace at either end. */
  predicate CleanCommands(cmds: seq<string>) {
    forall i :: 0 <= i < |cmds| ==> cmds[i] != "" && Text.Trimmed(cmds[i], Text.IsJsSpace)
  }

  /** Names as saved: none with whitespace at either end. */
  predicate CleanNames(names: seq<string>) {
    forall i :: 0 <= i < |names| ==> Text.Trimmed(names[i], Text.IsJsSpace)
  }

  /** Every collected command is trimmed and not empty, and every collected
      name is trimmed. */
  lemma {:induction false} CollectTrimmed(rows: seq<CommandRow>)
    ensures CleanCommands(Collect(rows).0) && CleanNames(Collect(rows).1)
  {
    if |rows| > 0 {
      CollectTrimmed(rows[1..]);
      if Text.JsTrim(rows[0].command) != "" {
        CollectFilled(rows);
        RowTrimmed(rows[0]);
        ConsClean(Text.JsTrim(rows[0].command), if rows[0].name.Some? then Text.JsTrim(rows[0].name.value) else "",
                  Collect(rows[1..]).0, Collect(rows[1..]).1);
      }
    }
  }

  lemma ConsClean(c: string, n: string, cmds: seq<string>, names: seq<string>)
    requires c != "" && Text.Trimmed(c, Text.IsJsSpace) && Text.Trimmed(n, Text.IsJsSpace)
    requires CleanCommands(cmds) && CleanNames(names)
    ensures CleanCommands([c] + cmds) && CleanNames([n] + names)
  {
  }

  lemma RowTrimmed(row: CommandRow)
    ensures Text.Trimmed(Text.JsTrim(row.command), Text.IsJsSpace)
    ensures Text.Trimmed(if row.name.Some? then Text.JsTrim(row.name.value) else "", Text.IsJsSpace)
  {
  }

  /** The rows the edit form shows for a saved command list. */
  function Rows(cmds: seq<string>, names: seq<string>): (r: seq<CommandRow>)
    ensures |r| == |cmds|
  {
    seq(|cmds|, i requires 0 <= i < |cmds| => CommandRow(cmds[i], Some(NameAt(names, i))))
  }

  /** Opening the edit form and saving without a change stores the same
      commands and names. */
  lemma {:induction false} CollectRows(cmds: seq<string>, names: seq<string>)
    requires |names| == |cmds|
    requires CleanCommands(cmds) && CleanNames(names)
    ensures Collect(Rows(cmds, names)) == (cmds, names)
  {
    if |cmds| > 0 {
      var rows := Rows(cmds, names);
      RowsTail(cmds, names);
      CollectRows(cmds[1..], names[1..]);
      Text.TrimOfTrimmed(cmds[0], Text.IsJsSpace);
      Text.TrimOfTrimmed(names[0], Text.IsJsSpace);
      CollectFilled(rows);
      assert cmds == [cmds[0]] + cmds[1..];
      assert names == [names[0]] + names[1..];
    }
  }

  lemma RowsTail(cmds: seq<string>, names: seq<string>)
    requires |names| == |cmds| > 0
    ensures Rows(cmds, names)[0] == CommandRow(cmds[0], Some(names[0]))
    ensures Rows(cmds, names)[1..] == Rows(cmds[1..], names[1..])
  {
    var rows := Rows(cmds, names);
    forall i | 0 <= i < |cmds| - 1 ensures rows[1..][i] == Rows(cmds[1..], names[1..])[i] {
      assert rows[1..][i] == rows[i + 1];
    }
  }

  /** A row whose trimmed command is not blank contributes its trimmed
      command and name in front of the rest. */
  lemma CollectFilled(rows: seq<CommandRow>)
    requires |rows| > 0 && Text.JsTrim(rows[0].command) != ""
    ensures Collect(rows) == ([Text.JsTrim(rows[0].command)] + Collect(rows[1..]).0,
                              [if rows[0].name.Some? then Text.JsTrim(rows[0].name.value) else ""] + Collect(rows[1..]).1)
  {
  }

  /** The number of rows whose command is not blank. */
  function FilledRows(rows: seq<CommandRow>): nat {
    if |rows| == 0 then 0 else (if Text.JsTrim(rows[0].command) != "" then 1 else 0) + FilledRows(rows[1..])
  }

  /** One command is collected per filled row, so blank rows are the only ones
      dropped. */
  lemma {:induction false} CollectCount(rows: seq<CommandRow>)
    ensures |Collect(rows).0| == FilledRows(rows)
  {
    if |rows| > 0 {
      CollectCount(rows[1..]);
    }
  }

  /** What `saveProject` sends to the main process. */
  datatype Submission = Submission(name: string, path: string, commands: seq<string>,
                                   commandNames: seq<string>, resultPath: string)

  /** `saveProject`: refused when the trimmed name or path is empty or no
      command is left. */
  function SaveProject(name: string, path: string, outputPath: string, rows: seq<CommandRow>)
    : (r: Result<Submission, string>)
    ensures r.Err? <==> Text.JsTrim(name) == "" || Text.JsTrim(path) == "" || FilledRows(rows) == 0
    ensures r.Ok? ==>
      && r.value.name == Text.JsTrim(name) && r.value.path == Text.JsTrim(path)
      && r.value.resultPath == Text.JsTrim(outputPath)
      && (r.value.commands, r.value.commandNames) == Collect(rows)
      && |r.value.commands| == |r.value.commandNames| == FilledRows(rows) > 0
  {
    var (cmds, names) := Collect(rows);
    CollectCount(rows);
    if Text.JsTrim(name) == "" || Text.JsTrim(path) == "" || |cmds| == 0 then Err("fillAllFields")
    else Ok(Submission(Text.JsTrim(name), Text.JsTrim(path), cmds, names, Text.JsTrim(outputPath)))
  }

  // ---------------------------------------------------------------- accelerator

  /** The fields of a `keydown` event the recorder reads. */
  datatype KeyPress = KeyPress(key: string, code: string, meta: bool, ctrl: bool, alt: bool, shift: bool)

  datatype ShortcutOutcome =
    | Hint(held: seq<string>)    // only modifiers held: their symbols, shown with `+ ?`
    | Ignored                    // no modifier, or no key name
    | Accelerator(accel: string)

  function ModifierParts(e: KeyPress): (parts: seq<string>)
    ensures parts == [] <==> !(e.meta || e.ctrl || e.alt || e.shift)
  {
    (if e.meta || e.ctrl then ["CommandOrControl"] else [])
      + (if e.alt then ["Alt"] else []) + (if e.shift then ["Shift"] else [])
  }

  function ModifierSymbols(e: KeyPress): seq<string> {
    (if e.meta || e.ctrl then ["\U{2318}"] else [])
      + (if e.alt then ["\U{2325}"] else []) + (if e.shift then ["\U{21E7}"] else [])
  }

  predicate IsModifierKey(key: string) {
    key == "Meta" || key == "Control" || key == "Alt" || key == "Shift"
  }

  predicate AllDigits(s: string) {
    forall i :: 0 <= i < |s| ==> '0' <= s[i] <= '9'
  }

  function UpperChar(c: char): char {
    if 'a' <= c <= 'z' then (c as int - 32) as char else c
  }

  /** True when the code is a function key `F<digits>`. */
  predicate FunctionKey(code: string) {
    StartsWith(code, "F") && AllDigits(code[1..])
  }

  /** The key name from the physical key code, falling back to the key's
      character upper-cased (or its name). */
  function KeyName(code: string, key: string): (r: string)
    ensures StartsWith(code, "Key") ==> r == code[3..]
    ensures StartsWith(code, "Digit") ==> r == code[5..]
    ensures FunctionKey(code) ==> r == code
    ensures code == "Enter" ==> r == "Return"
    ensures |code| <= 2 && !FunctionKey(code) && |key| == 1 ==> r == [UpperChar(key[0])]
  {
    if StartsWith(code, "Key") then
      assert code[0] == "Key"[0];
      code[3..]
    else if StartsWith(code, "Digit") then
      assert code[0] == "Digit"[0] && code[1] == "Digit"[1];
      code[5..]
    else if code == "Space" then "Space"
    else if code == "Backspace" then "Backspace"
    else if code == "Delete" then "Delete"
    else if code == "Enter" then "Return"
    else if code == "Tab" then "Tab"
    else if code == "Escape" then "Escape"
    else if code == "ArrowUp" then "Up"
    else if code == "ArrowDown" then "Down"
    else if code == "ArrowLeft" then "Left"
    else if code == "ArrowRight" then "Right"
    else if FunctionKey(code) then
      assert code[0] == "F"[0];
      code
    else if code == "Minus" then "-"
    else if code == "Equal" then "="
    else if code == "BracketLeft" then "["
    else if code == "BracketRight" then "]"
    else if code == "Backslash" then "\\"
    else if code == "Semicolon" then ";"
    else if code == "Quote" then "'"
    else if code == "Comma" then ","
    else if code == "Period" then "."
    else if code == "Slash" then "/"
    else if code == "Backquote" then "`"
    else if |key| == 1 then [UpperChar(key[0])]
    else key
  }

  /** The shortcut recorder's `keydown` handler. */
  function RecordShortcut(e: KeyPress): (r: ShortcutOutcome)
    ensures r.Hint? <==> IsModifierKey(e.key)
    ensures r.Hint? ==> r.held == ModifierSymbols(e)
    ensures r.Accelerator? <==> !IsModifierKey(e.key) && ModifierParts(e) != [] && KeyName(e.code, e.key) != ""
    ensures r.Accelerator? && '+' !in KeyName(e.code, e.key) ==>
      Text.Split(r.accel, '+') == ModifierParts(e) + [KeyName(e.code, e.key)]
  {
    if IsModifierKey(e.key) then Hint(ModifierSymbols(e))
    else
      var parts := ModifierParts(e);
      if parts == [] then Ignored
      else
        var key := KeyName(e.code, e.key);
        if key == "" then Ignored
        else
          var all := parts + [key];
          assert forall i :: 0 <= i < |all| ==> ('+' !in key ==> '+' !in all[i]);
          if '+' !in key then
            Text.SplitJoin(all, '+');
            Accelerator(Text.Join("+", all))
          else Accelerator(Text.Join("+", all))
  }

  /** A letter key with Command held records `CommandOrControl+<letter>`. */
  lemma CommandLetter(c: char)
    requires 'A' <= c <= 'Z'
    ensures RecordShortcut(KeyPress([c], "Key" + [c], true, false, false, false)) ==
      Accelerator("CommandOrControl+" + [c])
  {
    var e := KeyPress([c], "Key" + [c], true, false, false, false);
    assert StartsWith(e.code, "Key") && e.code[3..] == [c];
    assert ModifierParts(e) == ["CommandOrControl"];
    var all := ["CommandOrControl", [c]];
    assert all[1..] == [[c]];
    assert Text.Join("+", all) == "CommandOrControl" + "+" + [c];
  }

  // ---------------------------------------------------------------- file drop

  function NonEmpty(paths: seq<string>): (r: seq<string>)
    ensures |r| <= |paths|
    ensures forall i :: 0 <= i < |r| ==> r[i] != ""
    ensures forall x :: x in r <==> x in paths && x != ""
  {
    if |paths| == 0 then []
    else (if paths[0] != "" then [paths[0]] else []) + NonEmpty(paths[1..])
  }

  /** Dropping files on a command input appends their paths, space-separated,
      to the trimmed current value; nothing happens when no path is left. */
  function FileDrop(current: string, paths: seq<string>): (r: Option<string>)
    ensures r.Some? <==> exists i :: 0 <= i < |paths| && paths[i] != ""
    ensures r.Some? ==>
      var kept := NonEmpty(paths);
      var cur := Text.JsTrim(current);
      r.value == Text.Join(" ", (if cur == "" then [] else [cur]) + kept)
  {
    var kept := NonEmpty(paths);
    assert kept != [] <==> exists i :: 0 <= i < |paths| && paths[i] != "" by {
      if kept != [] {
        assert kept[0] in paths;
      }
      if exists i :: 0 <= i < |paths| && paths[i] != "" {
        var i :| 0 <= i < |paths| && paths[i] != "";
        assert paths[i] in kept;
      }
    }
    if kept == [] then None
    else
      var cur := Text.JsTrim(current);
      var joined := Text.Join(" ", kept);
      if cur != "" then
        assert ([cur] + kept)[1..] == kept;
        Some(cur + " " + joined)
      else
        assert [] + kept == kept;
        Some(joined)
  }

  /** When neither the current value nor any path holds a space, splitting the
      new value on spaces gives the current value (if any) and then the paths. */
  lemma FileDropSplits(current: string, paths: seq<string>)
    requires FileDrop(current, paths).Some?
    requires ' ' !in Text.JsTrim(current)
    requires forall i :: 0 <= i < |paths| ==> ' ' !in paths[i]
    ensures var cur := Text.JsTrim(current);
      Text.Split(FileDrop(current, paths).value, ' ') == (if cur == "" then [] else [cur]) + NonEmpty(paths)
  {
    var i :| 0 <= i < |paths| && paths[i] != "";
    assert paths[i] in NonEmpty(paths);
    SpaceFreeSplit(Text.JsTrim(current), paths);
  }

  /** Joining space-free pieces with spaces and splitting on spaces again gives
      the pieces back. */
  lemma SpaceFreeSplit(cur: string, paths: seq<string>)
    requires ' ' !in cur
    requires forall i :: 0 <= i < |paths| ==> ' ' !in paths[i]
    requires NonEmpty(paths) != []
    ensures var all := (if cur == "" then [] else [cur]) + NonEmpty(paths);
      Text.Split(Text.Join(" ", all), ' ') == all
  {
    var kept := NonEmpty(paths);
    var all := (if cur == "" then [] else [cur]) + kept;
    forall i | 0 <= i < |all| ensures ' ' !in all[i] {
      if cur == "" || i > 0 {
        var k := if cur == "" then i else i - 1;
        assert all[i] == kept[k];
        assert kept[k] in paths;
      }
    }
    Text.SplitJoin(all, ' ');
  }
}

=== FILE: runner.dfy ===
/** The pure pieces under the schedule engine: the schedule record, the capped
    stdout/stderr accumulator, the exit-status classifier, the timeout budget and
    the completion record that turns a finished run into a log entry, a metadata
    update, an optional desktop notification and an optional renderer event.
    Times are milliseconds given as integers; processes are not modelled here. */
module Execution {
  import opened Wrappers
  import Text

  /** A stored schedule: which command of which project to run, on which cron
      expression, and the metadata of its last run. */
  datatype Schedule = Schedule(
    id: string,
    projectId: string,
    commandIndex: int,
    command: string,
    projectPath: string,
    projectName: string,
    commandName: Option<string>,
    cronExpression: string,
    enabled: bool,
    notifyOnComplete: bool,
    timeoutMinutes: Option<int>,
    lastRunAt: Option<int>,
    lastExitCode: Option<int>)

  datatype Status = Success | Failed | Timeout | Error

  function StatusName(s: Status): string {
    match s
    case Success => "success"
    case Failed => "failed"
    case Timeout => "timeout"
    case Error => "error"
  }

  datatype Trigger = Scheduled | Manual
  datatype Mode = Terminal | Silent

  /** What a finished run reports: the fields the close/error handlers pass on. */
  datatype RunResult = RunResult(
    startTime: int, endTime: int, durationMs: int, exitCode: Option<int>,
    stdout: string, stderr: string, status: Status)

  datatype LogEntry = LogEntry(
    scheduleId: Option<string>, projectName: string, commandName: string, command: string,
    startTime: int, endTime: int, durationMs: int, exitCode: Option<int>,
    stdout: string, stderr: string, status: Status, trigger: Trigger, mode: Mode)

  /** The narrow post-run metadata write. */
  datatype MetaUpdate = MetaUpdate(scheduleId: string, lastRunAt: int, lastExitCode: Option<int>)

  /** A desktop notification, kept in its parts; `Body` renders the text. */
  datatype Notice = Notice(title: string, subject: string, statusText: string, seconds: int)

  /** The `schedule-executed` message sent to a live renderer window. */
  datatype Executed = Executed(scheduleId: string, status: Status)

  datatype Completion = Completion(
    log: LogEntry, meta: MetaUpdate, notice: Option<Notice>, event: Option<Executed>)

  // ---------------------------------------------------------------- capture

  /** Per-stream capture cap, in characters. */
  const MaxCapture: nat := 10 * 1024

  function Min(a: int, b: int): int { if a < b then a else b }

  /** One `data` event on a captured stream: append while under the cap, then
      cut back to the cap; a chunk arriving at or over the cap is dropped. */
  function Capture(buf: string, chunk: string): (r: string)
    ensures |buf| >= MaxCapture ==> r == buf
    ensures |buf| < MaxCapture ==> r <= buf + chunk && |r| == Min(|buf| + |chunk|, MaxCapture)
  {
    if |buf| < MaxCapture then
      var b := buf + chunk;
      if |b| > MaxCapture then b[..MaxCapture] else b
    else buf
  }

  function Concat(chunks: seq<string>): string {
    if |chunks| == 0 then "" else Concat(chunks[..|chunks| - 1]) + chunks[|chunks| - 1]
  }

  /** The buffer after the stream delivered `chunks`, starting from `''`. */
  function CaptureAll(chunks: seq<string>): string {
    if |chunks| == 0 then "" else Capture(CaptureAll(chunks[..|chunks| - 1]), chunks[|chunks| - 1])
  }

  /** The captured text is always the first `min(total, cap)` characters of all
      that was received: never over the cap, always a prefix, the whole stream
      while it fits, and exactly the cap once the stream outgrows it. */
  lemma {:induction false} CaptureIsCappedPrefix(chunks: seq<string>)
    ensures CaptureAll(chunks) == Concat(chunks)[..Min(|Concat(chunks)|, MaxCapture)]
    ensures |CaptureAll(chunks)| <= MaxCapture
    ensures CaptureAll(chunks) <= Concat(chunks)
    ensures |Concat(chunks)| <= MaxCapture ==> CaptureAll(chunks) == Concat(chunks)
    ensures |Concat(chunks)| >= MaxCapture ==> |CaptureAll(chunks)| == MaxCapture
  {
    if |chunks| > 0 {
      var init := chunks[..|chunks| - 1];
      var last := chunks[|chunks| - 1];
      CaptureIsCappedPrefix(init);
      var buf := CaptureAll(init);
      var whole := Concat(init);
      assert Concat(chunks) == whole + last;
      if |buf| < MaxCapture {
        assert buf == whole;
      } else {
        assert buf == whole[..MaxCapture];
        assert (whole + last)[..MaxCapture] == whole[..MaxCapture];
      }
    }
  }

  // ---------------------------------------------------------------- status

  predicate IsKillSignal(signal: Option<string>) {
    signal == Some("SIGTERM") || signal == Some("SIGKILL")
  }

  /** Status of a process that closed with `code` (null as `None`) after
      `signal`: a SIGTERM/SIGKILL death is a timeout, any other code but 0 —
      a null code included — a failure. */
  function Classify(code: Option<int>, signal: Option<string>): (st: Status)
    ensures st != Error
    ensures st == Timeout <==> IsKillSignal(signal)
    ensures st == Success <==> !IsKillSignal(signal) && code == Some(0)
    ensures st == Failed <==> !IsKillSignal(signal) && code != Some(0)
  {
    if IsKillSignal(signal) then Timeout
    else if code != Some(0) then Failed
    else Success
  }

  /** The record built by the `close` handler. */
  function CloseResult(startTime: int, endTime: int, code: Option<int>, signal: Option<string>,
                       stdout: string, stderr: string): (r: RunResult)
    ensures r.startTime == startTime && r.endTime == endTime
    ensures r.durationMs == r.endTime - r.startTime
    ensures r.exitCode == code && r.stdout == stdout && r.stderr == stderr
    ensures r.status == Classify(code, signal)
  {
    RunResult(startTime, endTime, endTime - startTime, code, stdout, stderr, Classify(code, signal))
  }

  /** The record built by the `error` handler: exit code -1, the error message
      in place of the captured stderr, status `error`. */
  function ErrorResult(startTime: int, endTime: int, message: string, stdout: string): (r: RunResult)
    ensures r.startTime == startTime && r.endTime == endTime
    ensures r.durationMs == r.endTime - r.startTime
    ensures r.exitCode == Some(-1) && r.stderr == message && r.stdout == stdout
    ensures r.status == Error
  {
    RunResult(startTime, endTime, endTime - startTime, Some(-1), stdout, message, Error)
  }

  // ---------------------------------------------------------------- timeout

  const DefaultTimeoutMinutes: int := 60
  const MsPerMinute: int := 60 * 1000

  /** `(timeoutMinutes || 60) * 60 * 1000`: an absent or zero budget means one hour. */
  function TimeoutMs(timeoutMinutes: Option<int>): (ms: int)
    ensures timeoutMinutes == None || timeoutMinutes == Some(0) ==> ms == 3600000
    ensures timeoutMinutes.Some? && timeoutMinutes.value != 0 ==> ms == timeoutMinutes.value * 60000
  {
    var minutes := if timeoutMinutes == None || timeoutMinutes == Some(0)
                   then DefaultTimeoutMinutes else timeoutMinutes.value;
    minutes * MsPerMinute
  }

  /** What a caller can rely on: no setting and a zero setting both mean the
      same hour as an explicit 60, the budget is whole minutes, and a longer
      positive setting never gives a shorter budget than a shorter one, which
      itself is at least a minute. */
  lemma TimeoutBudget(a: int, b: int)
    ensures TimeoutMs(None) == TimeoutMs(Some(0)) == TimeoutMs(Some(60))
    ensures TimeoutMs(Some(a)) % 60000 == 0
    ensures 0 < a <= b ==> 60000 <= TimeoutMs(Some(a)) <= TimeoutMs(Some(b))
  {
  }

  // ---------------------------------------------------------------- completion

  /** `Math.round(ms / 1000)`: the nearest whole second, halves rounded up. */
  function RoundSeconds(ms: int): (sec: int)
    ensures sec * 1000 - 500 <= ms < sec * 1000 + 500
  {
    (ms + 500) / 1000
  }

  /** JavaScript `s || d` on an optional string: empty and absent both fall back. */
  function OrElse(s: Option<string>, d: string): string {
    if s.Some? && s.value != "" then s.value else d
  }

  /** The notification text: `<name or command> — <status> (<n>s)`. */
  function Body(n: Notice): string {
    n.subject + " \U{2014} " + n.statusText + " (" + Text.IntToString(n.seconds) + "s)"
  }

  /** `_onComplete`: the log entry, the metadata write, the notification (only
      when the schedule asks for one) and the renderer event (only when a
      window is alive). */
  function OnComplete(s: Schedule, r: RunResult, windowAlive: bool): (c: Completion)
    ensures c.log.trigger == Scheduled && c.log.mode == Silent
    ensures c.log.scheduleId == Some(s.id)
    ensures c.log.projectName == s.projectName && c.log.command == s.command
    ensures c.log.commandName == OrElse(s.commandName, "")
    ensures c.log.startTime == r.startTime && c.log.endTime == r.endTime
    ensures c.log.durationMs == r.durationMs && c.log.exitCode == r.exitCode
    ensures c.log.stdout == r.stdout && c.log.stderr == r.stderr && c.log.status == r.status
    ensures c.meta == MetaUpdate(s.id, r.endTime, r.exitCode)
    ensures c.notice.Some? <==> s.notifyOnComplete
    ensures c.notice.Some? ==>
      && c.notice.value.title == "Schedule: " + s.projectName
      && c.notice.value.subject == OrElse(s.commandName, s.command)
      && (r.status == Success ==> c.notice.value.statusText == "completed")
      && (r.status != Success ==> c.notice.value.statusText == StatusName(r.status))
      && c.notice.value.seconds * 1000 - 500 <= r.durationMs < c.notice.value.seconds * 1000 + 500
    ensures c.event.Some? <==> windowAlive
    ensures c.event.Some? ==> c.event.value == Executed(s.id, r.status)
  {
    var log := LogEntry(Some(s.id), s.projectName, OrElse(s.commandName, ""), s.command,
                        r.startTime, r.endTime, r.durationMs, r.exitCode,
                        r.stdout, r.stderr, r.status, Scheduled, Silent);
    var statusText := if r.status == Success then "completed" else StatusName(r.status);
    var notice := if s.notifyOnComplete
                  then Some(Notice("Schedule: " + s.projectName, OrElse(s.commandName, s.command),
                                   statusText, RoundSeconds(r.durationMs)))
                  else None;
    var event := if windowAlive then Some(Executed(s.id, r.status)) else None;
    Completion(log, MetaUpdate(s.id, r.endTime, r.exitCode), notice, event)
  }
}

=== FILE: scheduler.dfy ===
/** The schedule engine as a state machine. Every JavaScript callback runs to
    completion on one event loop, so each public method and each process event
    is one atomic transition over:
    - `store`: the schedule table (its persistence methods are not part of the
      model; only what the engine asks of them is: lookup by id, merge, delete,
      metadata write, log append),
    - `jobs`: ids with a live cron task, and the expression it was made from,
    - `running`: the registry of ids with an in-flight process,
    - `live`: processes that have been spawned and have not yet reported
      `close` or `error` (a process killed with SIGTERM stays live until it does),
    plus the outputs the engine produces: log entries, SIGTERMs sent,
    notifications and renderer events.
    Cron validation is the parameter `valid`; process handles are opaque numbers. */
module Scheduler {
  import opened Wrappers
  import opened Execution

  type Handle = nat

  /** A cron task, remembered by the expression it was scheduled with. */
  datatype Task = Task(cronExpression: string)

  /** An in-flight execution: the schedule as reloaded at fire time, when it
      started, and what has been captured so far. */
  datatype Run = Run(scheduleId: string, snapshot: Schedule, startTime: int, stdout: string, stderr: string)

  /** The fields a caller may supply to `updateSchedule`; `None` leaves one as is. */
  datatype ScheduleUpdate = ScheduleUpdate(
    projectId: Option<string>, commandIndex: Option<int>, command: Option<string>,
    projectPath: Option<string>, projectName: Option<string>, commandName: Option<string>,
    cronExpression: Option<string>, enabled: Option<bool>, notifyOnComplete: Option<bool>,
    timeoutMinutes: Option<int>)

  datatype State = State(
    store: map<string, Schedule>,
    logs: seq<LogEntry>,
    jobs: map<string, Task>,
    running: map<string, Handle>,
    live: map<Handle, Run>,
    terminated: set<Handle>,
    notices: seq<Notice>,
    events: seq<Executed>)

  datatype ScheduleError = NotFound

  /** The engine right after construction, over a given schedule table. */
  function Initial(store: map<string, Schedule>): State {
    State(store, [], map[], map[], map[], {}, [], [])
  }

  // ---------------------------------------------------------------- helpers

  /** The store's merge of an update into a schedule. */
  function Merge(s: Schedule, u: ScheduleUpdate): (r: Schedule)
    ensures r.id == s.id && r.lastRunAt == s.lastRunAt && r.lastExitCode == s.lastExitCode
    ensures r.enabled == u.enabled.GetOr(s.enabled)
    ensures r.cronExpression == u.cronExpression.GetOr(s.cronExpression)
    ensures u == EnabledOnly(s.enabled) ==> r == s
  {
    s.(projectId := u.projectId.GetOr(s.projectId),
       commandIndex := u.commandIndex.GetOr(s.commandIndex),
       command := u.command.GetOr(s.command),
       projectPath := u.projectPath.GetOr(s.projectPath),
       projectName := u.projectName.GetOr(s.projectName),
       commandName := if u.commandName.Some? then u.commandName else s.commandName,
       cronExpression := u.cronExpression.GetOr(s.cronExpression),
       enabled := u.enabled.GetOr(s.enabled),
       notifyOnComplete := u.notifyOnComplete.GetOr(s.notifyOnComplete),
       timeoutMinutes := if u.timeoutMinutes.Some? then u.timeoutMinutes else s.timeoutMinutes)
  }

  /** The update `toggleSchedule` sends: `{ enabled }`. */
  function EnabledOnly(enabled: bool): ScheduleUpdate {
    ScheduleUpdate(None, None, None, None, None, None, None, Some(enabled), None, None)
  }

  /** `_startJob`: a task is registered only for a valid cron expression. */
  function StartJob(jobs: map<string, Task>, sc: Schedule, valid: string -> bool): (r: map<string, Task>)
    ensures valid(sc.cronExpression) ==> sc.id in r && r[sc.id] == Task(sc.cronExpression)
    ensures !valid(sc.cronExpression) ==> r == jobs
    ensures r.Keys <= jobs.Keys + {sc.id}
    ensures forall id :: id in jobs && id != sc.id ==> id in r && r[id] == jobs[id]
  {
    if valid(sc.cronExpression) then jobs[sc.id := Task(sc.cronExpression)] else jobs
  }

  /** `_stopJob`. */
  function StopJob(jobs: map<string, Task>, id: string): (r: map<string, Task>)
    ensures id !in r && r.Keys + {id} >= jobs.Keys
    ensures forall k :: k in r ==> k in jobs && r[k] == jobs[k]
  {
    jobs - {id}
  }

  /** True when `id` should have a task: it is stored, enabled and its cron is valid. */
  predicate ShouldRun(store: map<string, Schedule>, id: string, valid: string -> bool) {
    id in store && store[id].enabled && valid(store[id].cronExpression)
  }

  // ---------------------------------------------------------------- lifecycle

  /** `init`: start a task for every enabled schedule with a valid cron expression. */
  function Init(s: State, valid: string -> bool): (r: State)
    ensures r == s.(jobs := r.jobs)
    ensures forall id :: id in r.jobs <==> id in s.jobs || ShouldRun(s.store, id, valid)
    ensures forall id :: ShouldRun(s.store, id, valid) ==> r.jobs[id] == Task(s.store[id].cronExpression)
  {
    var started := map id | id in s.store && s.store[id].enabled && valid(s.store[id].cronExpression)
                     :: Task(s.store[id].cronExpression);
    s.(jobs := s.jobs + started)
  }

  /** `shutdown`: every task stopped, every in-flight process sent SIGTERM, both
      registries emptied. The processes themselves stay live until they close. */
  function Shutdown(s: State): (r: State)
    ensures r.jobs == map[] && r.running == map[]
    ensures r.terminated == s.terminated + s.running.Values
    ensures r.live == s.live && r.store == s.store && r.logs == s.logs
  {
    s.(jobs := map[], running := map[], terminated := s.terminated + s.running.Values)
  }

  /** `addSchedule`, given the record the store wrote (with its fresh id). */
  function AddSchedule(s: State, created: Schedule, valid: string -> bool): (r: (State, Schedule))
    ensures r.1 == created
    ensures r.0.store == s.store[created.id := created]
    ensures created.enabled && valid(created.cronExpression) ==>
              created.id in r.0.jobs && r.0.jobs[created.id] == Task(created.cronExpression)
    ensures forall id :: id != created.id ==> (id in r.0.jobs <==> id in s.jobs)
    ensures !(created.enabled && valid(created.cronExpression)) ==> r.0.jobs == s.jobs
    ensures r.0.running == s.running && r.0.live == s.live && r.0.logs == s.logs
    ensures r.0 == s.(store := r.0.store, jobs := r.0.jobs)
  {
    var jobs := if created.enabled then StartJob(s.jobs, created, valid) else s.jobs;
    (s.(store := s.store[created.id := created], jobs := jobs), created)
  }

  /** `updateSchedule`: stop its cron task, merge, restart iff the merged schedule
      is enabled (and its cron valid). An unknown id fails after the stop. */
  function UpdateSchedule(s: State, id: string, u: ScheduleUpdate, valid: string -> bool)
    : (r: (State, Result<Schedule, ScheduleError>))
    requires StoreKeyed(s.store)
    ensures id !in s.store ==> r.1 == Err(NotFound) && r.0 == s.(jobs := s.jobs - {id})
    ensures id in s.store ==> r.1 == Ok(Merge(s.store[id], u))
                              && r.0.store == s.store[id := Merge(s.store[id], u)]
    ensures id in r.0.jobs <==> ShouldRun(r.0.store, id, valid)
    ensures id in r.0.jobs ==> r.0.jobs[id] == Task(r.0.store[id].cronExpression)
    ensures r.0.jobs - {id} == s.jobs - {id}
    ensures r.0.running == s.running && r.0.live == s.live && r.0.logs == s.logs
    ensures r.0 == s.(store := r.0.store, jobs := r.0.jobs)
  {
    var jobs := StopJob(s.jobs, id);
    if id !in s.store then (s.(jobs := jobs), Err(NotFound))
    else
      var merged := Merge(s.store[id], u);
      var jobs' := if merged.enabled then StartJob(jobs, merged, valid) else jobs;
      (s.(store := s.store[id := merged], jobs := jobs'), Ok(merged))
  }

  /** `toggleSchedule`: the same stop/merge/restart cycle with `{ enabled }`,
      restarting iff the requested flag is on. */
  function ToggleSchedule(s: State, id: string, enabled: bool, valid: string -> bool)
    : (r: (State, Result<Schedule, ScheduleError>))
    requires StoreKeyed(s.store)
    ensures id !in s.store ==> r.1 == Err(NotFound) && r.0 == s.(jobs := s.jobs - {id})
    ensures id in s.store ==> r.1.Ok? && r.1.value.enabled == enabled
                              && r.0.store == s.store[id := s.store[id].(enabled := enabled)]
    ensures id in r.0.jobs <==> ShouldRun(r.0.store, id, valid)
    ensures id in r.0.jobs ==> r.0.jobs[id] == Task(r.0.store[id].cronExpression)
    ensures r.0.jobs - {id} == s.jobs - {id}
    ensures r.0.running == s.running && r.0.live == s.live && r.0.logs == s.logs
    ensures r.0 == s.(store := r.0.store, jobs := r.0.jobs)
  {
    var jobs := StopJob(s.jobs, id);
    if id !in s.store then (s.(jobs := jobs), Err(NotFound))
    else
      var merged := Merge(s.store[id], EnabledOnly(enabled));
      var jobs' := if enabled then StartJob(jobs, merged, valid) else jobs;
      (s.(store := s.store[id := merged], jobs := jobs'), Ok(merged))
  }

  /** `removeSchedule`: stop its cron task, SIGTERM and forget the in-flight process,
      delete the schedule; the answer says whether it was stored. */
  function RemoveSchedule(s: State, id: string): (r: (State, bool))
    ensures id !in r.0.jobs && id !in r.0.running && id !in r.0.store
    ensures r.1 <==> id in s.store
    ensures r.0.jobs == s.jobs - {id} && r.0.running == s.running - {id} && r.0.store == s.store - {id}
    ensures id in s.running ==> s.running[id] in r.0.terminated
    ensures r.0.terminated <= s.terminated + s.running.Values
    ensures r.0.terminated == if id in s.running then s.terminated + {s.running[id]} else s.terminated
    ensures r.0.live == s.live && r.0.logs == s.logs
    ensures r.0 == s.(jobs := r.0.jobs, running := r.0.running, store := r.0.store, terminated := r.0.terminated)
  {
    var terminated := if id in s.running then s.terminated + {s.running[id]} else s.terminated;
    (s.(jobs := StopJob(s.jobs, id), running := s.running - {id},
        store := s.store - {id}, terminated := terminated),
     id in s.store)
  }

  /** The ids of the stored schedules of one project. */
  function ProjectSchedules(store: map<string, Schedule>, projectId: string): set<string> {
    set id | id in store && store[id].projectId == projectId
  }

  /** `removeSchedulesByProject`: the same for every schedule of the project;
      answers how many were deleted. */
  function RemoveSchedulesByProject(s: State, projectId: string): (r: (State, nat))
    ensures forall id :: id in s.store && s.store[id].projectId == projectId ==>
              id !in r.0.jobs && id !in r.0.running && id !in r.0.store
    ensures forall id :: id in s.running && s.store.Keys >= {id} && s.store[id].projectId == projectId ==>
              s.running[id] in r.0.terminated
    ensures forall id :: id in s.store && s.store[id].projectId != projectId ==>
              id in r.0.store && r.0.store[id] == s.store[id]
    ensures r.1 == |ProjectSchedules(s.store, projectId)|
    ensures var ids := ProjectSchedules(s.store, projectId);
      && r.0.jobs == s.jobs - ids && r.0.running == s.running - ids && r.0.store == s.store - ids
      && r.0.terminated == s.terminated + (set id | id in ids && id in s.running :: s.running[id])
    ensures r.0.live == s.live && r.0.logs == s.logs
    ensures r.0 == s.(jobs := r.0.jobs, running := r.0.running, store := r.0.store, terminated := r.0.terminated)
  {
    var ids := ProjectSchedules(s.store, projectId);
    var killed := set id | id in ids && id in s.running :: s.running[id];
    (s.(jobs := s.jobs - ids, running := s.running - ids, store := s.store - ids,
        terminated := s.terminated + killed),
     |ids|)
  }

  // ---------------------------------------------------------------- execution

  /** A task fires for `id`: skipped while `id` is running, or when the stored
      schedule is gone or disabled; otherwise process `h` is spawned from the
      reloaded schedule and registered. */
  function Fire(s: State, id: string, h: Handle, startTime: int): (r: State)
    ensures id in s.running || id !in s.store || !s.store[id].enabled ==> r == s
    ensures id !in s.running && id in s.store && s.store[id].enabled ==>
              && r.running == s.running[id := h]
              && r.live == s.live[h := Run(id, s.store[id], startTime, "", "")]
              && r.jobs == s.jobs && r.store == s.store && r.logs == s.logs
              && r.notices == s.notices && r.events == s.events
    ensures r == s.(running := r.running, live := r.live)
  {
    if id in s.running then s
    else if id !in s.store || !s.store[id].enabled then s
    else s.(running := s.running[id := h], live := s.live[h := Run(id, s.store[id], startTime, "", "")])
  }

  /** A stdout chunk of process `h`. */
  function StdoutData(s: State, h: Handle, chunk: string): (r: State)
    ensures h !in s.live ==> r == s
    ensures h in s.live ==> h in r.live && r.live[h].stdout == Capture(s.live[h].stdout, chunk)
                            && r.live[h].scheduleId == s.live[h].scheduleId
                            && r.live.Keys == s.live.Keys && r.running == s.running
    ensures h in s.live ==> r.live[h] == s.live[h].(stdout := r.live[h].stdout)
                            && r.live == s.live[h := r.live[h]]
    ensures r == s.(live := r.live)
  {
    if h !in s.live then s
    else s.(live := s.live[h := s.live[h].(stdout := Capture(s.live[h].stdout, chunk))])
  }

  /** A stderr chunk of process `h`. */
  function StderrData(s: State, h: Handle, chunk: string): (r: State)
    ensures h !in s.live ==> r == s
    ensures h in s.live ==> h in r.live && r.live[h].stderr == Capture(s.live[h].stderr, chunk)
                            && r.live[h].scheduleId == s.live[h].scheduleId
                            && r.live.Keys == s.live.Keys && r.running == s.running
    ensures h in s.live ==> r.live[h] == s.live[h].(stderr := r.live[h].stderr)
                            && r.live == s.live[h := r.live[h]]
    ensures r == s.(live := r.live)
  {
    if h !in s.live then s
    else s.(live := s.live[h := s.live[h].(stderr := Capture(s.live[h].stderr, chunk))])
  }

  /** `updateScheduleMeta`: a no-op for a schedule deleted mid-run. */
  function ApplyMeta(store: map<string, Schedule>, m: MetaUpdate): (r: map<string, Schedule>)
    ensures r.Keys == store.Keys
    ensures forall id :: id in store && id != m.scheduleId ==> r[id] == store[id]
    ensures m.scheduleId in store ==>
              r[m.scheduleId] == store[m.scheduleId].(lastRunAt := Some(m.lastRunAt), lastExitCode := m.lastExitCode)
  {
    if m.scheduleId in store
    then store[m.scheduleId := store[m.scheduleId].(lastRunAt := Some(m.lastRunAt), lastExitCode := m.lastExitCode)]
    else store
  }

  function OptionToSeq<T>(o: Option<T>): seq<T> {
    if o.Some? then [o.value] else []
  }

  /** Shared tail of the `close` and `error` handlers: the registry entry for the
      run's id is deleted first, then `_onComplete` runs. */
  function Finish(s: State, h: Handle, result: RunResult, windowAlive: bool): (r: State)
    requires h in s.live
    ensures h !in r.live && r.live == s.live - {h}
    ensures s.live[h].scheduleId !in r.running && r.running == s.running - {s.live[h].scheduleId}
    ensures r.jobs == s.jobs && r.terminated == s.terminated
    ensures r.logs == s.logs + [OnComplete(s.live[h].snapshot, result, windowAlive).log]
    ensures r.store == ApplyMeta(s.store, MetaUpdate(s.live[h].snapshot.id, result.endTime, result.exitCode))
    ensures var c := OnComplete(s.live[h].snapshot, result, windowAlive);
      r.notices == s.notices + OptionToSeq(c.notice) && r.events == s.events + OptionToSeq(c.event)
    ensures r == s.(live := r.live, running := r.running, logs := r.logs, store := r.store,
                    notices := r.notices, events := r.events)
  {
    var run := s.live[h];
    var c := OnComplete(run.snapshot, result, windowAlive);
    s.(live := s.live - {h},
       running := s.running - {run.scheduleId},
       logs := s.logs + [c.log],
       store := ApplyMeta(s.store, c.meta),
       notices := s.notices + OptionToSeq(c.notice),
       events := s.events + OptionToSeq(c.event))
  }

  /** Process `h` closed with `code` after `signal`. */
  function Close(s: State, h: Handle, code: Option<int>, signal: Option<string>, endTime: int,
                 windowAlive: bool): (r: State)
    ensures h !in s.live ==> r == s
    ensures h in s.live ==>
              && s.live[h].scheduleId !in r.running
              && h !in r.live
              && |r.logs| == |s.logs| + 1
              && r.logs[|s.logs|].scheduleId == Some(s.live[h].snapshot.id)
              && r.logs[|s.logs|].status == Classify(code, signal)
              && r.logs[|s.logs|].exitCode == code
              && r.logs[|s.logs|].stdout == s.live[h].stdout
              && r.logs[|s.logs|].stderr == s.live[h].stderr
              && r.logs[|s.logs|].durationMs == endTime - s.live[h].startTime
              && r.jobs == s.jobs
    ensures h in s.live ==>
              && r.live == s.live - {h}
              && r.running == s.running - {s.live[h].scheduleId}
              && r.logs[..|s.logs|] == s.logs
              && r.store == ApplyMeta(s.store, MetaUpdate(s.live[h].snapshot.id, endTime, code))
              && r == s.(live := r.live, running := r.running, logs := r.logs, store := r.store,
                         notices := r.notices, events := r.events)
  {
    if h !in s.live then s
    else
      var run := s.live[h];
      Finish(s, h, CloseResult(run.startTime, endTime, code, signal, run.stdout, run.stderr), windowAlive)
  }

  /** Process `h` could not be spawned or failed with `message`. */
  function Error(s: State, h: Handle, message: string, endTime: int, windowAlive: bool): (r: State)
    ensures h !in s.live ==> r == s
    ensures h in s.live ==>
              && s.live[h].scheduleId !in r.running
              && h !in r.live
              && |r.logs| == |s.logs| + 1
              && r.logs[|s.logs|].scheduleId == Some(s.live[h].snapshot.id)
              && r.logs[|s.logs|].status == Execution.Error
              && r.logs[|s.logs|].exitCode == Some(-1)
              && r.logs[|s.logs|].stderr == message
              && r.jobs == s.jobs
    ensures h in s.live ==>
              && r.live == s.live - {h}
              && r.running == s.running - {s.live[h].scheduleId}
              && r.logs[..|s.logs|] == s.logs
              && r.store == ApplyMeta(s.store, MetaUpdate(s.live[h].snapshot.id, endTime, Some(-1)))
              && r == s.(live := r.live, running := r.running, logs := r.logs, store := r.store,
                         notices := r.notices, events := r.events)
  {
    if h !in s.live then s
    else
      var run := s.live[h];
      Finish(s, h, ErrorResult(run.startTime, endTime, message, run.stdout), windowAlive)
  }

  // ---------------------------------------------------------------- invariant

  predicate StoreKeyed(store: map<string, Schedule>) {
    forall id :: id in store ==> store[id].id == id
  }

  /** A task exists exactly for the ids that should run, made from their current
      cron expression. */
  ghost predicate JobsMatch(s: State, valid: string -> bool) {
    && (forall id :: id in s.jobs <==> ShouldRun(s.store, id, valid))
    && (forall id :: id in s.jobs ==> id in s.store && s.jobs[id].cronExpression == s.store[id].cronExpression)
  }

  /** Every registry entry names a live process of that schedule, only stored
      schedules are registered, and each run's reloaded record carries its id. */
  ghost predicate RegistryLive(s: State) {
    && (forall id :: id in s.running ==>
          id in s.store && s.running[id] in s.live && s.live[s.running[id]].scheduleId == id)
    && (forall h :: h in s.live ==> s.live[h].snapshot.id == s.live[h].scheduleId)
  }

  /** A live process that is not the registered one belongs to a deleted schedule. */
  ghost predicate OrphansUnstored(s: State) {
    forall h :: h in s.live ==>
      (s.live[h].scheduleId in s.running && s.running[s.live[h].scheduleId] == h)
      || s.live[h].scheduleId !in s.store
  }

  /** At most one live process per schedule id. */
  ghost predicate Exclusive(s: State) {
    forall h1, h2 :: h1 in s.live && h2 in s.live && s.live[h1].scheduleId == s.live[h2].scheduleId ==> h1 == h2
  }

  ghost predicate Inv(s: State, valid: string -> bool) {
    StoreKeyed(s.store) && JobsMatch(s, valid) && RegistryLive(s) && OrphansUnstored(s) && Exclusive(s)
  }

  /** `init` on a fresh engine establishes the invariant: tasks exist exactly
      for the enabled schedules with a valid cron expression. */
  lemma InitEstablishes(store: map<string, Schedule>, valid: string -> bool)
    requires StoreKeyed(store)
    ensures Inv(Init(Initial(store), valid), valid)
    ensures forall id :: id in Init(Initial(store), valid).jobs <==> ShouldRun(store, id, valid)
  {
  }

  /** The store hands out an id no schedule and no live process carries. */
  ghost predicate FreshSchedule(s: State, created: Schedule) {
    created.id !in s.store && forall h :: h in s.live ==> s.live[h].scheduleId != created.id
  }

  lemma AddPreserves(s: State, created: Schedule, valid: string -> bool)
    requires Inv(s, valid) && FreshSchedule(s, created)
    ensures Inv(AddSchedule(s, created, valid).0, valid)
  {
  }

  lemma UpdatePreserves(s: State, id: string, u: ScheduleUpdate, valid: string -> bool)
    requires Inv(s, valid)
    ensures Inv(UpdateSchedule(s, id, u, valid).0, valid)
  {
  }

  lemma TogglePreserves(s: State, id: string, enabled: bool, valid: string -> bool)
    requires Inv(s, valid)
    ensures Inv(ToggleSchedule(s, id, enabled, valid).0, valid)
  {
  }

  lemma RemovePreserves(s: State, id: string, valid: string -> bool)
    requires Inv(s, valid)
    ensures Inv(RemoveSchedule(s, id).0, valid)
  {
  }

  lemma RemoveByProjectPreserves(s: State, projectId: string, valid: string -> bool)
    requires Inv(s, valid)
    ensures Inv(RemoveSchedulesByProject(s, projectId).0, valid)
  {
  }

  /** A fire that proceeds cannot create a second process for its id: the
      registry check and the store check together exclude every other live one. */
  lemma FirePreserves(s: State, id: string, h: Handle, startTime: int, valid: string -> bool)
    requires Inv(s, valid) && h !in s.live
    ensures Inv(Fire(s, id, h, startTime), valid)
  {
    FireKeepsRegistry(s, id, h, startTime, valid);
  }

  lemma FireKeepsRegistry(s: State, id: string, h: Handle, startTime: int, valid: string -> bool)
    requires Inv(s, valid) && h !in s.live
    ensures var r := Fire(s, id, h, startTime); RegistryLive(r) && OrphansUnstored(r) && Exclusive(r)
  {
    FireKeepsExclusive(s, id, h, startTime, valid);
    var r := Fire(s, id, h, startTime);
    assert RegistryLive(r);
  }

  lemma FireKeepsExclusive(s: State, id: string, h: Handle, startTime: int, valid: string -> bool)
    requires Inv(s, valid) && h !in s.live
    ensures Exclusive(Fire(s, id, h, startTime))
  {
  }

  lemma DataPreserves(s: State, h: Handle, chunk: string, valid: string -> bool)
    requires Inv(s, valid)
    ensures Inv(StdoutData(s, h, chunk), valid) && Inv(StderrData(s, h, chunk), valid)
  {
    StdoutPreserves(s, h, chunk, valid);
    StderrPreserves(s, h, chunk, valid);
  }

  lemma StdoutPreserves(s: State, h: Handle, chunk: string, valid: string -> bool)
    requires Inv(s, valid)
    ensures Inv(StdoutData(s, h, chunk), valid)
  {
  }

  lemma StderrPreserves(s: State, h: Handle, chunk: string, valid: string -> bool)
    requires Inv(s, valid)
    ensures Inv(StderrData(s, h, chunk), valid)
  {
  }

  lemma FinishPreserves(s: State, h: Handle, result: RunResult, windowAlive: bool, valid: string -> bool)
    requires Inv(s, valid) && h in s.live
    ensures Inv(Finish(s, h, result, windowAlive), valid)
  {
    FinishKeepsStore(s, h, result, windowAlive, valid);
    FinishKeepsRegistry(s, h, result, windowAlive, valid);
  }

  lemma FinishKeepsStore(s: State, h: Handle, result: RunResult, windowAlive: bool, valid: string -> bool)
    requires Inv(s, valid) && h in s.live
    ensures var r := Finish(s, h, result, windowAlive); StoreKeyed(r.store) && JobsMatch(r, valid)
  {
  }

  lemma FinishKeepsRegistry(s: State, h: Handle, result: RunResult, windowAlive: bool, valid: string -> bool)
    requires Inv(s, valid) && h in s.live
    ensures var r := Finish(s, h, result, windowAlive); RegistryLive(r) && OrphansUnstored(r) && Exclusive(r)
  {
    var r := Finish(s, h, result, windowAlive);
    FinishKeepsLive(s, r, h);
    FinishKeepsOrphans(s, r, h);
  }

  /** What completion does to the registry, stated over the two states alone. */
  ghost predicate Completed(s: State, r: State, h: Handle) {
    && h in s.live
    && r.live == s.live - {h}
    && r.running == s.running - {s.live[h].scheduleId}
    && r.store.Keys == s.store.Keys
  }

  lemma FinishKeepsLive(s: State, r: State, h: Handle)
    requires RegistryLive(s) && Exclusive(s) && Completed(s, r, h)
    ensures RegistryLive(r) && Exclusive(r)
  {
  }

  lemma FinishKeepsOrphans(s: State, r: State, h: Handle)
    requires RegistryLive(s) && OrphansUnstored(s) && Completed(s, r, h)
    ensures OrphansUnstored(r)
  {
  }

  // ---------------------------------------------------------------- runs

  /** Everything that can happen to a running engine, short of `shutdown`. */
  datatype Event =
    | AddEv(created: Schedule)
    | UpdateEv(id: string, u: ScheduleUpdate)
    | ToggleEv(id: string, enabled: bool)
    | RemoveEv(id: string)
    | RemoveProjectEv(projectId: string)
    | FireEv(id: string, h: Handle, at: int)
    | StdoutEv(h: Handle, chunk: string)
    | StderrEv(h: Handle, chunk: string)
    | CloseEv(h: Handle, code: Option<int>, signal: Option<string>, at: int, windowAlive: bool)
    | ErrorEv(h: Handle, message: string, at: int, windowAlive: bool)

  /** One transition, under the environment's guarantees: the store hands out
      unused ids (uuid) and every spawn yields a new process. */
  ghost predicate Step(s: State, e: Event, s': State, valid: string -> bool) {
    match e
    case AddEv(c) => FreshSchedule(s, c) && s' == AddSchedule(s, c, valid).0
    case UpdateEv(id, u) => StoreKeyed(s.store) && s' == UpdateSchedule(s, id, u, valid).0
    case ToggleEv(id, en) => StoreKeyed(s.store) && s' == ToggleSchedule(s, id, en, valid).0
    case RemoveEv(id) => s' == RemoveSchedule(s, id).0
    case RemoveProjectEv(p) => s' == RemoveSchedulesByProject(s, p).0
    case FireEv(id, h, at) => h !in s.live && s' == Fire(s, id, h, at)
    case StdoutEv(h, chunk) => s' == StdoutData(s, h, chunk)
    case StderrEv(h, chunk) => s' == StderrData(s, h, chunk)
    case CloseEv(h, code, signal, at, w) => s' == Close(s, h, code, signal, at, w)
    case ErrorEv(h, msg, at, w) => s' == Error(s, h, msg, at, w)
  }

  lemma StepPreserves(s: State, e: Event, s': State, valid: string -> bool)
    requires Inv(s, valid) && Step(s, e, s', valid)
    ensures Inv(s', valid)
  {
    match e
    case AddEv(c) => AddPreserves(s, c, valid);
    case UpdateEv(id, u) => UpdatePreserves(s, id, u, valid);
    case ToggleEv(id, en) => TogglePreserves(s, id, en, valid);
    case RemoveEv(id) => RemovePreserves(s, id, valid);
    case RemoveProjectEv(p) => RemoveByProjectPreserves(s, p, valid);
    case FireEv(id, h, at) => FirePreserves(s, id, h, at, valid);
    case StdoutEv(h, chunk) => DataPreserves(s, h, chunk, valid);
    case StderrEv(h, chunk) => DataPreserves(s, h, chunk, valid);
    case CloseEv(h, code, signal, at, w) =>
      if h in s.live {
        var run := s.live[h];
        FinishPreserves(s, h, CloseResult(run.startTime, at, code, signal, run.stdout, run.stderr), w, valid);
      }
    case ErrorEv(h, msg, at, w) =>
      if h in s.live {
        var run := s.live[h];
        FinishPreserves(s, h, ErrorResult(run.startTime, at, msg, run.stdout), w, valid);
      }
  }

  /** `states` is the engine's history under `events`. */
  ghost predicate IsRun(states: seq<State>, events: seq<Event>, valid: string -> bool) {
    && |states| == |events| + 1
    && forall i :: 0 <= i < |events| ==> Step(states[i], events[i], states[i + 1], valid)
  }

  /** The exclusivity guarantee: in every state of a run that starts from the
      invariant, no schedule has two live processes, and tasks exist exactly
      for the stored, enabled, valid-cron schedules (so never two per id, and
      always from the latest cron expression). */
  lemma {:induction false} RunKeepsInvariant(states: seq<State>, events: seq<Event>, valid: string -> bool)
    requires IsRun(states, events, valid) && Inv(states[0], valid)
    ensures forall i :: 0 <= i < |states| ==> Inv(states[i], valid)
    ensures forall i :: 0 <= i < |states| ==> Exclusive(states[i]) && JobsMatch(states[i], valid)
  {
    if |events| > 0 {
      var n := |events|;
      assert IsRun(states[..n], events[..n - 1], valid) by {
        forall i | 0 <= i < n - 1
          ensures Step(states[..n][i], events[..n - 1][i], states[..n][i + 1], valid)
        {
          assert Step(states[i], events[i], states[i + 1], valid);
        }
      }
      RunKeepsInvariant(states[..n], events[..n - 1], valid);
      assert Inv(states[n - 1], valid) by {
        assert states[..n][n - 1] == states[n - 1];
      }
      StepPreserves(states[n - 1], events[n - 1], states[n], valid);
      forall i | 0 <= i < |states|
        ensures Inv(states[i], valid)
      {
        if i < n {
          assert states[..n][i] == states[i];
        }
      }
    }
  }

  /** A run that begins with `init` over a well-keyed table keeps the guarantee. */
  lemma {:induction false} RunFromInit(store: map<string, Schedule>, states: seq<State>, events: seq<Event>,
                                       valid: string -> bool)
    requires StoreKeyed(store)
    requires IsRun(states, events, valid) && states[0] == Init(Initial(store), valid)
    ensures forall i :: 0 <= i < |states| ==> Exclusive(states[i])
  {
    InitEstablishes(store, valid);
    RunKeepsInvariant(states, events, valid);
  }

  /** Why `shutdown` is not an `Event`: it forgets processes it only sent SIGTERM
      to, so an `init` after it can spawn a second process for a schedule whose
      first one has not closed yet. */
  lemma RestartAfterShutdownBreaksExclusivity()
    ensures var sc := Schedule("s1", "p1", 0, "sleep 90", "/tmp", "demo", None, "* * * * *",
                               true, false, None, None, None);
            var valid := (c: string) => true;
            var s1 := Fire(Init(Initial(map["s1" := sc]), valid), "s1", 1, 0);
            var s2 := Fire(Init(Shutdown(s1), valid), "s1", 2, 60000);
            !Exclusive(s2)
  {
    var sc := Schedule("s1", "p1", 0, "sleep 90", "/tmp", "demo", None, "* * * * *",
                       true, false, None, None, None);
    var valid := (c: string) => true;
    var s1 := Fire(Init(Initial(map["s1" := sc]), valid), "s1", 1, 0);
    var s2 := Fire(Init(Shutdown(s1), valid), "s1", 2, 60000);
    assert 1 in s2.live && 2 in s2.live;
    assert s2.live[1].scheduleId == s2.live[2].scheduleId;
  }
}

=== FILE: store.dfy ===
/** The Electron main process's project store: adding a project on top of the
    list, partial updates, replacing one command in place, importing a batch
    of exported projects, and the key/value settings. The JSON files are
    in-memory values; `fs.existsSync` is the `exists` parameter and each fresh
    uuid is passed in. */
module ProjectStore {
  import opened Wrappers
  import opened Projects

  // ---------------------------------------------------------------- add

  /** `addProject`: refuse a taken name, then a missing path; otherwise push
      every stored `order` down by one and put the new record first with
      `order` 0. */
  function AddProject(ps: seq<Project>, name: string, path: string,
                      commands: Option<seq<string>>, commandNames: Option<seq<string>>,
                      resultPath: Option<string>, pathExists: string -> bool, newId: string)
    : (r: Result<(seq<Project>, Project), ProjectError>)
    ensures HasName(ps, name) ==> r == Err(DuplicateName(name))
    ensures !HasName(ps, name) && !pathExists(path) ==> r == Err(PathMissing(path))
    ensures r.Ok? <==> !HasName(ps, name) && pathExists(path)
    ensures r.Ok? ==>
      var (qs, p) := r.value;
      && |qs| == |ps| + 1 && qs[0] == p
      && p.id == newId && p.name == name && p.path == path && p.order == Some(0)
      && p.commands == Some(commands.GetOr([]))
      && p.commandNames == Some(commandNames.GetOr([]))
      && p.defaultCommand == DefaultOf(commands.GetOr([]))
      && p.resultPath == resultPath.GetOr("")
      && forall i :: 0 <= i < |ps| ==> qs[i + 1] == ps[i].(order := Some(Key(ps[i]) + 1))
  {
    if HasName(ps, name) then Err(DuplicateName(name))
    else if !pathExists(path) then Err(PathMissing(path))
    else
      var cs := commands.GetOr([]);
      var p := Project(newId, name, path, Some(cs), Some(commandNames.GetOr([])),
                       DefaultOf(cs), resultPath.GetOr(""), Some(0));
      var shifted := seq(|ps|, i requires 0 <= i < |ps| => ps[i].(order := Some(Key(ps[i]) + 1)));
      Ok(([p] + shifted, p))
  }

  /** An added project is the one found under its id, and a list with unique
      names keeps them unique. */
  lemma AddThenGet(ps: seq<Project>, name: string, path: string,
                   commands: Option<seq<string>>, commandNames: Option<seq<string>>,
                   resultPath: Option<string>, pathExists: string -> bool, newId: string)
    requires AddProject(ps, name, path, commands, commandNames, resultPath, pathExists, newId).Ok?
    ensures var (qs, p) := AddProject(ps, name, path, commands, commandNames, resultPath, pathExists, newId).value;
      GetProject(qs, newId) == Some(p) && (NamesUnique(ps) ==> NamesUnique(qs))
  {
    var (qs, p) := AddProject(ps, name, path, commands, commandNames, resultPath, pathExists, newId).value;
    assert qs[..0] == [];
    if NamesUnique(ps) {
      forall i, j | 0 <= i < j < |qs| ensures qs[i].name != qs[j].name {
        if i == 0 {
          assert qs[j].name == ps[j - 1].name;
        } else {
          assert qs[i].name == ps[i - 1].name && qs[j].name == ps[j - 1].name;
        }
      }
    }
  }

  /** When no stored `order` is negative, the listing shows the new project
      first: everyone else's `order` has moved to at least 1. */
  lemma AddedProjectListedFirst(ps: seq<Project>, name: string, path: string,
                                commands: Option<seq<string>>, commandNames: Option<seq<string>>,
                                resultPath: Option<string>, pathExists: string -> bool, newId: string)
    requires forall i :: 0 <= i < |ps| ==> Key(ps[i]) >= 0
    requires AddProject(ps, name, path, commands, commandNames, resultPath, pathExists, newId).Ok?
    ensures var (qs, p) := AddProject(ps, name, path, commands, commandNames, resultPath, pathExists, newId).value;
      GetAllProjects(qs)[0] == p
  {
    var (qs, p) := AddProject(ps, name, path, commands, commandNames, resultPath, pathExists, newId).value;
    var b := Backfill(qs);
    var r := GetAllProjects(qs);
    GetAllProjectsSpec(qs);
    assert b[0] == p;
    forall i | 1 <= i < |b| ensures Key(b[i]) >= 1 {
      assert qs[i] == ps[i - 1].(order := Some(Key(ps[i - 1]) + 1));
    }
    assert p in multiset(r) by {
      assert p in multiset(b);
    }
    var t :| 0 <= t < |r| && r[t] == p;
    assert Key(r[0]) <= 0;
    assert r[0] in multiset(b);
    var i :| 0 <= i < |b| && b[i] == r[0];
    assert i == 0;
  }

  // ---------------------------------------------------------------- update

  /** The fields an `updateProject` call may carry; `None` leaves a field alone. */
  datatype ProjectUpdate = ProjectUpdate(
    name: Option<string>,
    path: Option<string>,
    commands: Option<seq<string>>,
    commandNames: Option<seq<string>>,
    resultPath: Option<string>)

  /** `updateProject`: the first project with the id takes the supplied
      fields; new commands also re-derive the default command. Refused for an
      unknown id, a name another project uses, or a missing path, in that
      order, with the list unchanged. */
  function UpdateProject(ps: seq<Project>, id: string, u: ProjectUpdate, pathExists: string -> bool)
    : (r: Result<(seq<Project>, Project), ProjectError>)
    ensures !HasId(ps, id) ==> r == Err(NotFound(id))
    ensures HasId(ps, id) && u.name.Some? && NameTakenByOther(ps, u.name.value, id) ==>
      r == Err(DuplicateName(u.name.value))
    ensures (HasId(ps, id) && !(u.name.Some? && NameTakenByOther(ps, u.name.value, id))
             && u.path.Some? && !pathExists(u.path.value)) ==> r == Err(PathMissing(u.path.value))
    ensures r.Ok? <==> (HasId(ps, id) && !(u.name.Some? && NameTakenByOther(ps, u.name.value, id))
                        && !(u.path.Some? && !pathExists(u.path.value)))
    ensures r.Ok? ==>
      var (qs, p) := r.value;
      var k := FindIndex(ps, id).value;
      var q := ps[k];
      && qs == ps[k := p]
      && p.id == id && p.order == q.order
      && p.name == u.name.GetOr(q.name) && p.path == u.path.GetOr(q.path)
      && p.commandNames == (if u.commandNames.Some? then u.commandNames else q.commandNames)
      && p.resultPath == u.resultPath.GetOr(q.resultPath)
      && (u.commands.Some? ==> p.commands == u.commands && p.defaultCommand == DefaultOf(u.commands.value))
      && (u.commands.None? ==> p.commands == q.commands && p.defaultCommand == q.defaultCommand)
  {
    match FindIndex(ps, id)
    case None => Err(NotFound(id))
    case Some(k) =>
      if u.name.Some? && NameTakenByOther(ps, u.name.value, id) then Err(DuplicateName(u.name.value))
      else if u.path.Some? && !pathExists(u.path.value) then Err(PathMissing(u.path.value))
      else
        var q := ps[k];
        var withCommands := if u.commands.Some?
                            then q.(commands := u.commands, defaultCommand := DefaultOf(u.commands.value))
                            else q;
        var p := withCommands.(name := u.name.GetOr(q.name), path := u.path.GetOr(q.path),
                               commandNames := if u.commandNames.Some? then u.commandNames else q.commandNames,
                               resultPath := u.resultPath.GetOr(q.resultPath));
        Ok((ps[k := p], p))
  }

  /** The updated record is what a lookup returns afterwards, and with
      distinct ids the update keeps names unique. */
  lemma UpdateThenGet(ps: seq<Project>, id: string, u: ProjectUpdate, pathExists: string -> bool)
    requires UpdateProject(ps, id, u, pathExists).Ok?
    ensures var (qs, p) := UpdateProject(ps, id, u, pathExists).value;
      GetProject(qs, id) == Some(p)
      && (NamesUnique(ps) && IdsDistinct(ps) ==> NamesUnique(qs))
  {
    var (qs, p) := UpdateProject(ps, id, u, pathExists).value;
    var k := FindIndex(ps, id).value;
    assert qs[..k] == ps[..k];
    FindIndexFirst(qs, id, k);
    if NamesUnique(ps) && IdsDistinct(ps) {
      forall i, j | 0 <= i < j < |qs| ensures qs[i].name != qs[j].name {
        assert u.name.Some? ==> !(ps[i].name == u.name.value && ps[i].id != id);
        assert u.name.Some? ==> !(ps[j].name == u.name.value && ps[j].id != id);
      }
    }
  }

  // ---------------------------------------------------------------- one command

  /** `updateCommandAtIndex`: replace one command of the first project with
      the id and re-derive its default command. An index outside the command
      list writes nothing; the project is returned either way, with a missing
      command list read as empty. */
  function UpdateCommandAtIndex(ps: seq<Project>, projectId: string, index: int, newCommand: string)
    : (r: Result<(seq<Project>, Project), ProjectError>)
    ensures r.Err? <==> !HasId(ps, projectId)
    ensures r.Err? ==> r.error == NotFound(projectId)
    ensures r.Ok? ==>
      var (qs, p) := r.value;
      var k := FindIndex(ps, projectId).value;
      var cs := ps[k].commands.GetOr([]);
      && p.commands.Some?
      && (index < 0 || index >= |cs| ==> qs == ps && p == ps[k].(commands := Some(cs)))
      && (0 <= index < |cs| ==>
            && qs == ps[k := p]
            && p == ps[k].(commands := p.commands, defaultCommand := p.defaultCommand)
            && |p.commands.value| == |cs|
            && p.commands.value[index] == newCommand
            && (forall j :: 0 <= j < |cs| && j != index ==> p.commands.value[j] == cs[j])
            && p.defaultCommand == DefaultOf(p.commands.value))
  {
    match FindIndex(ps, projectId)
    case None => Err(NotFound(projectId))
    case Some(k) =>
      var cs := ps[k].commands.GetOr([]);
      if 0 <= index < |cs| then
        var updated := cs[index := newCommand];
        var p := ps[k].(commands := Some(updated), defaultCommand := DefaultOf(updated));
        Ok((ps[k := p], p))
      else Ok((ps, ps[k].(commands := Some(cs))))
  }

  /** After an in-range replacement a lookup sees the new command there. */
  lemma UpdateCommandThenGet(ps: seq<Project>, projectId: string, index: int, newCommand: string)
    requires UpdateCommandAtIndex(ps, projectId, index, newCommand).Ok?
    requires 0 <= index < |ps[FindIndex(ps, projectId).value].commands.GetOr([])|
    ensures var qs := UpdateCommandAtIndex(ps, projectId, index, newCommand).value.0;
      && GetProject(qs, projectId).Some?
      && GetProject(qs, projectId).value.commands.Some?
      && index < |GetProject(qs, projectId).value.commands.value|
      && GetProject(qs, projectId).value.commands.value[index] == newCommand
  {
    var k := FindIndex(ps, projectId).value;
    var qs := UpdateCommandAtIndex(ps, projectId, index, newCommand).value.0;
    assert qs[..k] == ps[..k];
    FindIndexFirst(qs, projectId, k);
  }

  // ---------------------------------------------------------------- import

  /** One entry of an import file. A missing or empty `name`/`path` is `""`. */
  datatype ImportEntry = ImportEntry(
    name: string,
    path: string,
    commands: Option<seq<string>>,
    commandNames: Option<seq<string>>,
    defaultCommand: string,
    resultPath: Option<string>)

  predicate Complete(e: ImportEntry) {
    e.name != "" && e.path != ""
  }

  function CountComplete(es: seq<ImportEntry>): (n: nat)
    ensures n <= |es|
  {
    if |es| == 0 then 0 else (if Complete(es[0]) then 1 else 0) + CountComplete(es[1..])
  }

  /** The commands an entry is imported with: its list, else the legacy one. */
  function ImportCommands(e: ImportEntry): (r: seq<string>)
    ensures e.commands.Some? ==> r == e.commands.value
    ensures e.commands.None? ==> |r| <= 1 && (r == [] <==> e.defaultCommand == "")
    ensures e.commands.None? && e.defaultCommand != "" ==> r == [e.defaultCommand]
  {
    e.commands.GetOr(LegacyCommands(e.defaultCommand))
  }

  /** The import loop over `es`; `made` uuids were handed out before. Returns
      the list, the imported count and the skipped count. */
  function ImportLoop(ps: seq<Project>, es: seq<ImportEntry>, pathExists: string -> bool,
                      uuid: nat -> string, made: nat): (r: (seq<Project>, nat, nat))
    ensures r.1 + r.2 == |es|
    ensures |r.0| == |ps| + r.1
    ensures r.1 <= CountComplete(es)
    decreases |es|
  {
    if |es| == 0 then (ps, 0, 0)
    else
      var e := es[0];
      if !Complete(e) then
        var t := ImportLoop(ps, es[1..], pathExists, uuid, made);
        (t.0, t.1, t.2 + 1)
      else
        match AddProject(ps, e.name, e.path, Some(ImportCommands(e)), Some(e.commandNames.GetOr([])),
                         e.resultPath, pathExists, uuid(made))
        case Err(_) =>
          var t := ImportLoop(ps, es[1..], pathExists, uuid, made);
          (t.0, t.1, t.2 + 1)
        case Ok((qs, _)) =>
          var t := ImportLoop(qs, es[1..], pathExists, uuid, made + 1);
          (t.0, t.1 + 1, t.2)
  }

  /** `importData`: refuse data without a project list; otherwise add each
      entry, counting every entry as imported or skipped exactly once and
      skipping every entry without a name or path. */
  function ImportData(ps: seq<Project>, data: Option<seq<ImportEntry>>, pathExists: string -> bool,
                      uuid: nat -> string): (r: Result<(seq<Project>, nat, nat), ProjectError>)
    ensures data.None? <==> r.Err?
    ensures r.Err? ==> r.error == MissingProjects
    ensures r.Ok? ==>
      && r.value.1 + r.value.2 == |data.value|
      && |r.value.0| == |ps| + r.value.1
      && r.value.2 >= |data.value| - CountComplete(data.value)
  {
    match data
    case None => Err(MissingProjects)
    case Some(es) => Ok(ImportLoop(ps, es, pathExists, uuid, 0))
  }

  /** Entries whose names are new (to the store and to each other) and whose
      paths exist are all imported. */
  ghost predicate Importable(ps: seq<Project>, es: seq<ImportEntry>, pathExists: string -> bool) {
    && (forall i :: 0 <= i < |es| ==> Complete(es[i]) && pathExists(es[i].path) && !HasName(ps, es[i].name))
    && (forall i, j :: 0 <= i < j < |es| ==> es[i].name != es[j].name)
  }

  lemma {:induction false} ImportAllFresh(ps: seq<Project>, es: seq<ImportEntry>, pathExists: string -> bool,
                                          uuid: nat -> string, made: nat)
    requires Importable(ps, es, pathExists)
    ensures ImportLoop(ps, es, pathExists, uuid, made).2 == 0
    ensures ImportLoop(ps, es, pathExists, uuid, made).1 == |es|
    decreases |es|
  {
    if |es| > 0 {
      var e := es[0];
      var add := AddProject(ps, e.name, e.path, Some(ImportCommands(e)), Some(e.commandNames.GetOr([])),
                            e.resultPath, pathExists, uuid(made));
      assert add.Ok?;
      var qs := add.value.0;
      assert Importable(qs, es[1..], pathExists) by {
        forall i | 0 <= i < |es| - 1 ensures !HasName(qs, es[1..][i].name) {
          var n := es[i + 1].name;
          assert n != e.name;
          forall j | 0 <= j < |qs| ensures qs[j].name != n {
            if j > 0 {
              assert qs[j].name == ps[j - 1].name;
            }
          }
        }
      }
      ImportAllFresh(qs, es[1..], pathExists, uuid, made + 1);
    }
  }

  // ---------------------------------------------------------------- settings

  /** `getSetting`: the stored value, or null for a missing key. */
  function GetSetting(settings: map<string, string>, key: string): (v: Option<string>)
    ensures v.Some? <==> key in settings
    ensures v.Some? ==> v.value == settings[key]
  {
    if key in settings then Some(settings[key]) else None
  }

  /** `setSetting`: write one key. */
  function SetSetting(settings: map<string, string>, key: string, value: string): (r: map<string, string>)
    ensures key in r && r[key] == value
    ensures r.Keys == settings.Keys + {key}
    ensures forall k :: k in settings && k != key ==> r[k] == settings[k]
  {
    settings[key := value]
  }

  /** Reading a key after writing it gives the written value; other keys read
      as before. */
  lemma SettingRoundTrip(settings: map<string, string>, key: string, value: string, other: string)
    requires other != key
    ensures GetSetting(SetSetting(settings, key, value), key) == Some(value)
    ensures GetSetting(SetSetting(settings, key, value), other) == GetSetting(settings, other)
  {
  }
}

=== FILE: text.dfy ===
/** String helpers shared by the JavaScript and Python halves of the launcher:
    the two languages' whitespace classes, trimming, ASCII lower-casing, infix
    search, splitting on one character and joining with a separator. Strings are
    sequences of Unicode scalar values. */
module Text {

  /** JavaScript's `\s` regex class, which is also what `String.prototype.trim`
      removes (WhiteSpace and LineTerminator of ECMA-262). */
  predicate IsJsSpace(c: char) {
    || c == ' ' || c == '\t' || c == '\n' || c == '\U{B}' || c == '\U{C}' || c == '\r'
    || c == '\U{A0}' || c == '\U{1680}' || ('\U{2000}' <= c <= '\U{200A}')
    || c == '\U{2028}' || c == '\U{2029}' || c == '\U{202F}' || c == '\U{205F}'
    || c == '\U{3000}' || c == '\U{FEFF}'
  }

  /** The characters Python's argument-less `str.strip()` removes (`str.isspace`). */
  predicate IsPySpace(c: char) {
    || c == ' ' || c == '\t' || c == '\n' || c == '\U{B}' || c == '\U{C}' || c == '\r'
    || ('\U{1C}' <= c <= '\U{1F}') || c == '\U{85}'
    || c == '\U{A0}' || c == '\U{1680}' || ('\U{2000}' <= c <= '\U{200A}')
    || c == '\U{2028}' || c == '\U{2029}' || c == '\U{202F}' || c == '\U{205F}'
    || c == '\U{3000}'
  }

  /** `s` without its leading characters of class `ws`. */
  function TrimStart(s: string, ws: char -> bool): (r: string)
    ensures |r| <= |s| && r == s[|s| - |r|..]
    ensures forall i :: 0 <= i < |s| - |r| ==> ws(s[i])
    ensures r == [] || !ws(r[0])
    decreases |s|
  {
    if |s| > 0 && ws(s[0]) then TrimStart(s[1..], ws) else s
  }

  /** `s` without its trailing characters of class `ws`. */
  function TrimEnd(s: string, ws: char -> bool): (r: string)
    ensures |r| <= |s| && r == s[..|r|]
    ensures forall i :: |r| <= i < |s| ==> ws(s[i])
    ensures r == [] || !ws(r[|r| - 1])
    decreases |s|
  {
    if |s| > 0 && ws(s[|s| - 1]) then TrimEnd(s[..|s| - 1], ws) else s
  }

  /** The number of leading `ws` characters of `s`. */
  function LeadingCount(s: string, ws: char -> bool): nat {
    |s| - |TrimStart(s, ws)|
  }

  /** `s` with a run of `ws` characters cut from each end: the result is the
      infix of `s` starting after its leading whitespace, everything cut is
      whitespace, and neither end of the result is. */
  function Trim(s: string, ws: char -> bool): (r: string)
    ensures LeadingCount(s, ws) + |r| <= |s|
    ensures r == s[LeadingCount(s, ws)..LeadingCount(s, ws) + |r|]
    ensures forall i :: 0 <= i < LeadingCount(s, ws) ==> ws(s[i])
    ensures forall i :: LeadingCount(s, ws) + |r| <= i < |s| ==> ws(s[i])
    ensures Trimmed(r, ws)
  {
    TrimEnd(TrimStart(s, ws), ws)
  }

  /** Neither end of `s` is a `ws` character. */
  predicate Trimmed(s: string, ws: char -> bool) {
    s == [] || (!ws(s[0]) && !ws(s[|s| - 1]))
  }

  /** JavaScript `s.trim()`. */
  function JsTrim(s: string): string {
    Trim(s, IsJsSpace)
  }

  /** Python `s.strip()`. */
  function PyStrip(s: string): string {
    Trim(s, IsPySpace)
  }

  /** Trimming only removes characters: one absent before is absent after. */
  lemma TrimAbsent(s: string, ws: char -> bool, c: char)
    requires c !in s
    ensures c !in Trim(s, ws)
  {
    var r := Trim(s, ws);
    var a := LeadingCount(s, ws);
    forall j | 0 <= j < |r| ensures r[j] != c {
      assert r[j] == s[a + j];
    }
  }

  /** Trimming a trimmed string changes nothing. */
  lemma TrimIdempotent(s: string, ws: char -> bool)
    ensures Trim(Trim(s, ws), ws) == Trim(s, ws)
  {
    var r := Trim(s, ws);
    assert TrimStart(r, ws) == r;
    assert TrimEnd(r, ws) == r;
  }

  /** A string with no `ws` character at either end is its own trim. */
  lemma TrimOfTrimmed(s: string, ws: char -> bool)
    requires Trimmed(s, ws)
    ensures Trim(s, ws) == s
  {
    assert TrimStart(s, ws) == s;
    assert TrimEnd(s, ws) == s;
  }

  /** The trim is empty exactly when every character is whitespace. */
  lemma TrimEmptyIff(s: string, ws: char -> bool)
    ensures Trim(s, ws) == [] <==> forall i :: 0 <= i < |s| ==> ws(s[i])
  {
    var r := Trim(s, ws);
    var a := LeadingCount(s, ws);
    if r != [] {
      assert r[0] == s[a];
    }
  }

  function LowerChar(c: char): char {
    if 'A' <= c <= 'Z' then (c as int + 32) as char else c
  }

  /** ASCII lower-casing (`toLowerCase` restricted to A-Z). */
  function Lower(s: string): (r: string)
    ensures |r| == |s|
    ensures forall i :: 0 <= i < |s| ==> r[i] == LowerChar(s[i])
  {
    seq(|s|, i requires 0 <= i < |s| => LowerChar(s[i]))
  }

  /** `s.includes(sub)` / Python `sub in s`. */
  predicate Contains(s: string, sub: string) {
    exists i | 0 <= i <= |s| - |sub| :: OccursAt(s, sub, i)
  }

  predicate OccursAt(s: string, sub: string, i: nat) {
    i + |sub| <= |s| && s[i..i + |sub|] == sub
  }

  /** The index of the first `c` in `s`. */
  function IndexOf(s: string, c: char): (k: nat)
    requires c in s
    ensures k < |s| && s[k] == c && c !in s[..k]
  {
    if s[0] == c then 0 else 1 + IndexOf(s[1..], c)
  }

  /** Python `s.split(sep)` for a one-character separator: the pieces between
      separators, always at least one. */
  function Split(s: string, sep: char): (r: seq<string>)
    ensures |r| >= 1
    ensures forall i :: 0 <= i < |r| ==> sep !in r[i]
    decreases |s|
  {
    if sep !in s then [s]
    else
      var k := IndexOf(s, sep);
      [s[..k]] + Split(s[k + 1..], sep)
  }

  /** `xs.join(sep)` (JavaScript) / `sep.join(xs)` (Python). */
  function Join(sep: string, xs: seq<string>): string
  {
    if |xs| == 0 then ""
    else if |xs| == 1 then xs[0]
    else xs[0] + sep + Join(sep, xs[1..])
  }

  function SumLengths(xs: seq<string>): nat {
    if |xs| == 0 then 0 else |xs[0]| + SumLengths(xs[1..])
  }

  /** Joining adds exactly one separator between consecutive pieces. */
  lemma {:induction false} JoinLength(sep: string, xs: seq<string>)
    requires |xs| >= 1
    ensures |Join(sep, xs)| == SumLengths(xs) + |sep| * (|xs| - 1)
  {
    if |xs| > 1 {
      JoinLength(sep, xs[1..]);
    }
  }

  /** Joining the pieces of a split with the separator gives back the string. */
  lemma {:induction false} JoinSplit(s: string, sep: char)
    ensures Join([sep], Split(s, sep)) == s
    decreases |s|
  {
    if sep in s {
      var k := IndexOf(s, sep);
      JoinSplit(s[k + 1..], sep);
      var rest := Split(s[k + 1..], sep);
      assert Split(s, sep) == [s[..k]] + rest;
      assert ([s[..k]] + rest)[1..] == rest;
      assert s == s[..k] + [sep] + s[k + 1..];
    }
  }

  /** The first separator of `a + [c] + b` is the one after `a` when `a` has none. */
  lemma {:induction false} IndexOfAfter(a: string, b: string, c: char)
    requires c !in a
    ensures c in a + [c] + b && IndexOf(a + [c] + b, c) == |a|
  {
    assert (a + [c] + b)[|a|] == c;
    if |a| > 0 {
      IndexOfAfter(a[1..], b, c);
      assert (a + [c] + b)[1..] == a[1..] + [c] + b;
    }
  }

  /** Splitting a join of separator-free pieces gives back the pieces. */
  lemma {:induction false} SplitJoin(xs: seq<string>, sep: char)
    requires |xs| >= 1
    requires forall i :: 0 <= i < |xs| ==> sep !in xs[i]
    ensures Split(Join([sep], xs), sep) == xs
  {
    if |xs| == 1 {
      assert Join([sep], xs) == xs[0];
    } else {
      var tail := Join([sep], xs[1..]);
      JoinHead([sep], xs);
      SplitStep(xs[0], tail, sep);
      SplitJoin(xs[1..], sep);
      assert [xs[0]] + xs[1..] == xs;
    }
  }

  /** The split stops at the first separator. */
  lemma SplitStep(a: string, b: string, c: char)
    requires c !in a
    ensures Split(a + [c] + b, c) == [a] + Split(b, c)
  {
    var s := a + [c] + b;
    IndexOfAfter(a, b, c);
    assert s[..|a|] == a;
    assert s[|a| + 1..] == b;
  }

  /** Where piece `i` starts in `Join(sep, xs)`. */
  function PieceStart(sep: string, xs: seq<string>, i: nat): nat
    requires i < |xs|
  {
    if i == 0 then 0 else |xs[0]| + |sep| + PieceStart(sep, xs[1..], i - 1)
  }

  lemma OccursShift(a: string, b: string, sub: string, i: nat)
    requires OccursAt(b, sub, i)
    ensures OccursAt(a + b, sub, |a| + i)
  {
    assert (a + b)[|a| + i..|a| + i + |sub|] == b[i..i + |sub|];
  }

  /** A join is its pieces laid end to end with one separator between each
      neighbouring pair, and the last piece ends the string. */
  lemma {:induction false} JoinPieces(sep: string, xs: seq<string>, i: nat)
    requires i < |xs|
    ensures OccursAt(Join(sep, xs), xs[i], PieceStart(sep, xs, i))
    ensures i + 1 < |xs| ==> OccursAt(Join(sep, xs), sep, PieceStart(sep, xs, i) + |xs[i]|)
    ensures i + 1 == |xs| ==> PieceStart(sep, xs, i) + |xs[i]| == |Join(sep, xs)|
  {
    if |xs| > 1 {
      JoinHead(sep, xs);
      if i > 0 {
        var rest := Join(sep, xs[1..]);
        var k := PieceStart(sep, xs[1..], i - 1);
        JoinPieces(sep, xs[1..], i - 1);
        OccursShift(xs[0] + sep, rest, xs[i], k);
        if i + 1 < |xs| {
          OccursShift(xs[0] + sep, rest, sep, k + |xs[i]|);
        }
      }
    }
  }

  /** A join of pieces whose first and last are non-empty starts with the
      first piece's first character and ends with the last piece's last. */
  lemma JoinEnds(sep: string, xs: seq<string>)
    requires |xs| > 0 && xs[0] != [] && xs[|xs| - 1] != []
    ensures var j := Join(sep, xs); var last := xs[|xs| - 1];
      |j| > 0 && j[0] == xs[0][0] && j[|j| - 1] == last[|last| - 1]
  {
    var j := Join(sep, xs);
    var n := |xs|;
    JoinPieces(sep, xs, 0);
    JoinPieces(sep, xs, n - 1);
    var st := PieceStart(sep, xs, n - 1);
    assert j[st..st + |xs[n - 1]|] == xs[n - 1];
    assert j[..|xs[0]|] == xs[0];
  }

  lemma JoinHead(sep: string, xs: seq<string>)
    requires |xs| > 1
    ensures Join(sep, xs) == xs[0] + sep + Join(sep, xs[1..])
    ensures OccursAt(Join(sep, xs), xs[0], 0) && OccursAt(Join(sep, xs), sep, |xs[0]|)
  {
    var j := Join(sep, xs);
    assert j[..|xs[0]|] == xs[0];
    assert j[|xs[0]|..|xs[0]| + |sep|] == sep;
  }

  function DigitChar(d: nat): char
    requires d < 10
  {
    ('0' as int + d) as char
  }

  /** Decimal rendering of an integer, as a JavaScript template literal prints it. */
  function IntToString(n: int): string
    decreases if n < 0 then 1 - n else n
  {
    if n < 0 then "-" + IntToString(-n)
    else if n < 10 then [DigitChar(n)]
    else IntToString(n / 10) + [DigitChar(n % 10)]
  }
}

=== FILE: wrappers.dfy ===
/** Option and Result values shared by every module of the launcher model.
    `None` stands for a JavaScript `undefined`/`null` or a Python `None`; `Err`
    stands for a thrown `Error`/`ValueError`, carrying the kind of failure. */
module Wrappers {

  datatype Option<+T> = None | Some(value: T) {

    /** The wrapped value, or `default` when absent (JavaScript `x ?? d`). */
    function GetOr(default: T): T {
      match this
      case Some(v) => v
      case None => default
    }
  }

  datatype Result<+T, +E> = Ok(value: T) | Err(error: E)
}
